=== FILE: README.md ===
# kalgan request/response core in Dafny

A functional model of the per-connection path of the kalgan web framework. The model covers:

- how a connection's bytes are framed into a request buffer (`src/handler/resolver.rs`);
- how the buffer is parsed into a `Request`: the request line, `Host`, `User-Agent`, `Referer`, cookies, url-encoded and multipart form fields, and uploaded files (`src/http/request.rs`);
- how the request is dispatched:
  - the static-file bypass (`src/handler/asset.rs`);
  - the configuration reload gate and cookie renewal (`src/handler/resolver.rs`);
  - route resolution with the default language (`src/handler/controller.rs`);
  - the optional middleware (`src/handler/middleware.rs`);
  - the error pages (`src/handler/error.rs`);
- how a `Response` and its `Set-Cookie` lines are built and serialised to bytes (`src/http/response.rs`, `src/storage/cookie.rs`);
- the configuration getters the core reads (`src/settings.rs`).

The model uses pure functions over immutable datatypes:

- Strings are `seq<char>` and bytes are `seq<byte>`.
- The configuration is a `map<string, Value>`.
- The stream is the sequence of chunks its reads return.
- The clock is two seconds-of-day values.
- The application's controller factory, middleware factory and route lookup are function-valued parameters.
- So are the percent decoder and the file reader.
- Every factory call made while answering a request is recorded in a trace (`Handlers.Handled`). Contracts can then say which controller and middleware ran, in which order, and on which request.

Modules follow the source files:

| Module | File | Covers |
|---|---|---|
| `Settings` | `settings.dfy` | `src/settings.rs` |
| `Cookies` | `cookie.dfy` | `src/storage/cookie.rs` |
| `Responses` | `response.dfy` | `src/http/response.rs` |
| `Requests` | `request.dfy` | `src/http/request.rs`, except the form input and the files |
| `Forms` | `forms.dfy` | `parse_input` |
| `Multipart` | `multipart.dfy` | `parse_files` |
| `Handlers` | `handlers.dfy` | the shared factory types |
| `ErrorHandler` | `errors.dfy` | `error.rs` |
| `Middleware` | `middleware.dfy` | `middleware.rs` |
| `Controller` | `controller.dfy` | `controller.rs` |
| `Assets` | `assets.dfy` | `asset.rs` |
| `Resolver` | `resolver.dfy` | `resolver.rs` |

Supporting modules:

- `Text`: find, split, join, replace and trim, as the Rust standard library defines them.
- `Patterns`: the leftmost-match regex scans the parser uses.
- `Numbers`: decimal printing and u64 wrap-around.
- `Bytes`: Latin-1 and UTF-8 views of bytes.
- `Maps`: `HashMap::insert` in a loop.
- `Wrappers`: `Option` and `Result`.

Partial reads in the source are modelled as follows:

- A `Regex::find` that may fail becomes an `Option`.
- Each panic the parser can hit becomes an explicit outcome:
  - `Requests.Reading.Panicked`;
  - a `Crash` entry in a form or file list;
  - `None` from `Forms.FormInput` or `Multipart.Files`.
- A function, lemma or contract can therefore name exactly the inputs on which the source panics.

## Model

| member | source | states |
|---|---|---|
| Settings.GetString | src/settings.rs:18-20 | a value exactly when the key is present and holds a string, and then that string; a missing key or a value of another type gives none |
| Settings.GetBool | src/settings.rs:24-26 | a value exactly when the key is present and holds a boolean, and then that boolean |
| Settings.GetNumber | src/settings.rs:30-32 | a value exactly when the key is present and holds a number, and then that number |
| Settings.GettersRecover | src/settings.rs:18-32 | at most one getter gives a value for a key, none does for a missing key, and a string, number or boolean setting is recovered exactly from the getter that gives it |
| Settings.GetAfterSet | src/settings.rs:18-32 | a value stored under a key is read back by the getter of its type, and every getter of every other key gives what it gave before |
| Settings.RefreshConfigTimeout | src/settings.rs:51-63 | the configured `environment.refresh_config_timeout` cast to u64 (so always below 2^64), or 3 when the key is missing or not a number |
| Settings.IsProd | src/settings.rs:66-78 | the configured `environment.is_prod` flag, and false when the key is missing or not a boolean |
| Settings.IsProdFlag | src/settings.rs:66-78 | production exactly when the boolean getter reads `environment.is_prod` as true |
| Cookies.New | src/storage/cookie.rs:20-31 | the framework's default cookie: name `Kalgan`, the fixed default value, max-age of one day in milliseconds, no expiry or domain, path `/`, secure and HTTP-only |
| Cookies.Set | src/storage/cookie.rs:127-165 | a setter changes exactly the attribute it names and leaves the other seven unchanged |
| Cookies.SetFromSettings | src/storage/cookie.rs:59-125 | each of the eight attributes takes `cookie.<name>.<attribute>` from the configuration when that key holds a value of the attribute's type (max_age cast to u64), and otherwise keeps its current value |
| Cookies.SetFromSettingsIdempotent | src/storage/cookie.rs:59-125 | applying the same settings twice gives the same cookie as applying them once, and an empty configuration changes nothing |
| Cookies.CreateFramed | src/storage/cookie.rs:33-57 | a cookie without carriage returns is written as exactly one CRLF-led header line |
| Cookies.ReadCreate | src/storage/cookie.rs:33-57 | a `Set-Cookie` attribute parser reads the corrected line (the one printing `Expires=<expires>`, see Findings) back to the cookie's name, value, Max-Age, Expires, Domain, Path, Secure and HttpOnly; the optional attributes appear exactly when set |
| Cookies.CreateWithoutExpiry | src/storage/cookie.rs:39-43 | for a cookie without an expiry, the line as the source writes it equals the corrected line |
| Cookies.ExpiresPrintsMaxAge | src/storage/cookie.rs:39-43 | as written, the `Expires` attribute reads back as the max-age number, so the cookie does not round-trip whenever its expiry differs from that number |
| Responses.Reason | src/http/response.rs:48-60 | the phrase `set_status` writes for each known code (`OK`, `Moved Permanently`, `Found`, `Forbidden`, `Not Found`, `Internal Server Error`, `Service Unavailable`) and an empty one for every other code, with no carriage return |
| Responses.StatusLine | src/http/response.rs:48-60 | `HTTP/1.1 `, the printed code, a space and its phrase for a known code; empty exactly for the other codes |
| Responses.StatusLineRoundTrip | src/http/response.rs:48-60 | the status line of a known code reads back as `HTTP/1.1`, that code and its reason phrase |
| Responses.SetStatus | src/http/response.rs:48-60 | the status becomes the code's status line (empty for an unknown code), and no other field changes |
| Responses.SetStatusOk | src/http/response.rs:44-46 | a new response given status 200 stores exactly `HTTP/1.1 200 OK`, the text the documentation example checks |
| Responses.SetStatusNotFound | src/http/response.rs:53 | status 404 is stored as exactly `HTTP/1.1 404 Not Found` |
| Responses.SetContentType | src/http/response.rs:71-74 | the content-type field carries the type followed by `;`, and no other field changes |
| Responses.SetLocation | src/http/response.rs:85-88 | the location field carries the url, and no other field changes |
| Responses.AddCookie | src/http/response.rs:102-105 | the cookie is appended after the earlier ones, which keep their order, and no other field changes |
| Responses.AddCookieWrites | src/http/response.rs:178-184 | adding a cookie extends the written cookie headers by exactly that cookie's corrected line (`Cookies.Create`) |
| Responses.NoExpiryAsWritten | src/http/response.rs:178-184 | for cookies without an expiry, the cookie headers written with the corrected line equal those written with the line the source prints (`Cookies.CreateAsWritten`) |
| Responses.AddSession | src/http/response.rs:113-129 | when `session.<name>.cookie` names a cookie, a cookie configured from `cookie.<that name>.*` and carrying the session key is appended; otherwise the response is unchanged |
| Responses.SetContent | src/http/response.rs:140-143 | the body is replaced and no other field changes |
| Responses.SetContentLength | src/http/response.rs:154-157 | the length field is stored, but the bytes `create` writes do not change, because `create` never writes that field |
| Responses.Create | src/http/response.rs:165-176 | for ASCII text the bytes written are the response text, one byte per character; cookie lines are the corrected ones |
| Responses.ReadCreate | src/http/response.rs:165-184 | the written text of a well-formed response splits back into its head lines (status, location, each cookie's corrected line, content type) and its body after the blank line |
| Responses.AddCookiesReadBack | src/http/response.rs:165-184 | after appending cookies to a well-formed response, the written text reads back as the original status, location and cookie lines, then one line per appended cookie, then the content type and the body |
| Responses.BuildersWellFormed | src/http/response.rs:48-105 | setting a known status, a content type, a location or a cookie keeps a response well-formed |
| Responses.Document | src/http/response.rs:196-227 | status 200, the given content type, the body, and a content length equal to the body's UTF-8 byte count |
| Responses.Json | src/http/response.rs:196-202 | a JSON document whose content length is the character count for ASCII bodies |
| Responses.Xml | src/http/response.rs:221-227 | an XML document whose content length is the character count for ASCII bodies |
| Responses.DocumentReadBack | src/http/response.rs:196-227 | a document's written text reads back as the 200 status line, its content type and its body |
| Responses.Redirect | src/http/response.rs:238-240 | status 302 with a Location field carrying the url, and no content type, cookies or body |
| Responses.RedirectReadBack | src/http/response.rs:238-240 | a redirect's written text reads back as the 302 status line, the Location line and an empty body |
| Requests.ParseRequestLine | src/http/request.rs:37-42 | a request line exists exactly when the first line has at least three space-separated tokens; the method and protocol are the first and third |
| Requests.RequestLineRoundTrip | src/http/request.rs:37-42 | `METHOD uri PROTOCOL` reads back as that method, the percent-decoded uri and that protocol |
| Requests.HeaderField | src/http/request.rs:238-252 | empty when the header name does not occur; the result contains no space and does not end in CR or LF |
| Requests.HeaderRoundTrip | src/http/request.rs:238-252 | a `Name: value` line, at the first occurrence of the name, reads back as the value with its spaces removed; the value may hold `:` and spaces, but no line break and not the name itself |
| Requests.DecodedRoundTrip | src/http/request.rs:226-236 | a decoded header line reads back as the percent-decoded value with its spaces removed |
| Requests.HostRoundTrip | src/http/request.rs:226-236 | the `Host:` line (a `localhost:8080` included) reads back as the percent-decoded host with its spaces removed |
| Requests.CookiesAbsent | src/http/request.rs:200-224 | without a `Cookie:` header the cookie map is empty |
| Requests.CookieRoundTrip | src/http/request.rs:200-224 | a `Cookie: k1=v1; k2=v2 ...` header reads back as the map that inserts those pairs in order, a later duplicate winning; names and values may hold `:`, but no whitespace, no `;` and not `Cookie:`, and names no `=` |
| Requests.Read | src/http/request.rs:35-53 | no request exactly when the first line has fewer than three tokens; otherwise a panic exactly when the cookies, the form input or the files cannot be read; a parsed request keeps the raw text, starts with no middleware data and no route, and its line, cookies, host, user agent, referer, input and files are each what its own parser gives for that text (the files from the corrected file parser) |
| Requests.ReadPlain | src/http/request.rs:35-53 | a request whose first line has three tokens, which holds a line break, and which has no `Cookie:` line and no multipart content type never panics: it is parsed, with no cookies, no files, and the url-encoded pairs of its body as input |
| Requests.ReadFilesAsWritten | src/http/request.rs:332-425 | when the source's own file parser reads the buffer, the parsed request stores files under exactly its keys, with its filenames and content types |
| Requests.ReadFiles | src/http/request.rs:378-401 | every stored file lies inside the buffer and starts right after a blank line, as the later-file scan places it; with the corrected parser, this holds for the first file too |
| Requests.FileContent | src/http/request.rs:11-15 | a file's bytes are as many as its bounds span |
| Forms.FormEntry | src/http/request.rs:283-300 | a parameter is skipped exactly when it has no `=`, and it never panics |
| Forms.UrlEncodedPanics | src/http/request.rs:283-300 | the url-encoded parser panics exactly when the request has no CRLF (fewer than two lines) |
| Forms.UrlEncodedRoundTrip | src/http/request.rs:283-300 | a body `k1=v1&k2=v2...` after the blank line reads back as the decoded pairs, with `+` read as a space in values |
| Forms.FieldEntry | src/http/request.rs:261-280 | a part is skipped exactly when it is not a plain field, and it panics exactly when it is a field with no CRLF after its header line |
| Forms.FieldPartEntry | src/http/request.rs:261-280 | a field part `name="n"` followed by a blank line and a value line reads back as the decoded name without its spaces and double quotes, and the decoded value; the name may hold spaces and `:` |
| Forms.MultipartPanics | src/http/request.rs:260-282 | the multipart field parser panics exactly when some field part has no CRLF after its header line |
| Forms.MultipartKeys | src/http/request.rs:260-282 | a key is in the multipart input exactly when some field part's decoded name equals it |
| Multipart.FileHead | src/http/request.rs:332-375 | a part is skipped exactly when its first line does not name a file with a non-empty `filename`; a file part panics exactly when it has fewer than four lines or its last line is found before its fourth |
| Multipart.PartLineFound | src/http/request.rs:371-375 | every line of a part is found in the part, so the two `find(..).unwrap()` calls cannot fail |
| Multipart.FileKeyOf | src/http/request.rs:402-412 | the key read from a browser's `Content-Disposition: form-data; name="n"; filename="f"` line is `n` |
| Multipart.FileNameOf | src/http/request.rs:361-414 | that line contains `filename=`, and the filename read from it is `f` without its spaces |
| Multipart.ContentTypeOfLine | src/http/request.rs:363-370 | the content type read from `Content-Type: t` is `t` without its spaces and double quotes |
| Multipart.FilePartLines | src/http/request.rs:356-359 | a browser-written file part splits into its disposition line, its content-type line, the blank line, the content and the closing line |
| Multipart.FilePartContent | src/http/request.rs:371-376 | the text between the fourth and the last line of such a part is the content line |
| Multipart.FilePartHead | src/http/request.rs:355-418 | a browser-written file part `name="n"; filename="f"` with content type `t` and content `c` yields a file under key `n` with filename `f` less spaces, content type `t` less spaces and quotes, and content text `c` |
| Multipart.HeaderEndFirst | src/http/request.rs:378-390 | the content start found from a cursor is at or before the end of the first blank line after the cursor |
| Multipart.FileSpan | src/http/request.rs:391-401 | the scan stops where the boundary occurs four bytes after the content end, and the content before it holds no boundary |
| Multipart.FileAt | src/http/request.rs:391-418 | a stored file starts where asked, carries the part's filename and content type, ends four characters before a boundary, and holds no boundary |
| Multipart.PartEntryHead | src/http/request.rs:402-418 | a part yields a file exactly under the key its header names, and it is skipped exactly when the header names none |
| Multipart.FilesKeys | src/http/request.rs:402-418 | with the corrected start, a key is in the file map exactly when some part's header names a file under that key |
| Multipart.FilesBounded | src/http/request.rs:378-401 | with the corrected start, every stored file starts right after a blank line, as the later-file scan places it, ends four characters before a boundary, and holds no boundary |
| Multipart.FilesWithin | src/http/request.rs:378-401 | with the corrected start, every stored file's bounds lie within the raw text and the file starts right after a blank line |
| Multipart.NoMultipartNoFiles | src/http/request.rs:363-370 | without a multipart content type the file map is empty |
| Multipart.WrittenFilesKeys | src/http/request.rs:355-418 | as written, a key is in the file map exactly when some part's header names a file under that key |
| Multipart.WrittenFilesSpanned | src/http/request.rs:391-418 | as written, every stored file ends four characters before a boundary and holds no boundary |
| Multipart.WrittenFilesWithin | src/http/request.rs:371-418 | as written, every stored file's bounds lie within the raw text |
| Multipart.WrittenNoMultipartNoFiles | src/http/request.rs:363-370 | as written, without a multipart content type the file map is empty |
| Multipart.FilesAgree | src/http/request.rs:332-425 | where both the as-written and the corrected reading succeed, they store files under the same keys with the same filenames and content types; only the bounds can differ |
| Multipart.CorrectedStart | src/http/request.rs:376-390 | a file's content starts after its own part's header, no later than just after the first blank line inside that part |
| Multipart.FirstFileStartsEarly | src/http/request.rs:371-377 | as written, an empty first file's start is found at or before its own part header |
| Multipart.FirstFileTakesHeader | src/http/request.rs:376-377 | as written, an empty first file's stored content starts at or before its part header |
| Multipart.LaterFileStartsEarly | src/http/request.rs:378-390 | as written, a later file's start is the first blank line after the previous file, even one in an earlier field part |
| Multipart.LaterFileTakesHeader | src/http/request.rs:378-390 | as written, such a later file's stored content starts at or before its own part header |
| Multipart.LaterFileIsField | src/http/request.rs:378-401 | as written, when a blank line and then a boundary lie between the previous file and a later file part, the stored file starts no later than just after that blank line and ends at least four characters before that boundary, before the file's own part |
| ErrorHandler.ErrorText | src/handler/error.rs:33-39 | a non-empty text exactly for 403, 404, 500 and 503, equal to the phrase `set_status` writes for that code (`Forbidden`, `Not Found`, `Internal Server Error`, `Service Unavailable`) |
| ErrorHandler.Contents | src/handler/error.rs:40-55 | in production the page shows only the code's fixed text; otherwise it shows the code, the message, a break and the raw request |
| ErrorHandler.Page | src/handler/error.rs:68-72 | an HTML page with the code's status line, the contents as body and their UTF-8 length |
| ErrorHandler.PageReadBack | src/handler/error.rs:68-72 | an error page's written text reads back as its status line, the HTML content type and its body |
| ErrorHandler.Render | src/handler/error.rs:12-30 | when `error.<code>` names a controller, it alone is called once on the request, and its response is sent, or an internal page carrying its error; otherwise the internal page is sent with no call; the route controller and middleware never run |
| ErrorHandler.ProdPageHides | src/handler/error.rs:40-45 | in production without an error controller the page does not depend on the message or the request |
| Middleware.MissingFactory | src/handler/middleware.rs:47 | the error text names both the middleware and the controller |
| Middleware.Proceed | src/handler/middleware.rs:30-36 | the controller runs once, first, on the given request; its response is sent when it succeeds, and otherwise the 500 page rendered with its error |
| Middleware.Left | src/handler/middleware.rs:18-28 | without a factory the request is untouched; with one, the request is whatever the middleware left through its `&mut Request`, which may be a whole new request |
| Middleware.Resolve | src/handler/middleware.rs:18-49 | no factory: a 500 and nothing runs; otherwise the middleware runs exactly once, first; the controller runs at most once, only after a successful outcome and on the request as the middleware left it; every call after the middleware sees that request; each of the five outcomes (middleware error, controller success, controller error, middleware response, no response) sends its own response |
| Controller.WithLanguage | src/handler/controller.rs:23-28 | a route without a language takes `i18n.language.default` when configured; otherwise the route is unchanged |
| Controller.Resolve | src/handler/controller.rs:12-54 | no route: a 404 with the lookup's message and no controller or middleware call; a route without a middleware runs its controller once, first, and sends its response or a 500; a route with one hands over to the middleware resolver |
| Controller.Dispatched | src/handler/controller.rs:12-53 | the request after dispatch: unchanged without a route; differing only in its route when no middleware runs; otherwise whatever the middleware left |
| Controller.DispatchedCalls | src/handler/controller.rs:35-51 | every controller and error call made while dispatching sees the dispatched request |
| Controller.RoutedCalls | src/handler/controller.rs:22-38 | the first factory call for a routed request sees the request carrying the route with its language filled in |
| Assets.StaticFilePrefix | src/handler/asset.rs:11-29 | a uri is a static file exactly when it starts with `/<folder>/` for one of the configured static folders |
| Assets.IsStaticFile | src/handler/asset.rs:11-29 | without `static.folders` nothing is a static file |
| Assets.ContentType | src/handler/asset.rs:53-89 | the table's type for the uri's extension, or `application/octet-stream` when the extension is unknown |
| Assets.ContentTypeOf | src/handler/asset.rs:53-89 | a name ending in a listed extension gets that extension's first listed type |
| Assets.UnknownContentType | src/handler/asset.rs:53-89 | a name ending in an unlisted extension gets `application/octet-stream` |
| Assets.CleanStaticFile | src/handler/asset.rs:91-96 | the uri cut before its first `?` (the whole uri without one), with the `/`s in front removed: a suffix of the cut preceded only by `/`, not starting with `/`, with no `?` |
| Assets.QueryStart | src/handler/asset.rs:92-95 | the position of the first `?`, or the uri's length when there is none |
| Assets.CleanIdempotent | src/handler/asset.rs:91-96 | cleaning a cleaned path changes nothing |
| Assets.ServeStatic | src/handler/asset.rs:31-51 | a missing file writes nothing; otherwise the written 200 head with the file's content type, the two bytes `\n\n`, then exactly the file's bytes |
| Assets.StaticHeadReadBack | src/handler/asset.rs:31-51 | the static head's written text reads back as the 200 status line and the content type |
| Resolver.ReadRequest | src/handler/resolver.rs:24-32 | reads stop after the first short chunk; every chunk before it is full, and the data is those chunks joined in order |
| Resolver.RefreshConfig | src/handler/resolver.rs:106-113 | the stored time becomes now, and a reload is due exactly when the elapsed seconds exceed the timeout |
| Resolver.MidnightRefresh | src/handler/resolver.rs:106-113 | across midnight the negative elapsed time wraps to a huge u64, so a reload is always due |
| Resolver.Gate | src/handler/resolver.rs:65-70 | production never reloads and keeps the stored time; otherwise the refresh rule decides |
| Resolver.RenewOne | src/handler/resolver.rs:76-101 | a cookie name is renewed exactly when its configured cookie name is among the request's cookies, and then with that cookie's value |
| Resolver.Renew | src/handler/resolver.rs:76-101 | without `cookie.renew` the response is unchanged; otherwise the renewed cookies are appended in the listed order |
| Resolver.RenewedValues | src/handler/resolver.rs:76-101 | every renewed cookie comes from some listed name |
| Resolver.Respond | src/handler/resolver.rs:59-104 | the stored time is kept in production and becomes now otherwise; the configuration is the given one or the reloaded one, never reloaded in production, and outside it (for an elapsed time in u64 range) reloaded exactly when the elapsed time exceeds the timeout; for any other uri the bytes are the dispatched response plus the cookies renewed from the request as dispatched, after any middleware |
| Resolver.StaticIgnoresHandlers | src/handler/resolver.rs:72-73 | for a static uri the bytes, stored time and configuration do not depend on the controller or middleware factory: the handlers are bypassed |
| Resolver.RespondReadBack | src/handler/resolver.rs:74-102 | for any other uri, the written text reads back as the dispatched response's status, location and cookie lines, then one line per cookie renewed from the request as dispatched (a middleware may have changed its cookies), then its content type and body |
| Resolver.ProdKeepsTime | src/handler/resolver.rs:65-70 | in production the stored time and the configuration stay as they were |
| Resolver.Execute | src/handler/resolver.rs:15-57 | a buffer whose first line has fewer than three tokens writes nothing; the stored time is kept in production and becomes now for a request read outside it; a request writes exactly what `Respond` answers, whole |
| Resolver.WriteOnce | src/handler/resolver.rs:37-44 | one `write` call sends a prefix of the answer, as long as the stream accepts |
| Resolver.WriteOnceShort | src/handler/resolver.rs:37-44 | a stream that accepts fewer bytes than the answer leaves a non-empty tail unsent; one that accepts at least as many sends it whole |
| Resolver.ExecuteAsWritten | src/handler/resolver.rs:15-57 | as written, a request writes a prefix of what `Respond` answers, cut to what the stream accepts in one call, and the stored time is as for `Execute` |

## Left out

- The TCP listener, the thread pool and the workers (`src/server/*`) are left out. They are concurrency and I/O. Each connection is modelled as one call of `Resolver.Execute`.
- Logging (`info!`, `warn!`, `debug!`) is left out, since it has no effect on what is written.
- Stream errors are left out. A failing `read`, `write` or `flush` makes the source panic through `unwrap`, and the model assumes these calls succeed.
- Resolver.ReadRequest: when every chunk is full, the model stops at the end of the chunks, where the source would block on the next read. The stream is finite in the model.
- The Tera template branches are left out. These are `template.rs`, the `render` helpers and the template error page. Templates are a foreign engine.
- Reloading the i18n messages is left out. It is another module's file I/O. A reload is modelled as switching to the `latest` configuration and route table, which are parameters.
- Requests.Read and Resolver.Execute require the buffer to be ASCII. `String::from_utf8_lossy` then maps each byte to one character, so string offsets and byte offsets agree. Non-ASCII input is not modelled.
- Percent decoding (`urlencoding::decode`) is a parameter `decode`. Only the fallback to the undecoded text on failure is modelled.
- The route table lookup (`kalgan_router`) is the parameter `lookup`. The controller and middleware factories are parameters.
- `kalgan_string::strip` and its left and right forms are assumed to remove every repetition of the character at that end. The crate is not part of this model.
- The `kalgan_config` getters are assumed to fail on a value of another type. `get_float` and `get_vec` are not used by the modelled core.
- The regular expressions are modelled by explicit leftmost scans. The multipart boundary that the source interpolates into a regex is treated as a literal, so regex metacharacters in a boundary are not interpreted.
- Times are integer seconds of the day (`NaiveTime` differences). The stored time is an input and an output, not shared mutable state under a lock.
- Cookies.Create: the exact text checked by the unit test at src/storage/cookie.rs:178-181 is not proved as a literal. The defaults (`Cookies.New`) and the round trip (`Cookies.ReadCreate`) cover what it checks.
- Cookies.ReadCreate holds only for some cookies. Their name and value contain no `;`, and the name has no `=`. Their expiry, domain and path contain no `;` and do not end in whitespace. Other cookies do not round-trip through a `Set-Cookie` parser.
- Controller.Resolve requires that a route without a language never meets an `i18n.language.default` value that is not a string. That case is the source's `unwrap` panic at src/handler/controller.rs:26-27. Resolver.Respond, Resolver.ProdKeepsTime and Resolver.Execute inherit this requirement.
- Responses.Create states its bytes only for ASCII text. Non-ASCII text is encoded as UTF-8 (`Bytes.Utf8`) with no further contract.
- The response getters, the `Mock` helpers and the `Request` getters are plain field reads of the datatypes. They have no separate members.
- Responses.Create writes each cookie with the corrected line (`Cookies.Create`, `Expires=<expires>`), where src/storage/cookie.rs:42 prints `Expires=<max_age>`. The two agree for cookies without an expiry (`Responses.NoExpiryAsWritten`). `Cookies.ExpiresPrintsMaxAge` states the difference.
- Responses.ReadCreate reads back the corrected cookie lines, for the same reason as `Responses.Create`.
- Responses.AddCookieWrites extends the headers by the corrected cookie line, for the same reason as `Responses.Create`.
- Requests.Read stores the files of the corrected parser (`Multipart.Files`), not those of `parse_files` as written (`Multipart.WrittenFiles`). The two differ in two ways. An empty first file starts after its blank line rather than at its own part header. A file part with no blank line after its header panics only in the corrected reading, where the source's `find` still succeeds. `Requests.ReadFilesAsWritten` states that the keys, filenames and content types agree whenever the source reads the files.
- Requests.ReadFiles describes the corrected parser's files. As written, an empty first file starts at its own part header (`Multipart.FirstFileTakesHeader`).
- Multipart.FilesKeys is stated for the corrected reading. `Multipart.WrittenFilesKeys` states the same for `parse_files` as written.
- Multipart.FilesBounded is stated for the corrected reading. As written, only the end bound holds for every file (`Multipart.WrittenFilesSpanned`).
- Multipart.FilesWithin is stated for the corrected reading. As written, only the bounds hold (`Multipart.WrittenFilesWithin`).
- Resolver.Respond writes the corrected response and cookie lines, for the reasons given for `Responses.Create`.
- Resolver.Execute parses with the corrected file parser and writes with the corrected cookie line, for the reasons given for `Requests.Read` and `Responses.Create`. On the inputs where only the corrected reading panics, it writes nothing where the source answers.
- Resolver.Execute writes the whole answer, as `write_all` would. The source makes one `write` call and discards its count, so a stream may take only a prefix; `Resolver.ExecuteAsWritten` models that (see Findings).
- Multipart.FilePartHead covers parts whose content is one non-empty line and whose content and closing line do not occur earlier in the part. The source finds each by its first occurrence; the empty-content case is the first Findings row.
- Middleware.Left and Controller.Dispatched leave the replacement request unconstrained: the application's middleware is a parameter, and any request it leaves is admitted.
- Forms.FieldPartEntry does not cover a field name that itself holds the text `Content-Disposition: form-data; name=`. The source removes every occurrence of that text from the line, not only the leading one, so such a key would lose part of the name.
- The services under `src/service/*` and sessions beyond `add_session`'s configuration lookup are not part of this model. These are CSRF, database, mail, password, token and url.

## Findings

| source | as written | input that shows it | evidently intended | confidence | as-written member | corrected member |
|---|---|---|---|---|---|---|
| src/storage/cookie.rs:39-43 | the `Expires` attribute prints `max_age` instead of `expires` | any cookie with a non-empty `expires` that differs from its max-age, e.g. expires `Wed, 21 Oct 2026 07:28:00 GMT` | `Expires=<expires>` | high, not executed | Cookies.ExpiresPrintsMaxAge | Cookies.ReadCreate |
| src/http/request.rs:371-377 | the first file's content start is `request.find(content)`, the first occurrence anywhere in the request | an empty first file (nothing between its blank line and the boundary): the fourth line is empty, so the found content is the part's own header text and the stored file starts at or before the part header | the start is just after the blank line that ends the part's own headers | high, not executed | Multipart.FirstFileTakesHeader | Multipart.CorrectedStart |
| src/http/request.rs:378-390 | a later file's start is the first blank line after the previous file's end | a text field part between two file parts: the field's blank line comes first, so the second file's content starts in the field and ends at the field's closing boundary; the stored file is the field's value, not the file | the start is just after the blank line inside the file's own part | high, not executed | Multipart.LaterFileIsField | Multipart.CorrectedStart |
| src/handler/resolver.rs:37-44 | the answer is sent with one `stream.write(..)` call whose returned count is discarded | a socket whose send buffer takes fewer bytes than the answer in one call | the whole answer is sent (`write_all`) | medium, not executed | Resolver.ExecuteAsWritten | Resolver.Execute |

=== FILE: assets.dfy ===
/**
 * The static-file handler of src/handler/asset.rs: which URIs are static files, the content
 * type of a file name, the path a URI names, and the bytes sent for it. The file system is a
 * function from paths to the bytes read, `None` when the read fails.
 */
module Assets {
  import opened Wrappers
  import opened Text
  import opened Bytes
  import opened Settings
  import opened Responses

  const StaticFoldersKey: string := "static.folders"

  /** One configured folder as the URI must name it: trimmed, then without `/` at either end. */
  function Folder(entry: string): string
  {
    Strip(Trim(entry), '/')
  }

  /** The prefix a URI in the folder starts with. */
  function FolderPrefix(folder: string): string
  {
    "/" + folder + "/"
  }

  /** The test of the source's loop: the URI contains the folder and `/<folder>/` is found at index 0. */
  predicate InFolder(uri: string, folder: string)
  {
    Contains(uri, folder) && Find(uri, FolderPrefix(folder)) == Some(0)
  }

  /** The test amounts to the URI starting with `/<folder>/`. */
  lemma InFolderPrefix(uri: string, folder: string)
    ensures InFolder(uri, folder) <==> StartsWith(uri, FolderPrefix(folder))
  {
    var p := FolderPrefix(folder);
    if StartsWith(uri, p) {
      var head := uri[..|p|];
      assert head == p && uri[0..|p|] == head;
      assert OccursAt(uri, p, 0);
      assert p[1..1 + |folder|] == folder;
      assert uri[1..1 + |folder|] == head[1..1 + |folder|];
      assert OccursAt(uri, folder, 1);
      OccursImpliesContains(uri, folder, 1);
    }
    if InFolder(uri, folder) {
      assert OccursAt(uri, p, 0);
      assert uri[..|p|] == uri[0..|p|];
    }
  }

  /** The loop over the configured folders: true at the first folder the URI is in. */
  function AnyFolder(uri: string, folders: seq<string>): (r: bool)
    decreases |folders|
  {
    if |folders| == 0 then false
    else if InFolder(uri, folders[0]) then true
    else AnyFolder(uri, folders[1..])
  }

  /** The loop finds a folder exactly when the URI is in one of them. */
  lemma {:induction false} AnyFolderIn(uri: string, folders: seq<string>)
    ensures AnyFolder(uri, folders) <==> exists i :: 0 <= i < |folders| && InFolder(uri, folders[i])
    decreases |folders|
  {
    if |folders| > 0 {
      AnyFolderIn(uri, folders[1..]);
      assert forall i :: 1 <= i < |folders| ==> folders[i] == folders[1..][i - 1];
    }
  }

  /** The loop finds a folder exactly when one of them prefixes the URI as `/<folder>/`. */
  lemma AnyFolderPrefix(uri: string, folders: seq<string>)
    ensures AnyFolder(uri, folders) <==>
      exists i :: 0 <= i < |folders| && StartsWith(uri, FolderPrefix(folders[i]))
  {
    AnyFolderIn(uri, folders);
    forall i | 0 <= i < |folders|
      ensures InFolder(uri, folders[i]) <==> StartsWith(uri, FolderPrefix(folders[i]))
    {
      InFolderPrefix(uri, folders[i]);
    }
  }

  /** The configured folders: the `static.folders` text trimmed and split at commas, each cleaned. */
  function Folders(folders: string): (r: seq<string>)
    ensures |r| >= 1
  {
    var entries := Split(Trim(folders), ",");
    seq(|entries|, i requires 0 <= i < |entries| => Folder(entries[i]))
  }

  /** `is_static_file`: false without a `static.folders` string. */
  function IsStaticFile(uri: string, cfg: Config): (r: bool)
    ensures GetString(cfg, StaticFoldersKey).None? ==> !r
  {
    match GetString(cfg, StaticFoldersKey)
    case None => false
    case Some(folders) => AnyFolder(uri, Folders(folders))
  }

  /** A URI is a static file exactly when it starts with `/<folder>/` for a configured folder. */
  lemma StaticFilePrefix(uri: string, cfg: Config)
    requires GetString(cfg, StaticFoldersKey).Some?
    ensures var folders := Folders(GetString(cfg, StaticFoldersKey).value);
      IsStaticFile(uri, cfg) <==>
        exists i :: 0 <= i < |folders| && StartsWith(uri, FolderPrefix(folders[i]))
  {
    AnyFolderPrefix(uri, Folders(GetString(cfg, StaticFoldersKey).value));
  }

  // ---------------------------------------------------------------------------------------
  // Content type
  // ---------------------------------------------------------------------------------------

  const OctetStream: string := "application/octet-stream"

  /** The extensions `get_content_type` knows, in the order of its match arms. */
  const MimeTable: seq<(string, string)> := [
    ("aac", "audio/aac"), ("avi", "video/x-msvideo"), ("bmp", "image/bmp"), ("css", "text/css"),
    ("csv", "text/csv"), ("gif", "image/gif"), ("html", "text/html"), ("ico", "image/x-icon"),
    ("jpg", "image/jpg"), ("jpeg", "image/jpeg"), ("js", "text/javascript"),
    ("json", "application/json"), ("mp3", "audio/mpeg"), ("mp4", "video/mp4"),
    ("mpeg", "video/mpeg"), ("otf", "font/otf"), ("pdf", "application/pdf"),
    ("png", "image/png"), ("svg", "image/svg+xml"), ("ttf", "font/ttf"), ("txt", "text/plain"),
    ("wav", "audio/wav"), ("weba", "audio/webm"), ("webm", "video/webm"),
    ("webp", "image/webp"), ("woff", "font/woff"), ("woff2", "font/woff2"),
    ("xhtml", "application/xhtml+xml"), ("xls", "application/vnd.ms-excel"),
    ("xlsx", "application/vnd.openxmlformats-officedocument.spreadsheetml.sheet"),
    ("xml", "application/xml")]

  /** The value of the first entry with the key, as a `match` takes its first matching arm. */
  function Lookup(table: seq<(string, string)>, key: string): (r: Option<string>)
    decreases |table|
  {
    if |table| == 0 then None
    else if table[0].0 == key then Some(table[0].1)
    else Lookup(table[1..], key)
  }

  /** A key is found exactly when an entry has it, and then with the value of its first entry. */
  lemma {:induction false} LookupFirst(table: seq<(string, string)>, key: string)
    ensures Lookup(table, key).None? <==> forall i :: 0 <= i < |table| ==> table[i].0 != key
    ensures Lookup(table, key).Some? ==>
      exists i :: 0 <= i < |table| && table[i] == (key, Lookup(table, key).value)
        && forall j :: 0 <= j < i ==> table[j].0 != key
    decreases |table|
  {
    if |table| > 0 && table[0].0 != key {
      LookupFirst(table[1..], key);
      assert forall i :: 1 <= i < |table| ==> table[i] == table[1..][i - 1];
      if Lookup(table, key).Some? {
        var i :| 0 <= i < |table[1..]| && table[1..][i] == (key, Lookup(table, key).value)
          && forall j :: 0 <= j < i ==> table[1..][j].0 != key;
        assert table[i + 1] == table[1..][i];
      }
    } else if |table| > 0 {
      assert table[0] == (key, Lookup(table, key).value);
    }
  }

  /** The text after the last `.` (the whole name when it has none). */
  function Extension(uri: string): (r: string)
    ensures !Contains(r, ".")
  {
    var chunks := Split(uri, ".");
    chunks[|chunks| - 1]
  }

  /** The extension of `name.ext` is `ext` when `ext` holds no dot. */
  lemma ExtensionOf(name: string, ext: string)
    requires '.' !in ext
    ensures Extension(name + "." + ext) == ext
  {
    SingleCharNoBorder('.');
    SplitConcat(name, ".", ext);
    ContainsChar(ext, '.');
    SplitWithout(ext, ".");
  }

  /** `get_content_type`: the table's type for the extension, `application/octet-stream` for any other. */
  function ContentType(uri: string): (r: string)
    ensures Lookup(MimeTable, Extension(uri)).None? ==> r == OctetStream
    ensures Lookup(MimeTable, Extension(uri)).Some? ==> r == Lookup(MimeTable, Extension(uri)).value
  {
    Lookup(MimeTable, Extension(uri)).GetOr(OctetStream)
  }

  /** The type of `name.ext` is the table's entry for `ext`. */
  lemma ContentTypeOf(name: string, ext: string, i: nat)
    requires '.' !in ext && i < |MimeTable| && MimeTable[i].0 == ext
    requires forall j :: 0 <= j < i ==> MimeTable[j].0 != ext
    ensures ContentType(name + "." + ext) == MimeTable[i].1
  {
    ExtensionOf(name, ext);
    LookupFirst(MimeTable, ext);
    var k :| 0 <= k < |MimeTable| && MimeTable[k] == (ext, Lookup(MimeTable, ext).value)
      && forall j :: 0 <= j < k ==> MimeTable[j].0 != ext;
    assert k == i;
  }

  /** An extension the table lacks gives `application/octet-stream`. */
  lemma UnknownContentType(name: string, ext: string)
    requires '.' !in ext && forall j :: 0 <= j < |MimeTable| ==> MimeTable[j].0 != ext
    ensures ContentType(name + "." + ext) == OctetStream
  {
    ExtensionOf(name, ext);
    LookupFirst(MimeTable, ext);
  }

  // ---------------------------------------------------------------------------------------
  // Path and bytes
  // ---------------------------------------------------------------------------------------

  /** A prefix ending before the first `?` holds no `?`. */
  lemma BeforeQuestion(uri: string, pos: nat)
    requires Find(uri, "?") == Some(pos)
    ensures '?' !in uri[..pos]
  {
    forall j | 0 <= j < pos
      ensures uri[j] != '?'
    {
      assert !OccursAt(uri, "?", j);
      assert uri[j..j + 1] == [uri[j]];
    }
  }

  /** Where the query of a URI starts: at its first `?`, or at its end when it has none. */
  function QueryStart(uri: string): (e: nat)
    ensures e <= |uri| && '?' !in uri[..e]
    ensures e < |uri| ==> uri[e] == '?'
  {
    match Find(uri, "?")
    case Some(pos) =>
      BeforeQuestion(uri, pos);
      assert uri[pos..pos + 1] == "?";
      pos
    case None =>
      ContainsChar(uri, '?');
      assert uri[..|uri|] == uri;
      |uri|
  }

  /**
   * `get_clean_static_file`: the URI cut at its first `?`, without leading `/`: what is left
   * ends where the query starts and is preceded only by `/`, and does not start with one.
   */
  function CleanStaticFile(uri: string): (r: string)
    ensures '?' !in r && (|r| == 0 || r[0] != '/')
    ensures Contains(uri, r)
    ensures var e := QueryStart(uri);
      |r| <= e && r == uri[e - |r|..e] && forall i :: 0 <= i < e - |r| ==> uri[i] == '/'
  {
    var e := QueryStart(uri);
    var r := StripLeft(uri[..e], '/');
    StripCut(uri, e, r);
    r
  }

  /** What is left after stripping the `/`s in front of a query-free prefix of `uri`. */
  lemma StripCut(uri: string, e: nat, r: string)
    requires e <= |uri| && '?' !in uri[..e] && r == StripLeft(uri[..e], '/')
    ensures '?' !in r && (|r| == 0 || r[0] != '/')
    ensures Contains(uri, r)
    ensures |r| <= e && r == uri[e - |r|..e] && forall i :: 0 <= i < e - |r| ==> uri[i] == '/'
  {
    var cut := uri[..e];
    assert r == cut[|cut| - |r|..] == uri[e - |r|..e];
    forall i | 0 <= i < e - |r|
      ensures uri[i] == '/'
    {
      assert uri[i] == cut[i];
    }
    assert '?' !in r by {
      forall k | 0 <= k < |r|
        ensures r[k] != '?'
      {
        assert r[k] == cut[|cut| - |r| + k];
      }
    }
    OccursImpliesContains(uri, r, e - |r|);
  }

  /** Cleaning a clean path changes nothing. */
  lemma CleanIdempotent(uri: string)
    ensures CleanStaticFile(CleanStaticFile(uri)) == CleanStaticFile(uri)
  {
    var r := CleanStaticFile(uri);
    ContainsChar(r, '?');
    TrimStartNone(r, {'/'});
  }

  /** The head of a static file's response: a 200 with the file's content type. */
  function StaticHead(contentType: string): (r: Response)
    ensures r.status == StatusLine(200) && r.location == "" && r.cookies == [] && r.content == ""
    ensures r.contentType == CRLF + ContentTypeName + contentType + ";"
  {
    SetContentType(SetStatus(New(), 200), contentType)
  }

  /** The bytes of the two newlines between the head and the file. */
  const FileGap: seq<byte> := [10, 10]

  /** The bytes sent for a file: the response head, two newlines, then the file. */
  function Sent(head: Response, file: seq<byte>): (r: seq<byte>)
    ensures |r| == |Create(head)| + 2 + |file|
    ensures r[..|Create(head)|] == Create(head) && r[|Create(head)| + 2..] == file
    ensures r[|Create(head)|..|Create(head)| + 2] == FileGap
  {
    var h := Create(head);
    var r := h + FileGap + file;
    assert r[..|h|] == h;
    assert r[|h| + 2..] == file;
    assert r[|h|..|h| + 2] == FileGap;
    r
  }

  /**
   * `serve_static`: the 200 response for the file's type, two newlines, then the file's bytes;
   * nothing when the read fails.
   */
  function ServeStatic(uri: string, read: string -> Option<seq<byte>>): (r: seq<byte>)
    ensures read(CleanStaticFile(uri)).None? ==> r == []
    ensures read(CleanStaticFile(uri)).Some? ==>
      var head := Create(StaticHead(ContentType(CleanStaticFile(uri))));
      var file := read(CleanStaticFile(uri)).value;
      && |r| == |head| + 2 + |file|
      && r[..|head|] == head
      && r[|head|..|head| + 2] == FileGap
      && r[|head| + 2..] == file
  {
    var path := CleanStaticFile(uri);
    match read(path)
    case None => []
    case Some(file) => Sent(StaticHead(ContentType(path)), file)
  }

  /** A client reading the head of a static file's response sees a 200 and the content type. */
  lemma StaticHeadReadBack(contentType: string)
    requires '\r' !in contentType
    ensures ReadResponse(CreateText(StaticHead(contentType))) ==
      Some(([StatusLine(200), ContentTypeName + contentType + ";"], ""))
  {
    var r := StaticHead(contentType);
    StatusLinePlain(200);
    assert r.contentType == SetContentType(New(), contentType).contentType;
    SetContentTypeFramed(New(), contentType);
    ReadTyped(r, contentType);
  }
}

=== FILE: bytes.dfy ===
/**
 * Bytes, and the two conversions between bytes and text the framework performs:
 * `String::from_utf8_lossy` on the received buffer (one character per byte for ASCII input)
 * and `String::as_bytes` (UTF-8) on the text it sends.
 */
module Bytes {

  newtype byte = b: int | 0 <= b < 256

  predicate IsAscii(bs: seq<byte>)
  {
    forall i :: 0 <= i < |bs| ==> bs[i] < 128
  }

  predicate IsAsciiText(s: string)
  {
    forall i :: 0 <= i < |s| ==> (s[i] as int) < 128
  }

  /** One character per byte; on ASCII input this is what `from_utf8_lossy` produces. */
  function Latin(bs: seq<byte>): (s: string)
    ensures |s| == |bs|
    ensures forall i :: 0 <= i < |bs| ==> s[i] as int == bs[i] as int
    ensures IsAscii(bs) ==> IsAsciiText(s)
  {
    seq(|bs|, i requires 0 <= i < |bs| => (bs[i] as int) as char)
  }

  /** The UTF-8 encoding of one Unicode scalar value. */
  function EncodeChar(c: char): (r: seq<byte>)
    ensures 1 <= |r| <= 4
    ensures (c as int) < 128 ==> r == [(c as int) as byte]
    ensures (c as int) >= 128 ==> forall i :: 0 <= i < |r| ==> r[i] >= 128
  {
    var n := c as int;
    if n < 0x80 then [n as byte]
    else if n < 0x800 then [(0xC0 + n / 64) as byte, (0x80 + n % 64) as byte]
    else if n < 0x1_0000 then
      [(0xE0 + n / 4096) as byte, (0x80 + (n / 64) % 64) as byte, (0x80 + n % 64) as byte]
    else
      [(0xF0 + n / 262144) as byte, (0x80 + (n / 4096) % 64) as byte,
       (0x80 + (n / 64) % 64) as byte, (0x80 + n % 64) as byte]
  }

  /** `String::as_bytes`: the UTF-8 encoding of a text. */
  function Utf8(s: string): (r: seq<byte>)
    ensures |r| >= |s|
    ensures IsAsciiText(s) ==> |r| == |s| && Latin(r) == s && IsAscii(r)
    decreases |s|
  {
    if |s| == 0 then [] else EncodeChar(s[0]) + Utf8(s[1..])
  }

  /** Encoding distributes over concatenation. */
  lemma {:induction false} Utf8Concat(a: string, b: string)
    ensures Utf8(a + b) == Utf8(a) + Utf8(b)
    decreases |a|
  {
    if |a| == 0 {
      assert a + b == b;
    } else {
      assert (a + b)[0] == a[0];
      assert (a + b)[1..] == a[1..] + b;
      Utf8Concat(a[1..], b);
    }
  }

  /** ASCII bytes survive a decode/encode round trip. */
  lemma {:induction false} Utf8Latin(bs: seq<byte>)
    requires IsAscii(bs)
    ensures Utf8(Latin(bs)) == bs
    decreases |bs|
  {
    if |bs| > 0 {
      assert Latin(bs)[1..] == Latin(bs[1..]);
      Utf8Latin(bs[1..]);
    }
  }
}

=== FILE: controller.dfy ===
/**
 * `controller::resolver` (src/handler/controller.rs): looks the request up in the routes,
 * records the matched route on the request (with the default language filled in), and calls
 * the route's controller directly or through its middleware.
 */
module Controller {
  import opened Wrappers
  import opened Settings
  import opened Requests
  import opened Responses
  import opened Handlers
  import opened ErrorHandler
  import Middleware

  /** kalgan_router's lookup by URI and method: the matched route, or an error message. */
  type RouteLookup = (string, string) -> Result<Route, string>

  const DefaultLanguageKey: string := "i18n.language.default"

  /**
   * The source unwraps the default language as a string when the matched route has no
   * language and the key exists; another kind of value there would panic.
   */
  predicate LanguageReadable(route: Route, cfg: Config)
  {
    route.language == "" && DefaultLanguageKey in cfg ==> cfg[DefaultLanguageKey].Str?
  }

  /** The route the request matches, if any, has a language the source can fill in without panicking. */
  predicate Routable(q: Request, cfg: Config, lookup: RouteLookup)
  {
    lookup(q.line.uri, q.line.httpMethod).Ok? ==> LanguageReadable(lookup(q.line.uri, q.line.httpMethod).value, cfg)
  }

  /** The matched route with an empty language replaced by the configured default, when there is one. */
  function WithLanguage(route: Route, cfg: Config): (r: Route)
    requires LanguageReadable(route, cfg)
    ensures r.controller == route.controller && r.middleware == route.middleware
    ensures route.language != "" || DefaultLanguageKey !in cfg ==> r == route
    ensures route.language == "" && DefaultLanguageKey in cfg ==> r.language == cfg[DefaultLanguageKey].s
  {
    if route.language == "" && Exists(cfg, DefaultLanguageKey) then
      route.(language := GetString(cfg, DefaultLanguageKey).value)
    else route
  }

  /** `controller::resolver`. */
  function Resolve(q: Request, cfg: Config, lookup: RouteLookup, controller: ControllerFactory,
                   factory: Option<MiddlewareFactory>): (h: Handled)
    requires Routable(q, cfg, lookup)
    // No route: a 404 with the lookup's message, and no controller or middleware runs.
    ensures lookup(q.line.uri, q.line.httpMethod).Err? ==>
      h == Render(q, cfg, 404, lookup(q.line.uri, q.line.httpMethod).error, controller)
    ensures lookup(q.line.uri, q.line.httpMethod).Ok? ==>
      var route := lookup(q.line.uri, q.line.httpMethod).value;
      var p := q.(route := Some(WithLanguage(route, cfg)));
      // Without a middleware the controller runs once, first, on the routed request.
      && (route.middleware == "" ==>
            && ControllerCalls(h.calls) == 1 && MiddlewareCalls(h.calls) == 0
            && h.calls[0] == ControllerCall(p, route.controller)
            && (controller(p, route.controller).Ok? ==> h.response == controller(p, route.controller).value)
            && (controller(p, route.controller).Err? ==>
                  h.response == Render(p, cfg, 500, controller(p, route.controller).error, controller).response))
      // With one, the middleware resolver takes over with the route's names.
      && (route.middleware != "" ==>
            h == Middleware.Resolve(p, cfg, controller, factory, route.controller, route.middleware))
  {
    match lookup(q.line.uri, q.line.httpMethod)
    case Err(e) => Render(q, cfg, 404, e, controller)
    case Ok(route) =>
      var p := q.(route := Some(WithLanguage(route, cfg)));
      if route.middleware == "" then Middleware.Proceed(p, cfg, controller, route.controller)
      else Middleware.Resolve(p, cfg, controller, factory, route.controller, route.middleware)
  }

  /**
   * The request as `controller::resolver` leaves it: routed, and then as the middleware left
   * it when one ran. Cookie renewal reads this request.
   */
  function Dispatched(q: Request, cfg: Config, lookup: RouteLookup, factory: Option<MiddlewareFactory>): (r: Request)
    requires Routable(q, cfg, lookup)
    // No middleware ran: only the recorded route may differ from the read request.
    ensures || lookup(q.line.uri, q.line.httpMethod).Err?
            || lookup(q.line.uri, q.line.httpMethod).value.middleware == ""
            || factory.None?
      ==> r.(route := q.route) == q
    ensures lookup(q.line.uri, q.line.httpMethod).Err? ==> r == q
  {
    match lookup(q.line.uri, q.line.httpMethod)
    case Err(_) => q
    case Ok(route) =>
      var p := q.(route := Some(WithLanguage(route, cfg)));
      if route.middleware == "" then p else Middleware.Left(p, factory, route.middleware)
  }

  /**
   * Every call to a controller or an error controller sees the dispatched request: the
   * response is made from the same request whose cookies are renewed.
   */
  lemma DispatchedCalls(q: Request, cfg: Config, lookup: RouteLookup, controller: ControllerFactory,
                        factory: Option<MiddlewareFactory>)
    requires Routable(q, cfg, lookup)
    ensures var h := Resolve(q, cfg, lookup, controller, factory);
      forall i :: 0 <= i < |h.calls| && !h.calls[i].MiddlewareCall? ==>
        h.calls[i].request == Dispatched(q, cfg, lookup, factory)
  {
    match lookup(q.line.uri, q.line.httpMethod)
    case Err(_) =>
    case Ok(route) =>
      var p := q.(route := Some(WithLanguage(route, cfg)));
      if route.middleware != "" {
        var h := Middleware.Resolve(p, cfg, controller, factory, route.controller, route.middleware);
        assert forall i :: 0 < i < |h.calls| ==> h.calls[i].request == Middleware.Left(p, factory, route.middleware);
      }
  }

  /** Every factory call made for a routed request sees the matched route on it. */
  lemma RoutedCalls(q: Request, cfg: Config, lookup: RouteLookup, controller: ControllerFactory,
                    factory: Option<MiddlewareFactory>)
    requires Routable(q, cfg, lookup) && lookup(q.line.uri, q.line.httpMethod).Ok?
    ensures var h := Resolve(q, cfg, lookup, controller, factory);
      var route := WithLanguage(lookup(q.line.uri, q.line.httpMethod).value, cfg);
      |h.calls| > 0 ==> h.calls[0].request.route == Some(route)
  {
  }
}

=== FILE: cookie.dfy ===
/**
 * The cookie of src/storage/cookie.rs: its defaults, its eight setters, the overlay of
 * `cookie.<name>.<attribute>` settings, and the `Set-Cookie` text it serialises to.
 *
 * The serialisation is paired with a reader that splits a `Set-Cookie` line on `;` and trims
 * each attribute, in the manner of section 5.2 of RFC 6265; reading back what `Create` writes
 * recovers the cookie.
 */
module Cookies {
  import opened Wrappers
  import opened Text
  import opened Numbers
  import opened Settings

  datatype Cookie = Cookie(
    name: string,
    value: string,
    maxAge: nat,
    expires: string,
    domain: string,
    path: string,
    secure: bool,
    httpOnly: bool)

  const DefaultName: string := "Kalgan"
  const DefaultValue: string := "...a Rust Framework for Web Developers."
  /** One day written in milliseconds, although `Max-Age` counts seconds. */
  const DefaultMaxAge: nat := 24 * 60 * 60 * 1000

  /** `Cookie::new`. */
  function New(): (c: Cookie)
    ensures c.name == "Kalgan" && c.value == "...a Rust Framework for Web Developers."
    ensures c.maxAge == 86400000 && c.expires == "" && c.domain == "" && c.path == "/"
    ensures c.secure && c.httpOnly
  {
    Cookie(DefaultName, DefaultValue, DefaultMaxAge, "", "", "/", true, true)
  }

  // ---------------------------------------------------------------------------------------
  // Setters
  // ---------------------------------------------------------------------------------------

  /** The eight cookie attributes, as the argument of one setter call. */
  datatype Attribute =
    | Name(s: string)
    | Val(s: string)
    | MaxAge(n: nat)
    | Expires(s: string)
    | Domain(s: string)
    | Path(s: string)
    | Secure(b: bool)
    | HttpOnly(b: bool)

  datatype Field =
    NameField | ValueField | MaxAgeField | ExpiresField | DomainField | PathField | SecureField | HttpOnlyField

  function FieldOf(a: Attribute): Field
  {
    match a
    case Name(_) => NameField
    case Val(_) => ValueField
    case MaxAge(_) => MaxAgeField
    case Expires(_) => ExpiresField
    case Domain(_) => DomainField
    case Path(_) => PathField
    case Secure(_) => SecureField
    case HttpOnly(_) => HttpOnlyField
  }

  /** Reads one field of a cookie back as the attribute a setter would store. */
  function Get(c: Cookie, f: Field): (a: Attribute)
    ensures FieldOf(a) == f
  {
    match f
    case NameField => Name(c.name)
    case ValueField => Val(c.value)
    case MaxAgeField => MaxAge(c.maxAge)
    case ExpiresField => Expires(c.expires)
    case DomainField => Domain(c.domain)
    case PathField => Path(c.path)
    case SecureField => Secure(c.secure)
    case HttpOnlyField => HttpOnly(c.httpOnly)
  }

  /** `set_name`, `set_value`, ..., `set_secure`: the addressed field takes the new value, the others keep theirs. */
  function Set(c: Cookie, a: Attribute): (r: Cookie)
    ensures Get(r, FieldOf(a)) == a
    ensures forall f :: f != FieldOf(a) ==> Get(r, f) == Get(c, f)
  {
    match a
    case Name(s) => c.(name := s)
    case Val(s) => c.(value := s)
    case MaxAge(n) => c.(maxAge := n)
    case Expires(s) => c.(expires := s)
    case Domain(s) => c.(domain := s)
    case Path(s) => c.(path := s)
    case Secure(b) => c.(secure := b)
    case HttpOnly(b) => c.(httpOnly := b)
  }

  // ---------------------------------------------------------------------------------------
  // Settings overlay
  // ---------------------------------------------------------------------------------------

  function SettingKey(cookieName: string, attribute: string): string
  {
    "cookie." + cookieName + "." + attribute
  }

  /** The string a setting resolves to, or the current one when it does not resolve to a string. */
  function StringOr(cfg: Config, key: string, current: string): string
  {
    GetString(cfg, key).GetOr(current)
  }

  function FlagOr(cfg: Config, key: string, current: bool): bool
  {
    GetBool(cfg, key).GetOr(current)
  }

  function MaxAgeOr(cfg: Config, key: string, current: nat): nat
  {
    match GetNumber(cfg, key)
    case Some(n) => ToU64(n)
    case None => current
  }

  /**
   * `set_from_settings`: each of the eight attributes is overwritten exactly when
   * `cookie.<cookieName>.<attribute>` resolves with the right type (the number cast `as usize`),
   * and keeps its value otherwise.
   */
  function SetFromSettings(c: Cookie, cfg: Config, cookieName: string): (r: Cookie)
    ensures var k := SettingKey(cookieName, "name");
      r.name == if k in cfg && cfg[k].Str? then cfg[k].s else c.name
    ensures var k := SettingKey(cookieName, "value");
      r.value == if k in cfg && cfg[k].Str? then cfg[k].s else c.value
    ensures var k := SettingKey(cookieName, "max_age");
      r.maxAge == if k in cfg && cfg[k].Num? then ToU64(cfg[k].n) else c.maxAge
    ensures var k := SettingKey(cookieName, "expires");
      r.expires == if k in cfg && cfg[k].Str? then cfg[k].s else c.expires
    ensures var k := SettingKey(cookieName, "domain");
      r.domain == if k in cfg && cfg[k].Str? then cfg[k].s else c.domain
    ensures var k := SettingKey(cookieName, "path");
      r.path == if k in cfg && cfg[k].Str? then cfg[k].s else c.path
    ensures var k := SettingKey(cookieName, "secure");
      r.secure == if k in cfg && cfg[k].Flag? then cfg[k].b else c.secure
    ensures var k := SettingKey(cookieName, "http_only");
      r.httpOnly == if k in cfg && cfg[k].Flag? then cfg[k].b else c.httpOnly
  {
    Cookie(
      StringOr(cfg, SettingKey(cookieName, "name"), c.name),
      StringOr(cfg, SettingKey(cookieName, "value"), c.value),
      MaxAgeOr(cfg, SettingKey(cookieName, "max_age"), c.maxAge),
      StringOr(cfg, SettingKey(cookieName, "expires"), c.expires),
      StringOr(cfg, SettingKey(cookieName, "domain"), c.domain),
      StringOr(cfg, SettingKey(cookieName, "path"), c.path),
      FlagOr(cfg, SettingKey(cookieName, "secure"), c.secure),
      FlagOr(cfg, SettingKey(cookieName, "http_only"), c.httpOnly))
  }

  /** Applying the settings a second time changes nothing; a configuration without the cookie's keys changes nothing. */
  lemma SetFromSettingsIdempotent(c: Cookie, cfg: Config, cookieName: string)
    ensures SetFromSettings(SetFromSettings(c, cfg, cookieName), cfg, cookieName) == SetFromSettings(c, cfg, cookieName)
    ensures SetFromSettings(c, map[], cookieName) == c
  {
  }

  // ---------------------------------------------------------------------------------------
  // Serialisation
  // ---------------------------------------------------------------------------------------

  const SetCookiePrefix: string := "\r\nSet-Cookie: "

  /** An optional attribute: `"; " + text` when present, nothing otherwise. */
  function Segment(o: Option<string>): string
  {
    match o
    case Some(t) => "; " + t
    case None => ""
  }

  /** Each optional attribute preceded by one space, present or not. */
  function Tail(os: seq<Option<string>>): string
    decreases |os|
  {
    if |os| == 0 then "" else " " + Segment(os[0]) + Tail(os[1..])
  }

  function When(present: bool, t: string): Option<string>
  {
    if present then Some(t) else None
  }

  /** The five optional attributes, the expiry segment carrying `expiresText`. */
  function Optionals(c: Cookie, expiresText: string): seq<Option<string>>
  {
    [ When(c.expires != "", "Expires=" + expiresText),
      When(c.domain != "", "Domain=" + c.domain),
      When(c.path != "", "Path=" + c.path),
      When(c.secure, "Secure"),
      When(c.httpOnly, "HttpOnly") ]
  }

  function MaxAgeAttribute(c: Cookie): string
  {
    "Max-Age=" + NatToString(c.maxAge)
  }

  /**
   * The `Set-Cookie` text with a given text after `Expires=`: the template
   * `\r\nSet-Cookie: {}={}; Max-Age={} {} {} {} {} {}` filled with the name, the value,
   * `max_age` and the five optional segments.
   */
  function CreateWith(c: Cookie, expiresText: string): string
  {
    SetCookiePrefix + c.name + "=" + c.value + ";" + " " + MaxAgeAttribute(c) + Tail(Optionals(c, expiresText))
  }

  /** `Cookie::create` as written: the `Expires` segment prints `max_age`. */
  function CreateAsWritten(c: Cookie): string
  {
    CreateWith(c, NatToString(c.maxAge))
  }

  /** `Cookie::create` with the `Expires` segment printing the `expires` field. */
  function Create(c: Cookie): string
  {
    CreateWith(c, c.expires)
  }

  /** With no expiry set, the two readings of `create` write the same line. */
  lemma CreateWithoutExpiry(c: Cookie)
    requires c.expires == ""
    ensures CreateAsWritten(c) == Create(c)
  {
    assert Optionals(c, c.expires) == Optionals(c, NatToString(c.maxAge));
  }

  predicate NoCr(c: Cookie)
  {
    '\r' !in c.name && '\r' !in c.value && '\r' !in c.expires && '\r' !in c.domain && '\r' !in c.path
  }

  lemma {:induction false} TailNoCr(os: seq<Option<string>>)
    requires forall i :: 0 <= i < |os| ==> os[i].Some? ==> '\r' !in os[i].value
    ensures '\r' !in Tail(os)
    decreases |os|
  {
    if |os| > 0 {
      TailNoCr(os[1..]);
    }
  }

  /** The header line `Create` writes after its leading line break. */
  function HeaderLine(c: Cookie): string
  {
    "Set-Cookie: " + c.name + "=" + c.value + ";" + " " + MaxAgeAttribute(c) + Tail(Optionals(c, c.expires))
  }

  lemma CreateSplit(c: Cookie)
    ensures Create(c) == CRLF + HeaderLine(c)
  {
    assert SetCookiePrefix == CRLF + "Set-Cookie: ";
  }

  lemma DigitsNoCr(n: nat)
    ensures '\r' !in NatToString(n)
  {
    var d := NatToString(n);
    forall i | 0 <= i < |d| ensures d[i] != '\r' {
      assert IsDigit(d[i]);
    }
  }

  lemma HeaderLineNoCr(c: Cookie)
    requires NoCr(c)
    ensures '\r' !in HeaderLine(c)
  {
    TailNoCr(Optionals(c, c.expires));
    DigitsNoCr(c.maxAge);
  }

  /** A cookie without carriage returns is written as exactly one header line. */
  lemma CreateFramed(c: Cookie)
    requires NoCr(c)
    ensures Framed(Create(c))
  {
    CreateSplit(c);
    HeaderLineNoCr(c);
    var line := Create(c);
    assert line[..2] == CRLF && line[2..] == HeaderLine(c);
  }

  // ---------------------------------------------------------------------------------------
  // Reading a Set-Cookie line back
  // ---------------------------------------------------------------------------------------

  /** What a client learns from one `Set-Cookie` line. */
  datatype CookieView = CookieView(
    name: string,
    value: string,
    maxAge: Option<nat>,
    expires: Option<string>,
    domain: Option<string>,
    path: Option<string>,
    secure: bool,
    httpOnly: bool)

  /** The view a faithful serialisation of `c` must convey. */
  function View(c: Cookie): CookieView
  {
    CookieView(c.name, c.value, Some(c.maxAge),
      if c.expires == "" then None else Some(c.expires),
      if c.domain == "" then None else Some(c.domain),
      if c.path == "" then None else Some(c.path),
      c.secure, c.httpOnly)
  }

  function ReadAttribute(v: CookieView, a: string): CookieView
  {
    if StartsWith(a, "Max-Age=") && AllDigits(a[8..]) then v.(maxAge := Some(ParseDigits(a[8..])))
    else if StartsWith(a, "Expires=") then v.(expires := Some(a[8..]))
    else if StartsWith(a, "Domain=") then v.(domain := Some(a[7..]))
    else if StartsWith(a, "Path=") then v.(path := Some(a[5..]))
    else if a == "Secure" then v.(secure := true)
    else if a == "HttpOnly" then v.(httpOnly := true)
    else v
  }

  function ReadAttributes(v: CookieView, attrs: seq<string>): CookieView
    decreases |attrs|
  {
    if |attrs| == 0 then v else ReadAttributes(ReadAttribute(v, attrs[0]), attrs[1..])
  }

  function Trims(pieces: seq<string>): (r: seq<string>)
    ensures |r| == |pieces|
    ensures forall i :: 0 <= i < |r| ==> r[i] == Trim(pieces[i])
    decreases |pieces|
  {
    if |pieces| == 0 then [] else [Trim(pieces[0])] + Trims(pieces[1..])
  }

  /** Reads a `Set-Cookie` line: name and value before the first `;`, then trimmed attributes. */
  function ReadSetCookie(line: string): Option<CookieView>
  {
    if !StartsWith(line, SetCookiePrefix) then None
    else
      var pieces := Split(line[|SetCookiePrefix|..], ";");
      match Find(pieces[0], "=")
      case None => None
      case Some(i) =>
        var start := CookieView(pieces[0][..i], pieces[0][i + 1..], None, None, None, None, false, false);
        Some(ReadAttributes(start, Trims(pieces[1..])))
  }

  /** A text that survives being an attribute: no `;`, and no whitespace at its end. */
  predicate AttributeSafe(t: string)
  {
    ';' !in t && (|t| > 0 ==> t[|t| - 1] !in Whitespace)
  }

  /** The cookies the reader can recover: nothing in a field that the syntax uses as a delimiter. */
  predicate Readable(c: Cookie)
  {
    && ';' !in c.name && '=' !in c.name && ';' !in c.value
    && AttributeSafe(c.expires) && AttributeSafe(c.domain) && AttributeSafe(c.path)
  }

  function Present(os: seq<Option<string>>): seq<string>
    decreases |os|
  {
    if |os| == 0 then []
    else match os[0]
      case Some(t) => [t] + Present(os[1..])
      case None => Present(os[1..])
  }

  predicate PieceSafe(t: string)
  {
    |t| > 0 && ';' !in t && t[0] !in Whitespace && t[|t| - 1] !in Whitespace
  }

  predicate Spaces(pad: string)
  {
    forall i :: 0 <= i < |pad| ==> pad[i] == ' '
  }

  /** A piece without `;` stays whole, and the pieces after it are those of the rest. */
  lemma TrimsSplitStep(a: string, b: string)
    requires ';' !in a
    ensures Trims(Split(a + ";" + b, ";")) == [Trim(a)] + Trims(Split(b, ";"))
  {
    SingleCharNoBorder(';');
    SplitConcat(a, ";", b);
    ContainsChar(a, ';');
    SplitWithout(a, ";");
    var rest := Split(b, ";");
    assert Split(a + ";" + b, ";") == [a] + rest;
    assert Trims([a] + rest) == [Trim(a)] + Trims(rest);
  }

  /** The last attribute, padded with spaces. */
  lemma LastPiece(t0: string, pad: string)
    requires PieceSafe(t0) && Spaces(pad)
    ensures Trims(Split(" " + t0 + pad, ";")) == [t0]
  {
    var s := " " + t0 + pad;
    assert ';' !in s;
    ContainsChar(s, ';');
    SplitWithout(s, ";");
    TrimSpaced(t0, pad);
    assert Trims([s]) == [Trim(s)];
  }

  /** Restates a split of `a + ";" + b` for a string known to equal it. */
  lemma SplitAt(x: string, a: string, b: string, t0: string)
    requires x == a + ";" + b
    requires Trims(Split(a + ";" + b, ";")) == [Trim(a)] + Trims(Split(b, ";"))
    requires Trim(a) == t0
    ensures Trims(Split(x, ";")) == [t0] + Trims(Split(b, ";"))
  {
  }

  /** The text of a middle attribute, regrouped around its `;`. */
  lemma MiddleRegroup(t0: string, pad: string, t: string, rest: string)
    ensures " " + t0 + pad + (" " + ("; " + t) + rest) == (" " + t0 + (pad + " ")) + ";" + (" " + t + "" + rest)
  {
    assert "; " + t == ";" + (" " + t) by { assert "; " == ";" + " "; }
  }

  /** A present attribute ends the current piece at the `;` that precedes it. */
  lemma MiddlePiece(t0: string, pad: string, t: string, rest: string)
    requires PieceSafe(t0) && Spaces(pad)
    ensures Trims(Split(" " + t0 + pad + (" " + ("; " + t) + rest), ";"))
         == [t0] + Trims(Split(" " + t + "" + rest, ";"))
  {
    var a := " " + t0 + (pad + " ");
    var b := " " + t + "" + rest;
    var x := " " + t0 + pad + (" " + ("; " + t) + rest);
    MiddleRegroup(t0, pad, t, rest);
    TrimsSplitStep(a, b);
    TrimSpaced(t0, pad + " ");
    SplitAt(x, a, b, t0);
  }

  /** Splitting the attribute tail on `;` and trimming yields exactly the present attributes. */
  lemma {:induction false} TailPieces(t0: string, pad: string, os: seq<Option<string>>)
    requires PieceSafe(t0) && Spaces(pad)
    requires forall i :: 0 <= i < |os| ==> os[i].Some? ==> PieceSafe(os[i].value)
    ensures Trims(Split(" " + t0 + pad + Tail(os), ";")) == [t0] + Present(os)
    decreases |os|
  {
    if |os| == 0 {
      assert " " + t0 + pad + Tail(os) == " " + t0 + pad;
      LastPiece(t0, pad);
    } else {
      match os[0]
      case None =>
        assert " " + t0 + pad + Tail(os) == " " + t0 + (pad + " ") + Tail(os[1..]);
        TailPieces(t0, pad + " ", os[1..]);
      case Some(t) =>
        assert Tail(os) == " " + ("; " + t) + Tail(os[1..]);
        MiddlePiece(t0, pad, t, Tail(os[1..]));
        assert PieceSafe(os[0].value);
        TailPieces(t, "", os[1..]);
    }
  }

  lemma ReadAttributesConcat(v: CookieView, xs: seq<string>, ys: seq<string>)
    ensures ReadAttributes(v, xs + ys) == ReadAttributes(ReadAttributes(v, xs), ys)
    decreases |xs|
  {
    if |xs| == 0 {
      assert xs + ys == ys;
    } else {
      assert (xs + ys)[1..] == xs[1..] + ys;
      ReadAttributesConcat(ReadAttribute(v, xs[0]), xs[1..], ys);
    }
  }

  function PresentOne(o: Option<string>): seq<string>
  {
    match o
    case Some(t) => [t]
    case None => []
  }

  lemma PresentCons(os: seq<Option<string>>)
    requires |os| > 0
    ensures Present(os) == PresentOne(os[0]) + Present(os[1..])
  {
  }

  /** Reading the present attributes of a list, one option at a time. */
  lemma ReadPresentCons(v: CookieView, os: seq<Option<string>>)
    requires |os| > 0
    ensures ReadAttributes(v, Present(os)) == ReadAttributes(ReadAttributes(v, PresentOne(os[0])), Present(os[1..]))
  {
    PresentCons(os);
    ReadAttributesConcat(v, PresentOne(os[0]), Present(os[1..]));
  }

  lemma FirstCharDiffers(a: string, p: string)
    requires |a| > 0 && |p| > 0 && a[0] != p[0]
    ensures !StartsWith(a, p)
  {
    if |p| <= |a| {
      assert a[..|p|][0] == a[0];
    }
  }

  /** Reading an attribute that may be absent. */
  lemma ReadOptional(v: CookieView, o: Option<string>, w: CookieView)
    requires o.Some? ==> ReadAttribute(v, o.value) == w
    requires o.None? ==> v == w
    ensures ReadAttributes(v, PresentOne(o)) == w
  {
    if o.Some? {
      assert [o.value][1..] == [];
    }
  }

  lemma ReadExpires(v: CookieView, x: string)
    ensures ReadAttribute(v, "Expires=" + x) == v.(expires := Some(x))
  {
    var a := "Expires=" + x;
    FirstCharDiffers(a, "Max-Age=");
    assert a[..8] == "Expires=" && a[8..] == x;
  }

  lemma ReadDomain(v: CookieView, d: string)
    ensures ReadAttribute(v, "Domain=" + d) == v.(domain := Some(d))
  {
    var a := "Domain=" + d;
    FirstCharDiffers(a, "Max-Age=");
    FirstCharDiffers(a, "Expires=");
    assert a[..7] == "Domain=" && a[7..] == d;
  }

  lemma ReadPath(v: CookieView, p: string)
    ensures ReadAttribute(v, "Path=" + p) == v.(path := Some(p))
  {
    var a := "Path=" + p;
    FirstCharDiffers(a, "Max-Age=");
    FirstCharDiffers(a, "Expires=");
    FirstCharDiffers(a, "Domain=");
    assert a[..5] == "Path=" && a[5..] == p;
  }

  lemma ReadFlags(v: CookieView)
    ensures ReadAttribute(v, "Secure") == v.(secure := true)
    ensures ReadAttribute(v, "HttpOnly") == v.(httpOnly := true)
  {
    FirstCharDiffers("Secure", "Path=");
    FirstCharDiffers("HttpOnly", "Max-Age=");
    FirstCharDiffers("HttpOnly", "Expires=");
    FirstCharDiffers("HttpOnly", "Domain=");
    FirstCharDiffers("HttpOnly", "Path=");
  }

  /** Reading the first of a list of optional attributes. */
  lemma ReadFirst(v: CookieView, os: seq<Option<string>>, w: CookieView)
    requires |os| > 0
    requires os[0].Some? ==> ReadAttribute(v, os[0].value) == w
    requires os[0].None? ==> v == w
    ensures ReadAttributes(v, Present(os)) == ReadAttributes(w, Present(os[1..]))
  {
    ReadOptional(v, os[0], w);
    ReadPresentCons(v, os);
  }

  /** The location attributes (expiry, domain, path) are read back as their fields. */
  lemma ReadLocation(v: CookieView, c: Cookie, x: string)
    ensures ReadAttributes(v, Present(Optionals(c, x))) ==
      ReadAttributes(
        v.(expires := if c.expires == "" then v.expires else Some(x),
           domain := if c.domain == "" then v.domain else Some(c.domain),
           path := if c.path == "" then v.path else Some(c.path)),
        Present(Optionals(c, x)[3..]))
  {
    var os := Optionals(c, x);
    ReadExpires(v, x);
    var v1 := v.(expires := if c.expires == "" then v.expires else Some(x));
    ReadFirst(v, os, v1);
    ReadDomain(v1, c.domain);
    var v2 := v1.(domain := if c.domain == "" then v.domain else Some(c.domain));
    ReadFirst(v1, os[1..], v2);
    ReadPath(v2, c.path);
    var v3 := v2.(path := if c.path == "" then v.path else Some(c.path));
    ReadFirst(v2, os[2..], v3);
    assert os[1..][1..] == os[2..] && os[2..][1..] == os[3..];
  }

  /** The two flags are read back as their fields. */
  lemma ReadFlagPair(v: CookieView, c: Cookie, x: string)
    ensures ReadAttributes(v, Present(Optionals(c, x)[3..])) ==
      v.(secure := v.secure || c.secure, httpOnly := v.httpOnly || c.httpOnly)
  {
    var os := Optionals(c, x)[3..];
    ReadFlags(v);
    var v4 := v.(secure := v.secure || c.secure);
    ReadFirst(v, os, v4);
    ReadFlags(v4);
    var v5 := v4.(httpOnly := v.httpOnly || c.httpOnly);
    ReadFirst(v4, os[1..], v5);
    assert os[1..][1..] == [];
  }

  /** The attributes written after `Max-Age` are read back as their fields. */
  lemma ReadOptionals(v: CookieView, c: Cookie, x: string)
    ensures ReadAttributes(v, Present(Optionals(c, x))) ==
      v.(expires := if c.expires == "" then v.expires else Some(x),
         domain := if c.domain == "" then v.domain else Some(c.domain),
         path := if c.path == "" then v.path else Some(c.path),
         secure := v.secure || c.secure, httpOnly := v.httpOnly || c.httpOnly)
  {
    ReadLocation(v, c, x);
    ReadFlagPair(v.(expires := if c.expires == "" then v.expires else Some(x),
           domain := if c.domain == "" then v.domain else Some(c.domain),
           path := if c.path == "" then v.path else Some(c.path)), c, x);
  }

  lemma MaxAgeSafe(n: nat)
    ensures PieceSafe("Max-Age=" + NatToString(n))
  {
    var d := NatToString(n);
    var t := "Max-Age=" + d;
    assert t[|t| - 1] == d[|d| - 1];
  }

  /** A non-empty attribute value after a fixed `Name=` keeps the attribute one trimmed piece. */
  lemma PrefixedSafe(p: string, t: string)
    requires |p| > 0 && ';' !in p && p[0] !in Whitespace
    requires |t| > 0 && AttributeSafe(t)
    ensures PieceSafe(p + t)
  {
    assert (p + t)[|p + t| - 1] == t[|t| - 1];
  }

  lemma OptionalsSafe(c: Cookie, x: string)
    requires Readable(c)
    requires PieceSafe("Expires=" + x)
    ensures var os := Optionals(c, x);
      forall i :: 0 <= i < |os| ==> os[i].Some? ==> PieceSafe(os[i].value)
  {
    var os := Optionals(c, x);
    forall i | 0 <= i < |os| && os[i].Some?
      ensures PieceSafe(os[i].value)
    {
      if i == 1 {
        PrefixedSafe("Domain=", c.domain);
      } else if i == 2 {
        PrefixedSafe("Path=", c.path);
      }
    }
  }

  /** The written line: prefix, `name=value`, then the attributes each after `;`. */
  lemma LineShape(c: Cookie, x: string)
    ensures CreateWith(c, x) == SetCookiePrefix + ((c.name + "=" + c.value) + ";"
      + (" " + MaxAgeAttribute(c) + "" + Tail(Optionals(c, x))))
  {
    Regroup(SetCookiePrefix, c.name, "=", c.value, ";", " ", MaxAgeAttribute(c), Tail(Optionals(c, x)));
  }

  /** Regrouping the concatenation that writes a line. */
  lemma Regroup(p: string, n: string, e: string, v: string, s: string, sp: string, t0: string, tl: string)
    ensures p + n + e + v + s + sp + t0 + tl == p + ((n + e + v) + s + (sp + t0 + "" + tl))
  {
    assert "" + tl == tl;
  }

  /** The first piece of `a + ";" + b`, and the trimmed pieces after it. */
  lemma HeadAndRest(x: string, a: string, b: string)
    requires x == a + ";" + b && ';' !in a
    ensures Split(x, ";")[0] == a && Trims(Split(x, ";")[1..]) == Trims(Split(b, ";"))
  {
    SingleCharNoBorder(';');
    SplitConcat(a, ";", b);
    ContainsChar(a, ';');
    SplitWithout(a, ";");
    assert Split(x, ";") == [a] + Split(b, ";");
  }

  /** The written line, cut where the reader cuts it. */
  lemma CreatePieces(c: Cookie, x: string)
    requires Readable(c)
    requires PieceSafe("Expires=" + x)
    ensures var line := CreateWith(c, x);
      && StartsWith(line, SetCookiePrefix)
      && var pieces := Split(line[|SetCookiePrefix|..], ";");
      && pieces[0] == c.name + "=" + c.value
      && Trims(pieces[1..]) == ["Max-Age=" + NatToString(c.maxAge)] + Present(Optionals(c, x))
  {
    var line := CreateWith(c, x);
    var nv := c.name + "=" + c.value;
    var t0 := MaxAgeAttribute(c);
    var os := Optionals(c, x);
    var b := " " + t0 + "" + Tail(os);
    LineShape(c, x);
    assert line[|SetCookiePrefix|..] == nv + ";" + b;
    HeadAndRest(line[|SetCookiePrefix|..], nv, b);
    MaxAgeSafe(c.maxAge);
    OptionalsSafe(c, x);
    TailPieces(t0, "", os);
  }

  /** The name and value are cut at the first `=`. */
  lemma NameValue(name: string, value: string)
    requires '=' !in name
    ensures Find(name + "=" + value, "=") == Some(|name|)
    ensures (name + "=" + value)[..|name|] == name && (name + "=" + value)[|name| + 1..] == value
  {
    ContainsChar(name, '=');
    SingleCharNoBorder('=');
    FindAfterPlain(name, "=", value);
  }

  /**
   * Reading back what `CreateWith` writes recovers every field of the cookie, with the text
   * after `Expires=` standing for the expiry whenever one is set.
   */
  lemma ReadCreateWith(c: Cookie, x: string)
    requires Readable(c)
    requires PieceSafe("Expires=" + x)
    ensures ReadSetCookie(CreateWith(c, x)) ==
      Some(View(c).(expires := if c.expires == "" then None else Some(x)))
  {
    CreatePieces(c, x);
    NameValue(c.name, c.value);
    var t0 := "Max-Age=" + NatToString(c.maxAge);
    var start := CookieView(c.name, c.value, None, None, None, None, false, false);
    assert t0[..8] == "Max-Age=" && t0[8..] == NatToString(c.maxAge);
    ReadAttributesConcat(start, [t0], Present(Optionals(c, x)));
    assert [t0][1..] == [];
    var v1 := ReadAttribute(start, t0);
    assert v1 == start.(maxAge := Some(c.maxAge));
    ReadOptionals(v1, c, x);
  }

  /** Reading back what `Create` writes recovers exactly the cookie's view. */
  lemma ReadCreate(c: Cookie)
    requires Readable(c)
    ensures ReadSetCookie(Create(c)) == Some(View(c))
  {
    if c.expires != "" {
      var t := "Expires=" + c.expires;
      assert t[|t| - 1] == c.expires[|c.expires| - 1];
      assert ';' !in t by {
        forall k | 0 <= k < |t| ensures t[k] != ';' {
          if k >= 8 { assert t[k] == c.expires[k - 8]; }
        }
      }
      ReadCreateWith(c, c.expires);
    } else {
      ReadCreateWith(c, "x");
      assert Optionals(c, c.expires) == Optionals(c, "x");
    }
  }

  /**
   * As written, a cookie with an expiry reads back with its `max_age` digits as the expiry,
   * so the configured expiry date never reaches the client.
   */
  lemma ExpiresPrintsMaxAge(c: Cookie)
    requires Readable(c) && c.expires != ""
    ensures ReadSetCookie(CreateAsWritten(c)).Some?
    ensures ReadSetCookie(CreateAsWritten(c)).value.expires == Some(NatToString(c.maxAge))
    ensures c.expires != NatToString(c.maxAge) ==> ReadSetCookie(CreateAsWritten(c)) != Some(View(c))
  {
    var m := NatToString(c.maxAge);
    var t := "Expires=" + m;
    assert t[|t| - 1] == m[|m| - 1];
    assert ';' !in t by {
      forall k | 0 <= k < |t| ensures t[k] != ';' {
        if k >= 8 { assert t[k] == m[k - 8]; }
      }
    }
    ReadCreateWith(c, m);
  }
}

=== FILE: errors.dfy ===
/**
 * The error handler of src/handler/error.rs: `render` hands the error to the controller
 * configured under `error.<code>`, and falls back to the built-in error page
 * (`trigger_internal_error`, without the template engine).
 */
module ErrorHandler {
  import opened Wrappers
  import opened Text
  import opened Numbers
  import opened Bytes
  import opened Settings
  import opened Requests
  import opened Responses
  import opened Handlers

  const PageType: string := "text/html; charset=UTF-8"
  const ProdLead: string := " An error occurred :( <br> HTTP/1.1 "
  const DevLead: string := "HTTP/1.1 "
  const Break: string := "<br><br>"

  /** The setting naming the controller for an error code. */
  function ErrorKey(code: int): string
  {
    "error." + IntToString(code)
  }

  /** The error page's phrase for a code: the four error codes of the status table, "" for any other code. */
  function ErrorText(code: int): (r: string)
    ensures r != "" <==> code in {403, 404, 500, 503}
    ensures r != "" ==> r == Reason(code)
  {
    match code
    case 403 => "Forbidden"
    case 404 => "Not Found"
    case 500 => "Internal Server Error"
    case 503 => "Service Unavailable"
    case _ => ""
  }

  /** The production page: the code and its phrase only. */
  function ProdContents(code: int): string
  {
    ProdLead + IntToString(code) + " " + ErrorText(code) + "."
  }

  /** What the development page shows before the message. */
  function DevHead(code: int): string
  {
    DevLead + IntToString(code) + " " + ErrorText(code) + Break
  }

  /** The development page: the code, its phrase, the message and the whole raw request. */
  function DevContents(code: int, message: string, raw: string): string
  {
    DevHead(code) + message + Break + raw + "."
  }

  /** A concatenation read from the end of its first part. */
  lemma AfterPrefix(a: string, b: string)
    ensures StartsWith(a + b, a) && (a + b)[|a|..] == b
  {
  }

  /**
   * The contents of the built-in page: in production neither the message nor the request
   * appears; otherwise the message follows the code's head, and the raw request follows it.
   */
  function Contents(cfg: Config, code: int, message: string, raw: string): (r: string)
    ensures IsProd(cfg) ==> r == ProdContents(code)
    ensures !IsProd(cfg) ==>
      StartsWith(r, DevHead(code)) && r[|DevHead(code)|..] == message + Break + raw + "."
  {
    if IsProd(cfg) then ProdContents(code)
    else
      var r := DevContents(code, message, raw);
      assert r == DevHead(code) + (message + Break + raw + ".");
      AfterPrefix(DevHead(code), message + Break + raw + ".");
      r
  }

  /** A response built like the built-in page, with the given contents. */
  function Page(code: int, contents: string): (r: Response)
    ensures r.status == StatusLine(code) && r.location == "" && r.cookies == []
    ensures r.contentType == CRLF + ContentTypeName + PageType + ";"
    ensures r.content == contents
    ensures r.contentLength == CRLF + ContentLengthName + NatToString(|Utf8(contents)|)
  {
    SetContent(SetContentLength(SetContentType(SetStatus(New(), code), PageType), |Utf8(contents)|), contents)
  }

  /** `trigger_internal_error`: the page with the code's status, an HTML content type and its length. */
  function Internal(cfg: Config, code: int, message: string, raw: string): (r: Response)
    ensures r == Page(code, Contents(cfg, code, message, raw))
  {
    Page(code, Contents(cfg, code, message, raw))
  }

  /**
   * `render`: the response of the controller configured for the code; the built-in page with
   * that controller's error, or with the original message when no controller is configured.
   * Only the error controller is ever called, and at most once.
   */
  function Render(q: Request, cfg: Config, code: int, message: string, controller: ControllerFactory): (h: Handled)
    ensures |h.calls| <= 1 && ControllerCalls(h.calls) == 0 && MiddlewareCalls(h.calls) == 0
    ensures GetString(cfg, ErrorKey(code)).None? ==>
      h == Handled(Internal(cfg, code, message, q.raw), [])
    ensures GetString(cfg, ErrorKey(code)).Some? ==>
      var name := GetString(cfg, ErrorKey(code)).value;
      && h.calls == [ErrorControllerCall(q, name)]
      && h.response == match controller(q, name)
         case Ok(response) => response
         case Err(e) => Internal(cfg, code, e, q.raw)
  {
    match GetString(cfg, ErrorKey(code))
    case None => Handled(Internal(cfg, code, message, q.raw), [])
    case Some(name) =>
      var call := ErrorControllerCall(q, name);
      match controller(q, name)
      case Ok(response) => Handled(response, [call])
      case Err(e) => Handled(Internal(cfg, code, e, q.raw), [call])
  }

  lemma PagePlain()
    ensures '\r' !in PageType
  {
  }

  /**
   * A client reading the built-in page of a code the status table knows sees the code's
   * status line, the HTML content type, and the page contents.
   */
  lemma PageReadBack(code: int, contents: string)
    requires KnownStatus(code)
    ensures ReadResponse(CreateText(Page(code, contents))) ==
      Some(([StatusLine(code), ContentTypeName + PageType + ";"], contents))
  {
    var r := Page(code, contents);
    StatusLinePlain(code);
    PagePlain();
    assert r.contentType == SetContentType(New(), PageType).contentType;
    SetContentTypeFramed(New(), PageType);
    ReadTyped(r, PageType);
  }

  /** In production, without an error controller, the page shows neither the message nor the request. */
  lemma ProdPageHides(q1: Request, q2: Request, cfg: Config, code: int, m1: string, m2: string,
                      controller: ControllerFactory)
    requires IsProd(cfg) && GetString(cfg, ErrorKey(code)).None?
    ensures Render(q1, cfg, code, m1, controller).response == Render(q2, cfg, code, m2, controller).response
  {
  }
}

=== FILE: forms.dfy ===
/**
 * The form input of a request (`Request::parse_input`, src/http/request.rs): the fields of a
 * `multipart/form-data` body, or the `&`-separated parameters on the last line of a
 * url-encoded one.
 */
module Forms {
  import opened Wrappers
  import opened Text
  import opened Maps
  import opened Patterns

  const MultipartType: string := "Content-Type: multipart/form-data;"
  const Disposition: string := "Content-Disposition: form-data; name="
  const FileNameMark: string := "filename="

  // ---------------------------------------------------------------------------------------
  // Url-encoded bodies
  // ---------------------------------------------------------------------------------------

  /**
   * One `&`-separated parameter: skipped without `=`; otherwise the text before the first `=`
   * and the text between the first and the second, `+` read as a space in the value, both
   * percent-decoded.
   */
  function FormEntry(param: string, decode: Decoder): (r: Entry<string, string>)
    ensures r.Skip? <==> !Contains(param, "=")
    ensures !r.Crash?
  {
    if !Contains(param, "=") then Skip
    else
      var p := Split(param, "=");
      SplitFound(param, "=");
      Pair(UrlDecoding(decode, p[0]), UrlDecoding(decode, Replace(p[1], "+", " ")))
  }

  function FormEntries(params: seq<string>, decode: Decoder): (r: seq<Entry<string, string>>)
    ensures |r| == |params|
  {
    seq(|params|, i requires 0 <= i < |params| => FormEntry(params[i], decode))
  }

  /**
   * The url-encoded branch: the parameters on the last line, read only when the line before
   * it is blank. `None` when the text holds no line break, where the source indexes before
   * the first line and panics.
   */
  function UrlEncodedInput(raw: string, decode: Decoder): Option<map<string, string>>
  {
    var lines := Split(raw, CRLF);
    if |lines| < 2 then None
    else if Trim(lines[|lines| - 2]) != "" then Some(map[])
    else Collect(map[], FormEntries(Split(lines[|lines| - 1], "&"), decode))
  }

  /** The url-encoded branch panics exactly on a text without a line break. */
  lemma UrlEncodedPanics(raw: string, decode: Decoder)
    ensures UrlEncodedInput(raw, decode).None? <==> !Contains(raw, CRLF)
  {
    SplitFound(raw, CRLF);
    var lines := Split(raw, CRLF);
    if |lines| >= 2 && Trim(lines[|lines| - 2]) == "" {
      var es := FormEntries(Split(lines[|lines| - 1], "&"), decode);
      assert forall i :: 0 <= i < |es| ==> !es[i].Crash?;
    }
  }

  /** A parameter as a browser encodes it: no `=`, `&` or carriage return in name or value. */
  predicate FormPair(p: (string, string))
  {
    '=' !in p.0 && '=' !in p.1 && '&' !in p.0 && '&' !in p.1 && '\r' !in p.0 && '\r' !in p.1
  }

  /** The `name=value` parameters of a body. */
  function FormParams(pairs: seq<(string, string)>): (r: seq<string>)
    ensures |r| == |pairs|
  {
    seq(|pairs|, i requires 0 <= i < |pairs| => pairs[i].0 + "=" + pairs[i].1)
  }

  /** The pairs as the parser stores them: both percent-decoded, `+` in a value read as a space. */
  function Decoded(pairs: seq<(string, string)>, decode: Decoder): (r: seq<(string, string)>)
    ensures |r| == |pairs|
  {
    seq(|pairs|, i requires 0 <= i < |pairs| =>
      (UrlDecoding(decode, pairs[i].0), UrlDecoding(decode, Replace(pairs[i].1, "+", " "))))
  }

  /** `a=b` with `=`-free `a` and `b` splits into `a` and `b`. */
  lemma ParamSplit(a: string, b: string)
    requires '=' !in a && '=' !in b
    ensures Split(a + "=" + b, "=") == [a, b]
  {
    ContainsChar(a, '=');
    ContainsChar(b, '=');
    SingleCharNoBorder('=');
    SplitConcat(a, "=", b);
    SplitWithout(a, "=");
    SplitWithout(b, "=");
  }

  /** `a=b=c` with `=`-free `a` and `b` splits into `a`, `b` and the pieces of `c`. */
  lemma ExtraSplit(a: string, b: string, c: string)
    requires '=' !in a && '=' !in b
    ensures Split(a + "=" + b + "=" + c, "=") == [a, b] + Split(c, "=")
  {
    ContainsChar(a, '=');
    ContainsChar(b, '=');
    SingleCharNoBorder('=');
    assert a + "=" + b + "=" + c == a + "=" + (b + "=" + c);
    SplitConcat(a, "=", b + "=" + c);
    SplitConcat(b, "=", c);
    SplitWithout(a, "=");
    SplitWithout(b, "=");
  }

  /** A parameter `a=b` is read as its decoded name and value. */
  lemma FormEntryPair(a: string, b: string, decode: Decoder)
    requires '=' !in a && '=' !in b
    ensures FormEntry(a + "=" + b, decode)
         == Pair(UrlDecoding(decode, a), UrlDecoding(decode, Replace(b, "+", " ")))
  {
    ParamSplit(a, b);
    OccursImpliesContains(a + "=" + b, "=", |a|);
  }

  /** Text after a second `=` in a parameter is dropped: `a=b=c` is read as `a=b`. */
  lemma FormEntryExtra(a: string, b: string, c: string, decode: Decoder)
    requires '=' !in a && '=' !in b
    ensures FormEntry(a + "=" + b + "=" + c, decode) == FormEntry(a + "=" + b, decode)
  {
    ExtraSplit(a, b, c);
    FormEntryPair(a, b, decode);
    OccursImpliesContains(a + "=" + b + "=" + c, "=", |a|);
  }

  /** A body line after a blank line is the last line, and the blank line the one before it. */
  lemma BodyLines(head: string, body: string)
    requires '\r' !in body
    ensures var lines := Split(head + CRLF + CRLF + body, CRLF);
      |lines| >= 2 && lines[|lines| - 2] == "" && lines[|lines| - 1] == body
  {
    CrLfNoBorder();
    NoCrNoCrLf(body);
    NoCrNoCrLf("");
    assert head + CRLF + CRLF + body == head + CRLF + ("" + CRLF + body);
    SplitConcat(head, CRLF, "" + CRLF + body);
    SplitConcat("", CRLF, body);
    SplitWithout("", CRLF);
    SplitWithout(body, CRLF);
  }

  /** The parameters joined by `&` split back into themselves. */
  lemma ParamsSplit(pairs: seq<(string, string)>)
    requires |pairs| > 0 && forall i :: 0 <= i < |pairs| ==> FormPair(pairs[i])
    ensures Split(Join(FormParams(pairs), "&"), "&") == FormParams(pairs)
  {
    var params := FormParams(pairs);
    forall i | 0 <= i < |params|
      ensures !Contains(params[i], "&")
    {
      assert params[i] == pairs[i].0 + "=" + pairs[i].1;
      ContainsChar(params[i], '&');
    }
    SingleCharNoBorder('&');
    SplitJoin(params, "&");
  }

  /** The joined parameters hold no carriage return. */
  lemma ParamsPlain(pairs: seq<(string, string)>)
    requires forall i :: 0 <= i < |pairs| ==> FormPair(pairs[i])
    ensures '\r' !in Join(FormParams(pairs), "&")
  {
    var params := FormParams(pairs);
    forall i | 0 <= i < |params|
      ensures '\r' !in params[i]
    {
      assert params[i] == pairs[i].0 + "=" + pairs[i].1;
    }
    JoinFree(params, "&", '\r');
  }

  /** The parameters of written-out pairs are read as the pairs decoded, inserted in order. */
  lemma ParamsRead(pairs: seq<(string, string)>, decode: Decoder)
    requires forall i :: 0 <= i < |pairs| ==> FormPair(pairs[i])
    ensures Collect(map[], FormEntries(FormParams(pairs), decode)) == Some(Insert(map[], Decoded(pairs, decode)))
  {
    var es := FormEntries(FormParams(pairs), decode);
    var d := Decoded(pairs, decode);
    forall i | 0 <= i < |es|
      ensures es[i] == Pair(d[i].0, d[i].1)
    {
      assert FormParams(pairs)[i] == pairs[i].0 + "=" + pairs[i].1;
      FormEntryPair(pairs[i].0, pairs[i].1, decode);
    }
    PairsOfPairs(es, d);
  }

  /**
   * A url-encoded body written as `name=value` pairs joined by `&`, after the blank line that
   * ends the head, is read as the decoded pairs inserted in order: a later name overwrites an
   * earlier one.
   */
  lemma UrlEncodedRoundTrip(head: string, pairs: seq<(string, string)>, decode: Decoder)
    requires |pairs| > 0 && forall i :: 0 <= i < |pairs| ==> FormPair(pairs[i])
    ensures UrlEncodedInput(head + CRLF + CRLF + Join(FormParams(pairs), "&"), decode)
         == Some(Insert(map[], Decoded(pairs, decode)))
  {
    ParamsPlain(pairs);
    BodyLines(head, Join(FormParams(pairs), "&"));
    ParamsSplit(pairs);
    ParamsRead(pairs, decode);
  }

  // ---------------------------------------------------------------------------------------
  // Multipart bodies
  // ---------------------------------------------------------------------------------------

  /**
   * The field name of a `Content-Disposition` line: the line with every `Disposition`, every
   * space and every double quote removed, without trailing line-break characters.
   */
  function FieldKey(line: string): (r: string)
    ensures ' ' !in r && '"' !in r
  {
    var k := Remove(Remove(line, Disposition), " ");
    RemoveChar(Remove(line, Disposition), ' ');
    RemoveChar(k, '"');
    TrimEndCrLf(Remove(k, "\""))
  }

  /** A part whose name line does not name a file: a form field. */
  predicate FieldPart(raw: string, m: Match)
    requires m.start <= m.end <= |raw|
  {
    !Contains(FieldKey(raw[m.start..m.end]), FileNameMark)
  }

  /**
   * One `Content-Disposition` match: a file part is skipped; a field is its decoded name and
   * the decoded second line after the match (the line after the blank one). The source panics
   * when no line break follows the match.
   */
  function FieldEntry(raw: string, m: Match, decode: Decoder): (r: Entry<string, string>)
    requires m.start <= m.end <= |raw|
    ensures r.Skip? <==> !FieldPart(raw, m)
    ensures r.Crash? <==> FieldPart(raw, m) && !Contains(raw[m.end..], CRLF)
  {
    if !FieldPart(raw, m) then Skip
    else
      var lines := Split(raw[m.end..], CRLF);
      SplitFound(raw[m.end..], CRLF);
      if |lines| < 2 then Crash
      else Pair(UrlDecoding(decode, FieldKey(raw[m.start..m.end])), UrlDecoding(decode, lines[1]))
  }

  /** The `Content-Disposition` lines of the text, in order. */
  function NameLines(raw: string): (r: seq<Match>)
    ensures forall k :: 0 <= k < |r| ==> r[k].start <= r[k].end <= |raw|
  {
    FindLinesShape(raw, Disposition, 0);
    FindLines(raw, Disposition, 0)
  }

  function MultipartEntries(raw: string, decode: Decoder): (r: seq<Entry<string, string>>)
    ensures |r| == |NameLines(raw)|
  {
    var ms := NameLines(raw);
    seq(|ms|, i requires 0 <= i < |ms| => FieldEntry(raw, ms[i], decode))
  }

  /** The multipart branch: every field part inserted in order; `None` when one panics. */
  function MultipartInput(raw: string, decode: Decoder): Option<map<string, string>>
  {
    Collect(map[], MultipartEntries(raw, decode))
  }

  /** `Request::parse_input`: multipart when the text names that content type, url-encoded otherwise. */
  function FormInput(raw: string, decode: Decoder): Option<map<string, string>>
  {
    if Contains(raw, MultipartType) then MultipartInput(raw, decode) else UrlEncodedInput(raw, decode)
  }

  /** The multipart branch panics exactly when a field part's name line is not followed by a line break. */
  lemma MultipartPanics(raw: string, decode: Decoder)
    ensures MultipartInput(raw, decode).None? <==>
      exists i :: 0 <= i < |NameLines(raw)| && FieldPart(raw, NameLines(raw)[i])
        && !Contains(raw[NameLines(raw)[i].end..], CRLF)
  {
    var es := MultipartEntries(raw, decode);
    var ms := NameLines(raw);
    forall i | 0 <= i < |es|
      ensures es[i].Crash? <==> FieldPart(raw, ms[i]) && !Contains(raw[ms[i].end..], CRLF)
    {
      assert es[i] == FieldEntry(raw, ms[i], decode);
    }
  }

  /**
   * The multipart input holds exactly the decoded names of the field parts: a part that names
   * a file contributes nothing, every other part contributes its name.
   */
  lemma MultipartKeys(raw: string, decode: Decoder, k: string)
    requires MultipartInput(raw, decode).Some?
    ensures k in MultipartInput(raw, decode).value <==>
      exists i :: 0 <= i < |NameLines(raw)| && FieldPart(raw, NameLines(raw)[i])
        && UrlDecoding(decode, FieldKey(raw[NameLines(raw)[i].start..NameLines(raw)[i].end])) == k
  {
    var es := MultipartEntries(raw, decode);
    var ms := NameLines(raw);
    InsertKeys(map[], Pairs(es), k);
    PairKeys(es, k);
    forall i | 0 <= i < |es|
      ensures es[i].Pair? && es[i].key == k <==>
        FieldPart(raw, ms[i]) && UrlDecoding(decode, FieldKey(raw[ms[i].start..ms[i].end])) == k
    {
      assert es[i] == FieldEntry(raw, ms[i], decode);
    }
  }

  /**
   * A name as it may stand between the double quotes of a `Content-Disposition` line: any
   * text on one line that does not itself hold the `Content-Disposition` prefix.
   */
  predicate NameText(name: string)
  {
    '\r' !in name && '\n' !in name && !Contains(name, Disposition)
  }

  /** The key read off a quoted name: the name without its spaces and double quotes. */
  function NameKey(name: string): string
  {
    Filter(Filter(name, ' '), '"')
  }

  /** Dropping spaces from a quoted name drops them from the name only. */
  lemma QuotedSpaces(name: string)
    ensures Filter("\"" + name + "\"\r", ' ') == "\"" + Filter(name, ' ') + "\"\r"
  {
    assert "\"" + name + "\"\r" == "\"" + name + ("\"" + "\r");
    FilterConcat("\"" + name, "\"" + "\r", ' ');
    FilterConcat("\"", name, ' ');
    FilterWithout("\"", ' ');
    FilterWithout("\"" + "\r", ' ');
  }

  /** Dropping double quotes from a quoted text leaves the text's own characters and the carriage return. */
  lemma QuotesDropped(t: string)
    ensures Filter("\"" + t + "\"\r", '"') == Filter(t, '"') + "\r"
  {
    assert "\"" + t + "\"\r" == "\"" + t + ("\"" + "\r");
    FilterConcat("\"" + t, "\"" + "\r", '"');
    FilterConcat("\"", t, '"');
    FilterConcat("\"", "\r", '"');
    FilterWithout("\r", '"');
    assert Filter("\"", '"') == "";
  }

  /** The quoted rest of a name line, without spaces, quotes or its carriage return, is the name's key. */
  lemma QuotedName(name: string)
    requires '\r' !in name && '\n' !in name
    ensures TrimEndCrLf(Filter(Filter("\"" + name + "\"\r", ' '), '"')) == NameKey(name)
  {
    QuotedSpaces(name);
    QuotesDropped(Filter(name, ' '));
    TrimCarriageReturn(NameKey(name));
  }

  /** The `Content-Disposition` prefix holds neither a double quote nor a carriage return. */
  lemma DispositionPlain()
    ensures '"' !in Disposition && '\r' !in Disposition
  {
    forall i | 0 <= i < |Disposition|
      ensures Disposition[i] != '"' && Disposition[i] != '\r'
    {
    }
  }

  /** A quoted name that does not hold the `Content-Disposition` prefix does not hold it once quoted. */
  lemma QuotedAvoids(name: string)
    requires NameText(name)
    ensures !Contains("\"" + name + "\"\r", Disposition)
  {
    DispositionPlain();
    AvoidPadded(name, '"', '"', Disposition);
    var quoted := ['"'] + name + ['"'];
    assert !Contains("", Disposition) by {
      assert !OccursAt("", Disposition, 0);
    }
    AvoidAcross(quoted, "\r", "", Disposition);
    assert quoted + "\r" + "" == "\"" + name + "\"\r";
  }

  /** The field name of a `Content-Disposition` line written with a quoted name. */
  lemma FieldKeyOf(name: string)
    requires NameText(name)
    ensures FieldKey(Disposition + "\"" + name + "\"\r") == NameKey(name)
  {
    var rest := "\"" + name + "\"\r";
    assert Disposition + rest == Disposition + "\"" + name + "\"\r";
    QuotedAvoids(name);
    RemoveLeading(Disposition, rest);
    RemoveChar(rest, ' ');
    RemoveChar(Filter(rest, ' '), '"');
    QuotedName(name);
  }

  /** The line after the blank line that follows a name line is the field's value. */
  lemma ValueLine(value: string, post: string)
    requires '\r' !in value
    ensures var lines := Split("\n" + CRLF + value + CRLF + post, CRLF);
      |lines| >= 2 && lines[1] == value
  {
    CrLfNoBorder();
    NoCrNoCrLf(value);
    NoCrNoCrLf("\n");
    assert "\n" + CRLF + value + CRLF + post == "\n" + CRLF + (value + CRLF + post);
    SplitConcat("\n", CRLF, value + CRLF + post);
    SplitConcat(value, CRLF, post);
    SplitWithout("\n", CRLF);
    SplitWithout(value, CRLF);
  }

  /**
   * A field part as a browser writes it (the name line, a blank line, the value) is read as
   * the decoded name and value.
   */
  lemma FieldPartEntry(raw: string, m: Match, name: string, value: string, post: string, decode: Decoder)
    requires m.start <= m.end <= |raw|
    requires raw[m.start..m.end] == Disposition + "\"" + name + "\"\r"
    requires raw[m.end..] == "\n" + CRLF + value + CRLF + post
    requires NameText(name) && !Contains(NameKey(name), FileNameMark) && '\r' !in value
    ensures FieldEntry(raw, m, decode) == Pair(UrlDecoding(decode, NameKey(name)), UrlDecoding(decode, value))
  {
    FieldKeyOf(name);
    ValueLine(value, post);
  }
}

=== FILE: handlers.dfy ===
/**
 * What the dispatcher (src/handler/controller.rs, middleware.rs, error.rs) works with: the
 * application's controller and middleware factories as function values, the `Outcome` a
 * middleware returns, and a trace of the factory calls made while answering one request, so
 * that "the controller is not called" and "the middleware runs at most once" can be stated.
 */
module Handlers {
  import opened Wrappers
  import opened Requests
  import opened Responses

  /** The controller factory: the response of the named controller, or an error message. */
  type ControllerFactory = (Request, string) -> Result<Response, string>

  /**
   * `middleware::Outcome`: on success the request goes on to the controller; otherwise the
   * controller is skipped and `response` is sent.
   */
  datatype Outcome = Outcome(success: bool, response: Option<Response>)

  /**
   * One middleware call. The middleware receives the request mutably and may change any of it:
   * the public `middleware` and `route` fields, or the whole request through an assignment such
   * as `*request = Request::new(..)`. A reply carries the request as the middleware leaves it.
   */
  datatype MiddlewareReply = MiddlewareReply(request: Request, outcome: Result<Outcome, string>)

  /** The middleware factory: calls the named middleware on a request. */
  type MiddlewareFactory = (Request, string) -> MiddlewareReply

  /** A factory call and the request it was given: the route's controller, an error controller, or a middleware. */
  datatype Call =
    | ControllerCall(request: Request, name: string)
    | ErrorControllerCall(request: Request, name: string)
    | MiddlewareCall(request: Request, name: string)

  /** A response and the factory calls made to produce it, in order. */
  datatype Handled = Handled(response: Response, calls: seq<Call>)

  /** Records a call made before the ones of `h`. */
  function After(c: Call, h: Handled): (r: Handled)
    ensures r.response == h.response && |r.calls| == |h.calls| + 1
    ensures r.calls[0] == c && r.calls[1..] == h.calls
    ensures ControllerCalls(r.calls) == (if c.ControllerCall? then 1 else 0) + ControllerCalls(h.calls)
    ensures MiddlewareCalls(r.calls) == (if c.MiddlewareCall? then 1 else 0) + MiddlewareCalls(h.calls)
  {
    var r := Handled(h.response, [c] + h.calls);
    assert r.calls[1..] == h.calls;
    r
  }

  /** Number of calls to the route's controller. */
  function ControllerCalls(calls: seq<Call>): nat
  {
    if |calls| == 0 then 0
    else (if calls[0].ControllerCall? then 1 else 0) + ControllerCalls(calls[1..])
  }

  /** Number of middleware calls. */
  function MiddlewareCalls(calls: seq<Call>): nat
  {
    if |calls| == 0 then 0
    else (if calls[0].MiddlewareCall? then 1 else 0) + MiddlewareCalls(calls[1..])
  }

  /** The controller count is zero exactly when no call is to the route's controller. */
  lemma {:induction false} NoControllerCall(calls: seq<Call>)
    ensures ControllerCalls(calls) == 0 <==> forall i :: 0 <= i < |calls| ==> !calls[i].ControllerCall?
  {
    if |calls| > 0 {
      NoControllerCall(calls[1..]);
      assert forall i :: 1 <= i < |calls| ==> calls[i] == calls[1..][i - 1];
    }
  }

  /** The middleware count is zero exactly when no call is to a middleware. */
  lemma {:induction false} NoMiddlewareCall(calls: seq<Call>)
    ensures MiddlewareCalls(calls) == 0 <==> forall i :: 0 <= i < |calls| ==> !calls[i].MiddlewareCall?
  {
    if |calls| > 0 {
      NoMiddlewareCall(calls[1..]);
      assert forall i :: 1 <= i < |calls| ==> calls[i] == calls[1..][i - 1];
    }
  }
}

=== FILE: maps.dfy ===
/**
 * Maps filled by a sequence of `HashMap::insert` calls, as the request parser fills its
 * cookie, input and file maps: a later pair replaces an earlier one with the same key.
 */
module Maps {
  import opened Wrappers

  /** The keys of `pairs`, in insertion order. */
  function Keys<K, V>(pairs: seq<(K, V)>): (r: seq<K>)
    ensures |r| == |pairs|
    ensures forall i :: 0 <= i < |pairs| ==> r[i] == pairs[i].0
  {
    seq(|pairs|, i requires 0 <= i < |pairs| => pairs[i].0)
  }

  /** `m` after inserting every pair of `pairs`, first to last. */
  function Insert<K, V>(m: map<K, V>, pairs: seq<(K, V)>): map<K, V>
    decreases |pairs|
  {
    if |pairs| == 0 then m else Insert(m[pairs[0].0 := pairs[0].1], pairs[1..])
  }

  /** A key is present afterwards exactly when it was present before or was inserted. */
  lemma {:induction false} InsertKeys<K, V>(m: map<K, V>, pairs: seq<(K, V)>, k: K)
    ensures k in Insert(m, pairs) <==> k in m || k in Keys(pairs)
    decreases |pairs|
  {
    if |pairs| > 0 {
      InsertKeys(m[pairs[0].0 := pairs[0].1], pairs[1..], k);
      assert Keys(pairs) == [pairs[0].0] + Keys(pairs[1..]);
    }
  }

  /** A key that is never inserted keeps its old value. */
  lemma {:induction false} InsertUntouched<K, V>(m: map<K, V>, pairs: seq<(K, V)>, k: K)
    requires k in m && k !in Keys(pairs)
    ensures k in Insert(m, pairs) && Insert(m, pairs)[k] == m[k]
    decreases |pairs|
  {
    if |pairs| > 0 {
      assert Keys(pairs) == [pairs[0].0] + Keys(pairs[1..]);
      InsertUntouched(m[pairs[0].0 := pairs[0].1], pairs[1..], k);
    }
  }

  /** The last pair with a given key decides its value: later duplicates overwrite earlier ones. */
  lemma {:induction false} InsertLastWins<K, V>(m: map<K, V>, pairs: seq<(K, V)>, i: nat)
    requires i < |pairs|
    requires forall j :: i < j < |pairs| ==> pairs[j].0 != pairs[i].0
    ensures pairs[i].0 in Insert(m, pairs) && Insert(m, pairs)[pairs[i].0] == pairs[i].1
    decreases |pairs|
  {
    if i == 0 {
      var m' := m[pairs[0].0 := pairs[0].1];
      assert pairs[0].0 !in Keys(pairs[1..]);
      InsertUntouched(m', pairs[1..], pairs[0].0);
    } else {
      InsertLastWins(m[pairs[0].0 := pairs[0].1], pairs[1..], i - 1);
    }
  }

  /** Inserting two runs of pairs one after the other is inserting their concatenation. */
  lemma {:induction false} InsertAppend<K, V>(m: map<K, V>, a: seq<(K, V)>, b: seq<(K, V)>)
    ensures Insert(Insert(m, a), b) == Insert(m, a + b)
    decreases |a|
  {
    if |a| > 0 {
      assert (a + b)[1..] == a[1..] + b;
      InsertAppend(m[a[0].0 := a[0].1], a[1..], b);
    } else {
      assert a + b == b;
    }
  }

  /**
   * What the parser makes of one segment of its input: nothing, a key/value pair to insert,
   * or a panic (an index out of range in the source).
   */
  datatype Entry<K, V> = Skip | Pair(key: K, value: V) | Crash

  /** The pairs among `es`, in order. */
  function Pairs<K, V>(es: seq<Entry<K, V>>): (r: seq<(K, V)>)
    ensures |r| <= |es|
    decreases |es|
  {
    if |es| == 0 then []
    else if es[0].Pair? then [(es[0].key, es[0].value)] + Pairs(es[1..])
    else Pairs(es[1..])
  }

  /**
   * The parser's insertion loop over the entries of its segments: `None` when a segment
   * panics, otherwise `m` with the pairs inserted in order.
   */
  function Collect<K, V>(m: map<K, V>, es: seq<Entry<K, V>>): (r: Option<map<K, V>>)
    ensures r.Some? <==> forall i :: 0 <= i < |es| ==> !es[i].Crash?
    ensures r.Some? ==> r.value == Insert(m, Pairs(es))
    decreases |es|
  {
    if |es| == 0 then Some(m)
    else
      match es[0]
      case Crash => None
      case Skip =>
        var r := Collect(m, es[1..]);
        assert forall i :: 0 < i < |es| ==> es[i] == es[1..][i - 1];
        r
      case Pair(k, v) =>
        var r := Collect(m[k := v], es[1..]);
        assert forall i :: 0 < i < |es| ==> es[i] == es[1..][i - 1];
        assert ([(k, v)] + Pairs(es[1..]))[1..] == Pairs(es[1..]);
        r
  }

  /** When every entry is a pair, the pairs are all of them. */
  lemma {:induction false} PairsOfPairs<K, V>(es: seq<Entry<K, V>>, pairs: seq<(K, V)>)
    requires |es| == |pairs|
    requires forall i :: 0 <= i < |es| ==> es[i] == Pair(pairs[i].0, pairs[i].1)
    ensures Pairs(es) == pairs
    decreases |es|
  {
    if |es| > 0 {
      PairsOfPairs(es[1..], pairs[1..]);
      assert pairs == [pairs[0]] + pairs[1..];
    }
  }

  /** Entries that are all pairs are collected as those pairs inserted in order. */
  lemma CollectOfPairs<K, V>(es: seq<Entry<K, V>>, pairs: seq<(K, V)>)
    requires |es| == |pairs|
    requires forall i :: 0 <= i < |es| ==> es[i] == Pair(pairs[i].0, pairs[i].1)
    ensures Collect(map[], es) == Some(Insert(map[], pairs))
  {
    PairsOfPairs(es, pairs);
    assert forall i :: 0 <= i < |es| ==> !es[i].Crash?;
  }

  /** A key is among the pairs exactly when some entry is a pair with that key. */
  lemma {:induction false} PairKeys<K, V>(es: seq<Entry<K, V>>, k: K)
    ensures k in Keys(Pairs(es)) <==> exists i :: 0 <= i < |es| && es[i].Pair? && es[i].key == k
    decreases |es|
  {
    if |es| > 0 {
      PairKeys(es[1..], k);
      assert forall i :: 0 < i < |es| ==> es[i] == es[1..][i - 1];
      if es[0].Pair? {
        assert Keys(Pairs(es)) == [es[0].key] + Keys(Pairs(es[1..]));
      }
      if exists i :: 0 <= i < |es| && es[i].Pair? && es[i].key == k {
        var i :| 0 <= i < |es| && es[i].Pair? && es[i].key == k;
        if i > 0 {
          assert es[1..][i - 1].Pair? && es[1..][i - 1].key == k;
        }
      }
    }
  }

  /** A property every old value and every inserted value has is had by every value afterwards. */
  lemma {:induction false} CollectValues<K, V>(m: map<K, V>, es: seq<Entry<K, V>>, P: V -> bool)
    requires forall k :: k in m ==> P(m[k])
    requires forall i :: 0 <= i < |es| && es[i].Pair? ==> P(es[i].value)
    requires Collect(m, es).Some?
    ensures forall k :: k in Collect(m, es).value ==> P(Collect(m, es).value[k])
    decreases |es|
  {
    if |es| > 0 {
      assert forall i :: 0 < i < |es| ==> es[i] == es[1..][i - 1];
      match es[0]
      case Skip => CollectValues(m, es[1..], P);
      case Pair(k, v) => CollectValues(m[k := v], es[1..], P);
    }
  }

  /**
   * Two entry lists with pairs at the same places under the same keys, related value by value,
   * are collected into maps with the same keys and related values.
   */
  lemma {:induction false} CollectAgree<K, V>(m1: map<K, V>, m2: map<K, V>, es1: seq<Entry<K, V>>,
                                              es2: seq<Entry<K, V>>, R: (V, V) -> bool)
    requires m1.Keys == m2.Keys && forall k :: k in m1 ==> R(m1[k], m2[k])
    requires |es1| == |es2|
    requires forall i :: 0 <= i < |es1| ==> (es1[i].Pair? <==> es2[i].Pair?)
    requires forall i :: 0 <= i < |es1| && es1[i].Pair? ==>
      es1[i].key == es2[i].key && R(es1[i].value, es2[i].value)
    requires Collect(m1, es1).Some? && Collect(m2, es2).Some?
    ensures Collect(m1, es1).value.Keys == Collect(m2, es2).value.Keys
    ensures forall k :: k in Collect(m1, es1).value ==> R(Collect(m1, es1).value[k], Collect(m2, es2).value[k])
    decreases |es1|
  {
    if |es1| > 0 {
      assert forall i :: 0 < i < |es1| ==> es1[i] == es1[1..][i - 1] && es2[i] == es2[1..][i - 1];
      match es1[0]
      case Skip =>
        assert es2[0].Skip?;
        CollectAgree(m1, m2, es1[1..], es2[1..], R);
      case Pair(k, v) =>
        CollectAgree(m1[k := v], m2[k := es2[0].value], es1[1..], es2[1..], R);
    }
  }
}

=== FILE: middleware.dfy ===
/**
 * `middleware::resolver` (src/handler/middleware.rs): runs the route's middleware and, on
 * success, the route's controller; every failure becomes a 500 through the error handler.
 */
module Middleware {
  import opened Wrappers
  import opened Text
  import opened Settings
  import opened Requests
  import opened Responses
  import opened Handlers
  import opened ErrorHandler

  const NoResponseMessage: string := "No Middleware response was set."

  const MissingLead: string := "Middleware \""
  const MissingMiddle: string := "\" is set for Controller \""
  const MissingTail: string := "\" but Middleware Factory has not been declared."

  /** A text placed between two others occurs right after the first. */
  lemma Between(a: string, x: string, b: string)
    ensures OccursAt(a + x + b, x, |a|)
  {
    assert (a + x + b)[|a|..|a| + |x|] == x;
  }

  /** The message when a route names a middleware but the application declared no middleware factory: it names both. */
  function MissingFactory(middleware: string, controller: string): (r: string)
    ensures Contains(r, middleware) && Contains(r, controller)
  {
    var r := MissingLead + middleware + MissingMiddle + controller + MissingTail;
    Between(MissingLead, middleware, MissingMiddle + controller + MissingTail);
    assert r == MissingLead + middleware + (MissingMiddle + controller + MissingTail);
    OccursImpliesContains(r, middleware, |MissingLead|);
    Between(MissingLead + middleware + MissingMiddle, controller, MissingTail);
    OccursImpliesContains(r, controller, |MissingLead + middleware + MissingMiddle|);
    r
  }

  /** The request as the middleware left it goes to the controller; an error becomes a 500. */
  function Proceed(q: Request, cfg: Config, controller: ControllerFactory, name: string): (h: Handled)
    ensures ControllerCalls(h.calls) == 1 && MiddlewareCalls(h.calls) == 0
    ensures h.calls[0] == ControllerCall(q, name)
    ensures forall i :: 0 <= i < |h.calls| ==> h.calls[i].request == q
    ensures controller(q, name).Ok? ==> h == Handled(controller(q, name).value, [ControllerCall(q, name)])
    ensures controller(q, name).Err? ==>
      h.response == Render(q, cfg, 500, controller(q, name).error, controller).response
  {
    var call := ControllerCall(q, name);
    match controller(q, name)
    case Ok(response) => Handled(response, [call])
    case Err(e) => After(call, Render(q, cfg, 500, e, controller))
  }

  /** The request as `middleware::resolver` leaves it: as the middleware left it, when one ran. */
  function Left(q: Request, factory: Option<MiddlewareFactory>, middlewareName: string): (r: Request)
    ensures factory.None? ==> r == q
    ensures factory.Some? ==> r == factory.value(q, middlewareName).request
  {
    match factory
    case None => q
    case Some(f) => f(q, middlewareName).request
  }

  /**
   * `middleware::resolver` on the routed request `q` with the route's controller and
   * middleware names.
   */
  function Resolve(q: Request, cfg: Config, controller: ControllerFactory, factory: Option<MiddlewareFactory>,
                   controllerName: string, middlewareName: string): (h: Handled)
    // Without a factory: a 500 naming both, and neither the middleware nor the controller runs.
    ensures factory.None? ==>
      h == Render(q, cfg, 500, MissingFactory(middlewareName, controllerName), controller)
    // With one: the middleware runs exactly once, first, on the routed request.
    ensures factory.Some? ==>
      MiddlewareCalls(h.calls) == 1 && h.calls[0] == MiddlewareCall(q, middlewareName)
    // What is sent in each of the five outcomes: the controller's response, the middleware's
    // own response, or a 500.
    ensures factory.Some? ==>
      var reply := factory.value(q, middlewareName); var p := reply.request;
      && (reply.outcome.Err? ==>
            h.response == Render(p, cfg, 500, reply.outcome.error, controller).response)
      && (reply.outcome.Ok? && reply.outcome.value.success && controller(p, controllerName).Ok? ==>
            h.response == controller(p, controllerName).value)
      && (reply.outcome.Ok? && reply.outcome.value.success && controller(p, controllerName).Err? ==>
            h.response == Render(p, cfg, 500, controller(p, controllerName).error, controller).response)
      && (reply.outcome.Ok? && !reply.outcome.value.success && reply.outcome.value.response.Some? ==>
            h == Handled(reply.outcome.value.response.value, [MiddlewareCall(q, middlewareName)]))
      && (reply.outcome.Ok? && !reply.outcome.value.success && reply.outcome.value.response.None? ==>
            h.response == Render(p, cfg, 500, NoResponseMessage, controller).response)
    // Every call after the first sees the request as the middleware left it.
    ensures forall i :: 0 < i < |h.calls| ==> h.calls[i].request == Left(q, factory, middlewareName)
    // The controller runs at most once, and only after a successful middleware.
    ensures ControllerCalls(h.calls) <= 1
    ensures ControllerCalls(h.calls) == 1 ==>
      var reply := factory.value(q, middlewareName);
      factory.Some? && reply.outcome.Ok? && reply.outcome.value.success
      && |h.calls| > 1 && h.calls[1] == ControllerCall(reply.request, controllerName)
  {
    match factory
    case None => Render(q, cfg, 500, MissingFactory(middlewareName, controllerName), controller)
    case Some(f) =>
      var reply := f(q, middlewareName);
      var call := MiddlewareCall(q, middlewareName);
      var p := reply.request;
      match reply.outcome
      case Err(e) => After(call, Render(p, cfg, 500, e, controller))
      case Ok(outcome) =>
        if outcome.success then After(call, Proceed(p, cfg, controller, controllerName))
        else
          match outcome.response
          case Some(response) => Handled(response, [call])
          case None => After(call, Render(p, cfg, 500, NoResponseMessage, controller))
  }
}

=== FILE: multipart.dfy ===
/**
 * The files attached to a `multipart/form-data` request (`Request::parse_files`,
 * src/http/request.rs). The boundary comes from the `Content-Type` header; every part from a
 * `Content-Disposition` line to the next boundary that names a non-empty file becomes a
 * `File` whose content is an index range of the request buffer.
 */
module Multipart {
  import opened Wrappers
  import opened Text
  import opened Maps
  import opened Patterns
  import opened Forms

  const BoundaryMark: string := "; boundary="
  const EmptyFileName: string := "filename=\"\""
  const ContentTypeHeader: string := "Content-Type:"
  const BlankLine: string := "\r\n\r\n"

  /** A file: its name and content type as sent, and its content as the range `[start, end)` of the buffer. */
  datatype File = File(filename: string, contentType: string, start: nat, end: nat)

  /** What a part's own text says about its file, before the content is located in the buffer. */
  datatype Head = Head(filename: string, contentType: string, content: string)

  /**
   * The boundary: the text after `; boundary=` on the multipart `Content-Type` line. `None`
   * when the line has no such mark, where the source indexes past the pieces and panics.
   */
  function BoundaryOf(header: string): Option<string>
  {
    var param := Split(TrimEndCrLf(header), BoundaryMark);
    if |param| < 2 then None else Some(param[1])
  }

  /** A part's first line names a file, and not the empty file name `filename=""`. */
  predicate NamesFile(first: string)
  {
    Contains(first, FileNameMark) && !Contains(first, EmptyFileName)
  }

  /** The lines of a part, line breaks at its start dropped. */
  function PartLines(part: string): (r: seq<string>)
    ensures |r| >= 1
  {
    Split(TrimStartIn(part, CrLfChars), CRLF)
  }

  /** The form name on a part's first line: the text before `filename=`, trimmed, without a trailing `;` or surrounding quotes. */
  function FileKey(first: string): string
  {
    var params := Split(first, FileNameMark);
    Strip(StripRight(Trim(Remove(params[0], Disposition)), ';'), '"')
  }

  /** The file name on a part's first line: the text after the first `filename=`, without spaces or quotes. */
  function FileName(first: string): string
    requires Contains(first, FileNameMark)
  {
    var params := Split(first, FileNameMark);
    SplitFound(first, FileNameMark);
    Remove(Remove(params[1], " "), "\"")
  }

  /** The content type on a part's second line, without the header name, spaces, quotes and line breaks. */
  function ContentTypeOf(line: string): string
  {
    TrimEndCrLf(Remove(Remove(Remove(line, ContentTypeHeader), " "), "\""))
  }

  /**
   * The text of one part read on its own: skipped unless it names a file; otherwise its form
   * name, file name, content type and content text: from the first occurrence of its fourth
   * line to the first occurrence of its last line, trailing line breaks dropped. The source
   * panics on fewer than four lines and when that range is reversed.
   */
  function FileHead(part: string): (r: Entry<string, Head>)
    ensures r.Skip? <==> !NamesFile(PartLines(part)[0])
    // A file part panics exactly when it has fewer than four lines or its content range is
    // reversed (both lines are always found: `PartLineFound`).
    ensures r.Crash? <==> NamesFile(PartLines(part)[0]) && Reversed(part, PartLines(part))
  {
    var lines := PartLines(part);
    if !NamesFile(lines[0]) then Skip
    else if |lines| < 4 then Crash
    else
      PartLineFound(part, 3);
      PartLineFound(part, |lines| - 1);
      match ContentText(part, lines)
      case None => Crash
      case Some(c) => Pair(FileKey(lines[0]), Head(FileName(lines[0]), ContentTypeOf(lines[1]), c))
  }

  /** Where the source panics on a file part: it has fewer than four lines, or the first occurrence of its fourth line comes after that of its last. */
  predicate Reversed(part: string, lines: seq<string>)
    requires |lines| > 0
  {
    || |lines| < 4
    || (&& Find(part, lines[3]).Some? && Find(part, lines[|lines| - 1]).Some?
        && Find(part, lines[3]).value > Find(part, lines[|lines| - 1]).value)
  }

  /** Every line of a part occurs in the part, so the source's `find(..).unwrap()` on a line never panics. */
  lemma PartLineFound(part: string, k: nat)
    requires k < |PartLines(part)|
    ensures Find(part, PartLines(part)[k]).Some?
  {
    var t := TrimStartIn(part, CrLfChars);
    SplitHolds(t, CRLF, k);
    ContainsInSuffix(part, PartLines(part)[k], |part| - |t|);
  }

  /**
   * A file part's content text: from the first occurrence in the part of its fourth line to
   * the first occurrence of its last line, trailing line breaks dropped; `None` where the
   * source panics on a reversed range.
   */
  function ContentText(part: string, lines: seq<string>): (r: Option<string>)
    requires |lines| >= 4
    ensures r.Some? ==> |r.value| <= |part|
    // With both lines found, the text is missing exactly when the range is reversed.
    ensures Find(part, lines[3]).Some? && Find(part, lines[|lines| - 1]).Some? ==>
      (r.None? <==> Find(part, lines[3]).value > Find(part, lines[|lines| - 1]).value)
  {
    match (Find(part, lines[3]), Find(part, lines[|lines| - 1]))
    case (Some(x1), Some(x2)) => if x1 > x2 then None else Some(TrimEndCrLf(part[x1..x2]))
    case _ => None
  }

  // ---------------------------------------------------------------------------------------
  // A file part as a browser writes it
  // ---------------------------------------------------------------------------------------

  /** The text before `filename=` on a file part's first line, the form name `n` quoted. */
  function NamePrefix(n: string): string
  {
    Disposition + "\"" + n + "\"; "
  }

  /** A file part's first line: `Content-Disposition: form-data; name="n"; filename="f"`. */
  function FileLine(n: string, f: string): string
  {
    NamePrefix(n) + FileNameMark + "\"" + f + "\""
  }

  /** A file part's headers: the first line, a `Content-Type: t` line, and the blank line. */
  function FileHeader(n: string, f: string, t: string): string
  {
    FileLine(n, f) + CRLF + ContentTypeHeader + " " + t + BlankLine
  }

  /** A file part as the source's pattern matches it: headers, content `c`, a line break, and the closing line `b`. */
  function FilePart(n: string, f: string, t: string, c: string, b: string): string
  {
    FileHeader(n, f, t) + c + CRLF + b
  }

  /** A form name that reads back as itself from a file part's first line. */
  predicate FormNameText(n: string)
  {
    '"' !in n && '\r' !in n && !Contains(n, Disposition) && !Contains(n, FileNameMark)
  }

  /** A file name that can stand quoted after `filename=`: non-empty, so the part names a file. */
  predicate FileNameText(f: string)
  {
    f != "" && '"' !in f && '\r' !in f && !Contains(f, FileNameMark)
  }

  lemma MarkNoBorder()
    ensures NoBorder(FileNameMark)
  {
    LastCharNoBorder(FileNameMark);
  }

  /** The `Content-Disposition` prefix has no `l`, so it cannot hold `filename=`. */
  lemma DispositionWithoutMark()
    ensures !Contains(Disposition, FileNameMark)
  {
    assert FileNameMark[2] == 'l';
    forall i | 0 <= i < |Disposition|
      ensures Disposition[i] != 'l'
    {
    }
    MissingChar(Disposition, FileNameMark, 'l');
  }

  /** The quoted name before `filename=` holds neither `filename=` nor a carriage return. */
  lemma NamePrefixPlain(n: string)
    requires FormNameText(n)
    ensures !Contains(NamePrefix(n), FileNameMark) && '\r' !in NamePrefix(n)
  {
    DispositionWithoutMark();
    DispositionPlain();
    ShortAvoids("; ", FileNameMark);
    AvoidAcross(Disposition, "\"", n, FileNameMark);
    AvoidAcross(Disposition + "\"" + n, "\"", "; ", FileNameMark);
    assert NamePrefix(n) == Disposition + "\"" + n + "\"" + "; ";
  }

  /** After the `Content-Disposition` prefix, the quoted name does not hold that prefix again. */
  lemma QuotedNameAvoids(n: string)
    requires FormNameText(n)
    ensures !Contains("\"" + n + "\"; ", Disposition)
  {
    DispositionPlain();
    ShortAvoids("; ", Disposition);
    ShortAvoids("", Disposition);
    AvoidAcross("", "\"", n, Disposition);
    assert "" + "\"" + n == "\"" + n;
    AvoidAcross("\"" + n, "\"", "; ", Disposition);
    assert "\"" + n + "\"" + "; " == "\"" + n + "\"; ";
  }

  /** In `a + filename= + b`, with `b` opening on a quote, `filename=` occurs only where it was placed. */
  lemma MarkOnlyAt(a: string, b: string, j: int)
    requires !Contains(a, FileNameMark) && !Contains(b, FileNameMark) && |b| > 0 && b[0] == '"'
    ensures OccursAt(a + FileNameMark + b, FileNameMark, j) ==> j == |a|
  {
    var s := a + FileNameMark + b;
    var m := |FileNameMark|;
    MarkNoBorder();
    FindAfterPlain(a, FileNameMark, b);
    assert s[|a| + m] == '"' && '"' !in FileNameMark;
    WindowChar(s, FileNameMark, j, |a| + m);
    assert s[|a| + m..] == b;
    OccursInSuffix(s, FileNameMark, |a| + m, j - |a| - m);
  }

  /** The quoted file name holds no `filename=`. */
  lemma QuotedFileAvoids(f: string)
    requires FileNameText(f)
    ensures !Contains("\"" + f + "\"", FileNameMark)
  {
    AvoidPadded(f, '"', '"', FileNameMark);
    assert ['"'] + f + ['"'] == "\"" + f + "\"";
  }

  /** A file line splits at `filename=` into the quoted name and the quoted file name, and names a file. */
  lemma FileLineSplit(n: string, f: string)
    requires FormNameText(n) && FileNameText(f)
    ensures Split(FileLine(n, f), FileNameMark) == [NamePrefix(n), "\"" + f + "\""]
    ensures NamesFile(FileLine(n, f))
  {
    var a, b := NamePrefix(n), "\"" + f + "\"";
    assert FileLine(n, f) == a + FileNameMark + b;
    NamePrefixPlain(n);
    QuotedFileAvoids(f);
    MarkedSplit(a, b);
    NotEmptyFileName(a, f);
  }

  /** A text with one `filename=` splits around it, and contains it. */
  lemma MarkedSplit(a: string, b: string)
    requires !Contains(a, FileNameMark) && !Contains(b, FileNameMark)
    ensures Split(a + FileNameMark + b, FileNameMark) == [a, b]
    ensures Contains(a + FileNameMark + b, FileNameMark)
  {
    var s := a + FileNameMark + b;
    MarkNoBorder();
    SplitConcat(a, FileNameMark, b);
    SplitWithout(a, FileNameMark);
    SplitWithout(b, FileNameMark);
    assert s[|a|..|a| + |FileNameMark|] == FileNameMark;
    OccursImpliesContains(s, FileNameMark, |a|);
  }

  /** The empty file name is `filename=` followed by two quotes. */
  lemma EmptyFileNameParts()
    ensures EmptyFileName == FileNameMark + "\"\""
  {
  }

  /** After the only `filename=`, a quoted non-empty name without quotes is not the empty file name. */
  lemma NotEmptyFileName(a: string, f: string)
    requires f != "" && '"' !in f && !Contains(a, FileNameMark) && !Contains("\"" + f + "\"", FileNameMark)
    ensures !Contains(a + FileNameMark + "\"" + f + "\"", EmptyFileName)
  {
    var b := "\"" + f + "\"";
    var s := a + FileNameMark + b;
    assert s == a + FileNameMark + "\"" + f + "\"";
    var m := |FileNameMark|;
    EmptyFileNameParts();
    assert s[|a| + m + 1] == b[1] == f[0] && f[0] in f;
    forall j | 0 <= j
      ensures !OccursAt(s, EmptyFileName, j)
    {
      OccursSplit(s, FileNameMark, "\"\"", j);
      MarkOnlyAt(a, b, j);
      WindowChar(s, "\"\"", j + m, |a| + m + 1);
    }
  }

  /** Trimming the quoted name with its `; ` keeps the quotes and the `;`. */
  lemma TrimQuotedName(n: string)
    ensures Trim("\"" + n + "\"; ") == "\"" + n + "\";"
  {
    var core := "\"" + n + "\";";
    assert "" + core + " " == "\"" + n + "\"; ";
    TrimPadded("", core, " ", Whitespace);
  }

  /** Stripping the `;` after the closing quote leaves the quoted name. */
  lemma StripSemicolon(n: string)
    ensures StripRight("\"" + n + "\";", ';') == "\"" + n + "\""
  {
    var core := "\"" + n + "\";";
    var q := "\"" + n + "\"";
    assert core[..|core| - 1] == q;
    TrimEndNone(q, {';'});
  }

  /** Stripping the quotes from a quoted name without quotes leaves the name. */
  lemma StripQuotes(n: string)
    requires '"' !in n
    ensures Strip("\"" + n + "\"", '"') == n
  {
    var q := "\"" + n + "\"";
    if |n| > 0 {
      TrimPadded("\"", n, "\"", {'"'});
    } else {
      assert TrimStartIn(q, {'"'}) == TrimStartIn(q[1..], {'"'}) == TrimStartIn(q[2..], {'"'});
    }
  }

  /** Removing the `Content-Disposition` prefix leaves the quoted name and its `; `. */
  lemma RemoveDisposition(n: string)
    requires FormNameText(n)
    ensures Remove(NamePrefix(n), Disposition) == "\"" + n + "\"; "
  {
    var rest := "\"" + n + "\"; ";
    QuotedNameAvoids(n);
    assert NamePrefix(n) == Disposition + rest;
    RemoveLeading(Disposition, rest);
  }

  /** The key of a file part is its form name. */
  lemma FileKeyOf(n: string, f: string)
    requires FormNameText(n) && FileNameText(f)
    ensures FileKey(FileLine(n, f)) == n
  {
    FileLineSplit(n, f);
    RemoveDisposition(n);
    TrimQuotedName(n);
    StripSemicolon(n);
    StripQuotes(n);
  }

  /** The stored file name is the file name without its spaces. */
  lemma FileNameOf(n: string, f: string)
    requires FormNameText(n) && FileNameText(f)
    ensures Contains(FileLine(n, f), FileNameMark) && FileName(FileLine(n, f)) == Filter(f, ' ')
  {
    FileLineSplit(n, f);
    var b := "\"" + f + "\"";
    var g := Filter(f, ' ');
    RemoveChar(b, ' ');
    FilterConcat("\"" + f, "\"", ' ');
    FilterConcat("\"", f, ' ');
    FilterWithout("\"", ' ');
    RemoveChar("\"" + g + "\"", '"');
    FilterConcat("\"" + g, "\"", '"');
    FilterConcat("\"", g, '"');
    FilterWithout(g, '"');
    assert Filter("\"", '"') == "";
  }

  /** Removing the header name from a `Content-Type: t` line leaves the space and `t`. */
  lemma RemoveTypeHeader(t: string)
    requires !Contains(t, ContentTypeHeader)
    ensures Remove(ContentTypeHeader + " " + t, ContentTypeHeader) == " " + t
  {
    ShortAvoids("", ContentTypeHeader);
    assert ' ' !in ContentTypeHeader;
    AvoidAcross("", " ", t, ContentTypeHeader);
    assert "" + " " + t == " " + t;
    assert ContentTypeHeader + " " + t == ContentTypeHeader + (" " + t);
    RemoveLeading(ContentTypeHeader, " " + t);
  }

  /** Removing the spaces from the space and `t` leaves `t` without its spaces. */
  lemma RemoveLeadingSpace(t: string)
    ensures Remove(" " + t, " ") == Filter(t, ' ')
  {
    RemoveChar(" " + t, ' ');
    FilterConcat(" ", t, ' ');
    assert Filter(" ", ' ') == "";
  }

  /** A text without line breaks is not trimmed. */
  lemma TrimNoLineBreak(g: string)
    requires '\r' !in g && '\n' !in g
    ensures TrimEndCrLf(g) == g
  {
    if |g| > 0 {
      assert g[|g| - 1] in g;
    }
    TrimEndNone(g, CrLfChars);
  }

  /** The stored content type of a `Content-Type: t` line is `t` without spaces and quotes. */
  lemma ContentTypeOfLine(t: string)
    requires '\r' !in t && '\n' !in t && !Contains(t, ContentTypeHeader)
    ensures ContentTypeOf(ContentTypeHeader + " " + t) == Filter(Filter(t, ' '), '"')
  {
    RemoveTypeHeader(t);
    RemoveLeadingSpace(t);
    RemoveChar(Filter(t, ' '), '"');
    TrimNoLineBreak(Filter(Filter(t, ' '), '"'));
  }

  /** Lines joined by line breaks, a blank line after the second, split back into those lines. */
  lemma LinesOf(l0: string, l1: string, c: string, b: string)
    requires |l0| > 0 && l0[0] !in CrLfChars
    requires '\r' !in l0 && '\r' !in l1 && '\r' !in c && '\r' !in b
    ensures PartLines(l0 + CRLF + l1 + BlankLine + c + CRLF + b) == [l0, l1, "", c, b]
  {
    var parts := [l0, l1, "", c, b];
    var p := l0 + CRLF + l1 + BlankLine + c + CRLF + b;
    TrimStartNone(p, CrLfChars);
    JoinCons(c, [b], CRLF);
    JoinCons("", [c, b], CRLF);
    JoinCons(l1, ["", c, b], CRLF);
    JoinCons(l0, [l1, "", c, b], CRLF);
    assert parts == [l0] + [l1, "", c, b];
    assert BlankLine == CRLF + CRLF;
    assert Join(parts, CRLF) == p;
    forall k | 0 <= k < |parts|
      ensures !Contains(parts[k], CRLF)
    {
      NoCrNoCrLf(parts[k]);
    }
    CrLfNoBorder();
    SplitJoin(parts, CRLF);
  }

  /** A file line starts with the `Content-Disposition` prefix and holds no carriage return. */
  lemma FileLinePlain(n: string, f: string)
    requires FormNameText(n) && FileNameText(f)
    ensures |FileLine(n, f)| > 0 && FileLine(n, f)[0] !in CrLfChars && '\r' !in FileLine(n, f)
  {
    NamePrefixPlain(n);
    assert FileLine(n, f)[0] == Disposition[0] == 'C';
  }

  /** The lines of a file part: its first line, its type line, the blank line, the content and the closing line. */
  lemma FilePartLines(n: string, f: string, t: string, c: string, b: string)
    requires FormNameText(n) && FileNameText(f) && '\r' !in t && '\r' !in c && '\r' !in b
    ensures PartLines(FilePart(n, f, t, c, b)) == [FileLine(n, f), ContentTypeHeader + " " + t, "", c, b]
  {
    var l0, l1 := FileLine(n, f), ContentTypeHeader + " " + t;
    FileLinePlain(n, f);
    assert '\r' !in ContentTypeHeader;
    assert FilePart(n, f, t, c, b) == l0 + CRLF + l1 + BlankLine + c + CRLF + b;
    LinesOf(l0, l1, c, b);
  }

  /** A content line followed by a line break loses just the line break. */
  lemma TrimLineBreak(c: string)
    requires '\r' !in c && '\n' !in c
    ensures TrimEndCrLf(c + CRLF) == c
  {
    var s := c + CRLF;
    assert s[..|s| - 1] == c + "\r";
    TrimCarriageReturn(c);
  }

  /**
   * After any header text `h`, the content text runs from the content to the closing line,
   * when neither occurs before its own place.
   */
  lemma ContentOf(h: string, c: string, b: string, lines: seq<string>)
    requires c != "" && '\r' !in c && '\n' !in c && b != ""
    requires !Contains(h + c[..|c| - 1], c) && !Contains(h + c + CRLF + b[..|b| - 1], b)
    requires |lines| >= 4 && lines[3] == c && lines[|lines| - 1] == b
    ensures ContentText(h + c + CRLF + b, lines) == Some(c)
  {
    var p := h + c + CRLF + b;
    assert p[|h|..|h| + |c|] == c;
    assert p[..|h| + |c| - 1] == h + c[..|c| - 1];
    FindFirst(p, c, |h|);
    var x2 := |h| + |c| + 2;
    assert p[x2..x2 + |b|] == b;
    assert p[..x2 + |b| - 1] == h + c + CRLF + b[..|b| - 1];
    FindFirst(p, b, x2);
    assert p[|h|..x2] == c + CRLF;
    TrimLineBreak(c);
  }

  /**
   * A file part's content text is its content, when neither the content nor the closing line
   * occurs in the part before its own place (the source takes the first occurrence of each).
   */
  lemma FilePartContent(n: string, f: string, t: string, c: string, b: string)
    requires FormNameText(n) && FileNameText(f) && '\r' !in t
    requires c != "" && '\r' !in c && '\n' !in c && b != "" && '\r' !in b
    requires !Contains(FileHeader(n, f, t) + c[..|c| - 1], c)
    requires !Contains(FileHeader(n, f, t) + c + CRLF + b[..|b| - 1], b)
    ensures |PartLines(FilePart(n, f, t, c, b))| == 5
    ensures ContentText(FilePart(n, f, t, c, b), PartLines(FilePart(n, f, t, c, b))) == Some(c)
  {
    FilePartLines(n, f, t, c, b);
    ContentOf(FileHeader(n, f, t), c, b, PartLines(FilePart(n, f, t, c, b)));
  }

  /**
   * A file part written by a browser reads back as what it was written with: the form name as
   * the key, the file name without spaces, the type without spaces or quotes, and the content.
   */
  lemma FilePartHead(n: string, f: string, t: string, c: string, b: string)
    requires FormNameText(n) && FileNameText(f)
    requires '\r' !in t && '\n' !in t && !Contains(t, ContentTypeHeader)
    requires c != "" && '\r' !in c && '\n' !in c && b != "" && '\r' !in b
    requires !Contains(FileHeader(n, f, t) + c[..|c| - 1], c)
    requires !Contains(FileHeader(n, f, t) + c + CRLF + b[..|b| - 1], b)
    ensures FileHead(FilePart(n, f, t, c, b)) == Pair(n, Head(Filter(f, ' '), Filter(Filter(t, ' '), '"'), c))
  {
    FilePartLines(n, f, t, c, b);
    FileLineSplit(n, f);
    FilePartContent(n, f, t, c, b);
    FileKeyOf(n, f);
    FileNameOf(n, f);
    ContentTypeOfLine(t);
  }

  /** The index just after the first blank line at or after `from`; `None` when there is none. */
  function HeaderEnd(raw: string, from: nat): (r: Option<nat>)
    ensures r.Some? ==> from + 4 <= r.value && OccursAt(raw, BlankLine, r.value - 4)
  {
    match FindFrom(raw, BlankLine, from)
    case None => None
    case Some(j) => Some(j + 4)
  }

  /** The blank line found is the first one: none is skipped. */
  lemma HeaderEndFirst(raw: string, from: nat, j: nat)
    requires from <= j && OccursAt(raw, BlankLine, j)
    ensures HeaderEnd(raw, from).Some? && HeaderEnd(raw, from).value <= j + 4
  {
    var f := FindFrom(raw, BlankLine, from);
    assert f.Some?;
  }

  /**
   * From a content start `n1`: the end of the first boundary ending after `n1` (the next
   * scan start), and the content end 4 characters before that boundary. `None` where the
   * source panics: the first window would start before the buffer, no boundary follows, or
   * the content end falls before `n1`.
   */
  function FileSpan(raw: string, b: string, n1: nat): (r: Option<(nat, nat)>)
    ensures r.Some? ==> n1 <= r.value.0 && r.value.1 == r.value.0 + 4 + |b| <= |raw|
    ensures r.Some? ==> OccursAt(raw, b, r.value.0 + 4)
    ensures r.Some? && |b| > 0 ==> !Contains(raw[n1..r.value.0], b)
  {
    if n1 + 1 < |b| then None
    else
      match FindFrom(raw, b, n1 + 1 - |b|)
      case None => None
      case Some(j) =>
        if j < 4 || n1 > j - 4 then None
        else
          BoundaryFree(raw, b, n1, j);
          Some((j - 4, j + |b|))
  }

  /** No boundary lies in the content, which ends before the first boundary after its start. */
  lemma BoundaryFree(raw: string, b: string, n1: nat, j: nat)
    requires |b| > 0 && n1 + 1 >= |b| && 4 <= j && n1 <= j - 4 <= |raw|
    requires forall i :: n1 + 1 - |b| <= i < j ==> !OccursAt(raw, b, i)
    ensures !Contains(raw[n1..j - 4], b)
  {
    var p := raw[..j - 4];
    assert raw[n1..j - 4] == p[n1..];
    forall i | 0 <= i
      ensures !OccursAt(p[n1..], b, i)
    {
      OccursInSuffix(p, b, n1, i);
      if OccursAt(p, b, i + n1) {
        OccursInPrefix(raw, b, j - 4, i + n1);
      }
    }
  }

  /** A file's content ends 4 characters before a boundary and holds no boundary itself. */
  predicate Spanned(raw: string, b: string, f: File)
  {
    f.start <= f.end && f.end + 4 + |b| <= |raw|
    && OccursAt(raw, b, f.end + 4)
    && (|b| > 0 ==> !Contains(raw[f.start..f.end], b))
  }

  /** The file of a part whose head is read and whose content starts at `n1`. */
  function FileAt(raw: string, b: string, head: Head, n1: nat): (r: Option<File>)
    ensures r.Some? ==> r.value.start == n1 && Spanned(raw, b, r.value)
    ensures r.Some? ==> r.value.filename == head.filename && r.value.contentType == head.contentType
  {
    match FileSpan(raw, b, n1)
    case None => None
    case Some((e, _)) => Some(File(head.filename, head.contentType, n1, e))
  }

  /** A file as the corrected parser stores it: its content is bounded by its part and holds no boundary. */
  predicate Bounded(raw: string, b: string, f: File)
  {
    Spanned(raw, b, f) && 4 <= f.start && OccursAt(raw, BlankLine, f.start - 4)
  }

  // ---------------------------------------------------------------------------------------
  // Corrected reading: a file's content starts after its own part's blank line
  // ---------------------------------------------------------------------------------------

  /** The content start of the part matched at `m`: just after the first blank line of the part. */
  function PartStart(raw: string, m: Match): (r: Option<nat>)
    ensures r.Some? ==> m.start + 4 <= r.value
  {
    HeaderEnd(raw, m.start)
  }

  /** The file of a part matched at `m` whose head is read; `None` where the source panics. */
  function PartFile(raw: string, b: string, m: Match, head: Head): (r: Option<File>)
    ensures r.Some? ==> Bounded(raw, b, r.value) && m.start + 4 <= r.value.start
  {
    match PartStart(raw, m)
    case None => None
    case Some(n1) => FileAt(raw, b, head, n1)
  }

  /** The file of one part matched at `m`: skipped unless it names a file; `Crash` where the source panics. */
  function PartEntry(raw: string, b: string, m: Match): (r: Entry<string, File>)
    requires m.start <= m.end <= |raw|
    ensures r.Pair? ==> Bounded(raw, b, r.value) && m.start + 4 <= r.value.start
  {
    EntryFor(raw, b, m, FileHead(raw[m.start..m.end]))
  }

  /** The entry of the part matched at `m`, given what its head reads as. */
  function EntryFor(raw: string, b: string, m: Match, h: Entry<string, Head>): (r: Entry<string, File>)
    ensures r.Pair? ==> Bounded(raw, b, r.value) && m.start + 4 <= r.value.start
  {
    match h
    case Skip => Skip
    case Crash => Crash
    case Pair(key, head) =>
      match PartFile(raw, b, m, head)
      case None => Crash
      case Some(f) => Pair(key, f)
  }

  /** The parts of the body: from each `Content-Disposition` name line to the next boundary. */
  function Parts(raw: string, b: string): (r: seq<Match>)
    ensures forall k :: 0 <= k < |r| ==> r[k].start <= r[k].end <= |raw|
  {
    FindUpTo(raw, Disposition, b, 0)
  }

  function PartEntries(raw: string, b: string): (r: seq<Entry<string, File>>)
    ensures |r| == |Parts(raw, b)|
  {
    var ms := Parts(raw, b);
    seq(|ms|, i requires 0 <= i < |ms| => PartEntry(raw, b, ms[i]))
  }

  /**
   * `Request::parse_files` with the content start corrected: no files without a multipart
   * `Content-Type` line; `None` where the source panics.
   */
  function Files(raw: string): Option<map<string, File>>
  {
    match FindLineCrLf(raw, MultipartType, 0)
    case None => Some(map[])
    case Some(x) =>
      match BoundaryOf(raw[x.start..x.end])
      case None => None
      case Some(b) => Collect(map[], PartEntries(raw, b))
  }

  /** A part is stored under the name its head gives it, and a file part is stored unless the source panics. */
  lemma PartEntryHead(raw: string, b: string, m: Match)
    requires m.start <= m.end <= |raw|
    ensures var h := FileHead(raw[m.start..m.end]); var r := PartEntry(raw, b, m);
      (r.Skip? <==> h.Skip?) && (r.Pair? ==> h.Pair? && r.key == h.key)
      && (h.Pair? && !r.Crash? ==> r.Pair?)
  {
    EntryForHead(raw, b, m, FileHead(raw[m.start..m.end]));
  }

  /** The entry keeps the head's kind and key. */
  lemma EntryForHead(raw: string, b: string, m: Match, h: Entry<string, Head>)
    ensures var r := EntryFor(raw, b, m, h);
      (r.Skip? <==> h.Skip?) && (r.Pair? ==> h.Pair? && r.key == h.key)
      && (h.Pair? && !r.Crash? ==> r.Pair?)
  {
  }

  /** Every stored file lies between its part's blank line and the next boundary, and holds no boundary. */
  lemma FilesBounded(raw: string, b: string, k: string)
    requires Collect(map[], PartEntries(raw, b)).Some?
    requires k in Collect(map[], PartEntries(raw, b)).value
    ensures Bounded(raw, b, Collect(map[], PartEntries(raw, b)).value[k])
  {
    var es := PartEntries(raw, b);
    forall i | 0 <= i < |es| && es[i].Pair?
      ensures Bounded(raw, b, es[i].value)
    {
      assert es[i] == PartEntry(raw, b, Parts(raw, b)[i]);
    }
    CollectValues(map[], es, f => Bounded(raw, b, f));
  }

  /**
   * The files are stored under exactly the names of the parts that name a file: a part
   * without a file name, or with the empty one, stores nothing.
   */
  lemma FilesKeys(raw: string, b: string, k: string)
    requires Collect(map[], PartEntries(raw, b)).Some?
    ensures k in Collect(map[], PartEntries(raw, b)).value <==>
      exists i :: 0 <= i < |Parts(raw, b)| &&
        var h := FileHead(raw[Parts(raw, b)[i].start..Parts(raw, b)[i].end]); h.Pair? && h.key == k
  {
    var es := PartEntries(raw, b);
    var ms := Parts(raw, b);
    InsertKeys(map[], Pairs(es), k);
    PairKeys(es, k);
    forall i | 0 <= i < |es|
      ensures es[i].Pair? && es[i].key == k <==>
        var h := FileHead(raw[ms[i].start..ms[i].end]); h.Pair? && h.key == k
    {
      assert es[i] == PartEntry(raw, b, ms[i]);
      assert !es[i].Crash?;
      PartEntryHead(raw, b, ms[i]);
    }
  }

  /** Every file the corrected parser stores lies inside the request, just after a blank line. */
  lemma FilesWithin(raw: string, k: string)
    requires Files(raw).Some? && k in Files(raw).value
    ensures var f := Files(raw).value[k];
      4 <= f.start <= f.end <= |raw| && OccursAt(raw, BlankLine, f.start - 4)
  {
    var x := FindLineCrLf(raw, MultipartType, 0).value;
    var b := BoundaryOf(raw[x.start..x.end]).value;
    FilesBounded(raw, b, k);
  }

  /** A request without a multipart `Content-Type` line has no files. */
  lemma NoMultipartNoFiles(raw: string)
    requires !Contains(raw, MultipartType)
    ensures Files(raw) == Some(map[])
  {
  }

  // ---------------------------------------------------------------------------------------
  // The content start as the source computes it
  // ---------------------------------------------------------------------------------------

  /**
   * The content start as written: for the first file, the first occurrence in the whole
   * request of the part's content text; for a later one, just after the first blank line at
   * or after the end of the previous file's boundary.
   */
  function WrittenStart(raw: string, head: Head, prev: nat): Option<nat>
  {
    if prev == 0 then Find(raw, head.content) else HeaderEnd(raw, prev)
  }

  /** The file of a part whose head is read, as written, and where the next scan starts. */
  function WrittenFile(raw: string, b: string, head: Head, prev: nat): Option<(File, nat)>
  {
    match WrittenStart(raw, head, prev)
    case None => None
    case Some(n1) =>
      match FileSpan(raw, b, n1)
      case None => None
      case Some((e, next)) => Some((File(head.filename, head.contentType, n1, e), next))
  }

  /** What the heads of the parts matched at `ms` read as, in order. */
  function Heads(raw: string, ms: seq<Match>): (r: seq<Entry<string, Head>>)
    requires forall k :: 0 <= k < |ms| ==> ms[k].start <= ms[k].end <= |raw|
    ensures |r| == |ms|
  {
    seq(|ms|, i requires 0 <= i < |ms| => FileHead(raw[ms[i].start..ms[i].end]))
  }

  /**
   * One part read as the source does, given what its head reads as and the end of the last
   * file's boundary: its entry, and where the next file's scan starts.
   */
  function WrittenPart(raw: string, b: string, h: Entry<string, Head>, prev: nat): (r: (Entry<string, File>, nat))
  {
    match h
    case Skip => (Skip, prev)
    case Crash => (Crash, prev)
    case Pair(key, head) =>
      match WrittenFile(raw, b, head, prev)
      case None => (Crash, prev)
      case Some((f, next)) => (Pair(key, f), next)
  }

  /** The parts read in order as the source does, threading the end of the last file's boundary; reading stops at a panic. */
  function WrittenEntries(raw: string, b: string, hs: seq<Entry<string, Head>>, prev: nat): (r: seq<Entry<string, File>>)
    ensures |hs| > 0 ==> |r| > 0
    decreases |hs|
  {
    if |hs| == 0 then []
    else
      var part := WrittenPart(raw, b, hs[0], prev);
      if part.0.Crash? then [Crash]
      else [part.0] + WrittenEntries(raw, b, hs[1..], part.1)
  }

  /** The entries of the parts of the body, as written. */
  function WrittenParts(raw: string, b: string): seq<Entry<string, File>>
  {
    WrittenEntries(raw, b, Heads(raw, Parts(raw, b)), 0)
  }

  /** `Request::parse_files` as written. */
  function WrittenFiles(raw: string): Option<map<string, File>>
  {
    match FindLineCrLf(raw, MultipartType, 0)
    case None => Some(map[])
    case Some(x) =>
      match BoundaryOf(raw[x.start..x.end])
      case None => None
      case Some(b) => Collect(map[], WrittenParts(raw, b))
  }

  /**
   * An entry as read from a part whose head reads as `h`: the head's kind and key, and for a
   * file, content spanned up to a boundary under the file name and type the head gives.
   */
  predicate ReadsHead(raw: string, b: string, h: Entry<string, Head>, e: Entry<string, File>)
  {
    (e.Skip? <==> h.Skip?) && (h.Crash? ==> e.Crash?)
    && (e.Pair? ==>
          h.Pair? && e.key == h.key && Spanned(raw, b, e.value)
          && e.value.filename == h.value.filename && e.value.contentType == h.value.contentType)
  }

  /** The corrected parser reads each part as its head says. */
  lemma EntryForReads(raw: string, b: string, m: Match, h: Entry<string, Head>)
    ensures ReadsHead(raw, b, h, EntryFor(raw, b, m, h))
  {
  }

  /** As written, each part is read as its head says, wherever its content is taken from. */
  lemma WrittenPartReads(raw: string, b: string, h: Entry<string, Head>, prev: nat)
    ensures ReadsHead(raw, b, h, WrittenPart(raw, b, h, prev).0)
  {
    match h
    case Skip =>
    case Crash =>
    case Pair(key, head) =>
      match WrittenFile(raw, b, head, prev)
      case None =>
      case Some((f, next)) =>
        var n1 := WrittenStart(raw, head, prev).value;
        assert f.start == n1 && (f.end, next) == FileSpan(raw, b, n1).value;
  }

  /**
   * As written, the parts are read in order, each as its head says, and all of them are read
   * unless one panics.
   */
  lemma {:induction false} WrittenEntriesRead(raw: string, b: string, hs: seq<Entry<string, Head>>, prev: nat)
    ensures var r := WrittenEntries(raw, b, hs, prev);
      |r| <= |hs| && (forall i :: 0 <= i < |r| ==> ReadsHead(raw, b, hs[i], r[i]))
      && ((forall i :: 0 <= i < |r| ==> !r[i].Crash?) ==> |r| == |hs|)
    decreases |hs|
  {
    if |hs| > 0 {
      var part := WrittenPart(raw, b, hs[0], prev);
      var r := WrittenEntries(raw, b, hs, prev);
      WrittenPartReads(raw, b, hs[0], prev);
      if part.0.Crash? {
        assert r == [part.0];
      } else {
        var rest := WrittenEntries(raw, b, hs[1..], part.1);
        assert r == [part.0] + rest;
        WrittenEntriesRead(raw, b, hs[1..], part.1);
        forall i | 0 < i < |r|
          ensures ReadsHead(raw, b, hs[i], r[i])
        {
          assert r[i] == rest[i - 1] && hs[i] == hs[1..][i - 1];
        }
        if forall i :: 0 <= i < |r| ==> !r[i].Crash? {
          assert forall i :: 0 <= i < |rest| ==> rest[i] == r[i + 1];
        }
      }
    }
  }

  /** Entries read head by head without a panic are stored under exactly the names of the file heads. */
  lemma ReadKeys(raw: string, b: string, hs: seq<Entry<string, Head>>, es: seq<Entry<string, File>>, k: string)
    requires |es| == |hs| && forall i :: 0 <= i < |es| ==> ReadsHead(raw, b, hs[i], es[i]) && !es[i].Crash?
    ensures k in Keys(Pairs(es)) <==> exists i :: 0 <= i < |hs| && hs[i].Pair? && hs[i].key == k
  {
    PairKeys(es, k);
    if k in Keys(Pairs(es)) {
      var i :| 0 <= i < |es| && es[i].Pair? && es[i].key == k;
      assert ReadsHead(raw, b, hs[i], es[i]);
    }
    if exists i :: 0 <= i < |hs| && hs[i].Pair? && hs[i].key == k {
      var i :| 0 <= i < |hs| && hs[i].Pair? && hs[i].key == k;
      assert ReadsHead(raw, b, hs[i], es[i]);
    }
  }

  /**
   * As written, the files are stored under exactly the names of the parts that name a file,
   * as the corrected parser stores them.
   */
  lemma WrittenFilesKeys(raw: string, b: string, k: string)
    requires Collect(map[], WrittenParts(raw, b)).Some?
    ensures k in Collect(map[], WrittenParts(raw, b)).value <==>
      exists i :: 0 <= i < |Parts(raw, b)| &&
        var h := FileHead(raw[Parts(raw, b)[i].start..Parts(raw, b)[i].end]); h.Pair? && h.key == k
  {
    var ms := Parts(raw, b);
    var hs := Heads(raw, ms);
    var es := WrittenParts(raw, b);
    WrittenEntriesRead(raw, b, hs, 0);
    InsertKeys(map[], Pairs(es), k);
    ReadKeys(raw, b, hs, es, k);
    assert forall i :: 0 <= i < |ms| ==> hs[i] == FileHead(raw[ms[i].start..ms[i].end]);
  }

  /** As written, every stored file ends 4 characters before a boundary and holds no boundary. */
  lemma WrittenFilesSpanned(raw: string, b: string, k: string)
    requires Collect(map[], WrittenParts(raw, b)).Some?
    requires k in Collect(map[], WrittenParts(raw, b)).value
    ensures Spanned(raw, b, Collect(map[], WrittenParts(raw, b)).value[k])
  {
    WrittenEntriesRead(raw, b, Heads(raw, Parts(raw, b)), 0);
    CollectValues(map[], WrittenParts(raw, b), f => Spanned(raw, b, f));
  }

  /** As written, every stored file lies inside the request, its content before a boundary. */
  lemma WrittenFilesWithin(raw: string, k: string)
    requires WrittenFiles(raw).Some? && k in WrittenFiles(raw).value
    ensures var f := WrittenFiles(raw).value[k]; f.start <= f.end && f.end + 4 <= |raw|
  {
    var x := FindLineCrLf(raw, MultipartType, 0).value;
    var b := BoundaryOf(raw[x.start..x.end]).value;
    WrittenFilesSpanned(raw, b, k);
  }

  /** As written, too, a request without a multipart `Content-Type` line has no files. */
  lemma WrittenNoMultipartNoFiles(raw: string)
    requires !Contains(raw, MultipartType)
    ensures WrittenFiles(raw) == Some(map[])
  {
  }

  /**
   * Where neither parser panics, both store the same names, each with the same file name and
   * content type: they differ only in where a file's content starts and ends.
   */
  lemma FilesAgree(raw: string)
    requires Files(raw).Some? && WrittenFiles(raw).Some?
    ensures Files(raw).value.Keys == WrittenFiles(raw).value.Keys
    ensures forall k :: k in Files(raw).value ==>
      Files(raw).value[k].filename == WrittenFiles(raw).value[k].filename
      && Files(raw).value[k].contentType == WrittenFiles(raw).value[k].contentType
  {
    if FindLineCrLf(raw, MultipartType, 0).Some? {
      var x := FindLineCrLf(raw, MultipartType, 0).value;
      var b := BoundaryOf(raw[x.start..x.end]).value;
      PartsAgree(raw, b);
    }
  }

  /** The corrected and the as-written entries of the same parts agree in names, file names and types. */
  lemma PartsAgree(raw: string, b: string)
    requires Collect(map[], PartEntries(raw, b)).Some?
    requires Collect(map[], WrittenParts(raw, b)).Some?
    ensures var c1 := Collect(map[], PartEntries(raw, b)).value;
      var c2 := Collect(map[], WrittenParts(raw, b)).value;
      c1.Keys == c2.Keys
      && forall k :: k in c1 ==> c1[k].filename == c2[k].filename && c1[k].contentType == c2[k].contentType
  {
    var ms := Parts(raw, b);
    var hs := Heads(raw, ms);
    var es1 := PartEntries(raw, b);
    var es2 := WrittenParts(raw, b);
    WrittenEntriesRead(raw, b, hs, 0);
    forall i | 0 <= i < |es1|
      ensures ReadsHead(raw, b, hs[i], es1[i])
    {
      assert es1[i] == EntryFor(raw, b, ms[i], hs[i]);
      EntryForReads(raw, b, ms[i], hs[i]);
    }
    CollectAgree(map[], map[], es1, es2,
      (f1: File, f2: File) => f1.filename == f2.filename && f1.contentType == f2.contentType);
  }

  /**
   * A later file read as written, after a text field whose blank line comes first and whose
   * value ends before a boundary: what is stored is the field's value, ending before that
   * boundary and so before the file's own part.
   */
  lemma LaterFileIsField(raw: string, b: string, m: Match, h: Head, prev: nat, j: nat, k: nat)
    requires 0 < prev <= j && OccursAt(raw, BlankLine, j) && |b| > 0
    requires j + 4 <= k && OccursAt(raw, b, k) && k + |b| <= m.start
    requires WrittenFile(raw, b, h, prev).Some?
    ensures var f := WrittenFile(raw, b, h, prev).value.0;
      f.start <= j + 4 && f.start <= f.end && f.end + 4 <= k && f.end + 4 + |b| <= m.start
  {
    HeaderEndFirst(raw, prev, j);
    var n1 := HeaderEnd(raw, prev).value;
    assert FindFrom(raw, b, n1 + 1 - |b|).value <= k;
  }

  /** The empty pattern is found at the very start. */
  lemma FindEmpty(s: string)
    ensures Find(s, "") == Some(0)
  {
    assert s[0..0] == "";
  }

  /** With an empty fourth line, the content text is a prefix of the part. */
  lemma EmptyLineContent(part: string, lines: seq<string>)
    requires |lines| >= 4 && lines[3] == "" && ContentText(part, lines).Some?
    ensures part[..|ContentText(part, lines).value|] == ContentText(part, lines).value
  {
    FindEmpty(part);
  }

  /**
   * As written, the first file part whose fourth line is empty (an empty file, say) is read
   * from the first occurrence of its content text, which starts at or before the part's own
   * `Content-Disposition` line: the file's content takes in the part's header.
   */
  lemma FirstFileStartsEarly(raw: string, m: Match, key: string, h: Head)
    requires m.start <= m.end <= |raw|
    requires FileHead(raw[m.start..m.end]) == Pair(key, h)
    requires |PartLines(raw[m.start..m.end])| >= 4 && PartLines(raw[m.start..m.end])[3] == ""
    ensures Find(raw, h.content).Some? && Find(raw, h.content).value <= m.start
  {
    var part := raw[m.start..m.end];
    assert |h.content| <= m.end - m.start && part[..|h.content|] == h.content by {
      assert |part| == m.end - m.start;
      ContentAtPart(part, key, h);
    }
    ContentInRaw(raw, m.start, m.end, h.content);
  }

  /**
   * So the first file read from such a part, as written, starts at or before the part: its
   * content takes in the part's `Content-Disposition` line.
   */
  lemma FirstFileTakesHeader(raw: string, b: string, m: Match, key: string, h: Head)
    requires m.start <= m.end <= |raw|
    requires FileHead(raw[m.start..m.end]) == Pair(key, h)
    requires |PartLines(raw[m.start..m.end])| >= 4 && PartLines(raw[m.start..m.end])[3] == ""
    requires WrittenFile(raw, b, h, 0).Some?
    ensures WrittenFile(raw, b, h, 0).value.0.start <= m.start
  {
    FirstFileStartsEarly(raw, m, key, h);
  }

  /** Text that begins a slice of the request is found there or earlier. */
  lemma ContentInRaw(raw: string, a: nat, b: nat, c: string)
    requires a <= b <= |raw| && |c| <= b - a && raw[a..b][..|c|] == c
    ensures Find(raw, c).Some? && Find(raw, c).value <= a
  {
    SliceOfSlice(raw, a, b, |c|);
    PrefixFound(raw, a, c);
  }

  /** With an empty fourth line, the content text is where the part starts. */
  lemma ContentAtPart(part: string, key: string, h: Head)
    requires FileHead(part) == Pair(key, h)
    requires |PartLines(part)| >= 4 && PartLines(part)[3] == ""
    ensures |h.content| <= |part| && part[..|h.content|] == h.content
  {
    HeadContent(part, key, h);
    EmptyLineContent(part, PartLines(part));
  }

  /** A prefix of a slice is a slice. */
  lemma SliceOfSlice(s: string, a: nat, b: nat, n: nat)
    requires a <= b <= |s| && n <= b - a
    ensures s[a..b][..n] == s[a..a + n]
  {
  }

  /** The content text of a file part's head. */
  lemma HeadContent(part: string, key: string, h: Head)
    requires FileHead(part) == Pair(key, h)
    ensures |PartLines(part)| >= 4 && ContentText(part, PartLines(part)) == Some(h.content)
  {
  }

  /** Text found at `start` is found there or earlier. */
  lemma PrefixFound(raw: string, start: nat, c: string)
    requires start + |c| <= |raw| && raw[start..start + |c|] == c
    ensures Find(raw, c).Some? && Find(raw, c).value <= start
  {
    assert OccursAt(raw, c, start);
  }

  /**
   * As written, a file after the first is read from the first blank line after the previous
   * file's boundary; when another part's blank line comes before this part (a text field
   * between two files), the content starts before the part's own `Content-Disposition` line.
   */
  lemma LaterFileStartsEarly(raw: string, m: Match, h: Head, prev: nat, j: nat)
    requires 0 < prev <= j && OccursAt(raw, BlankLine, j) && j + 4 <= m.start
    ensures WrittenStart(raw, h, prev).Some? && WrittenStart(raw, h, prev).value <= m.start
  {
    HeaderEndFirst(raw, prev, j);
  }

  /** So such a later file, as written, starts before its own part. */
  lemma LaterFileTakesHeader(raw: string, b: string, m: Match, h: Head, prev: nat, j: nat)
    requires 0 < prev <= j && OccursAt(raw, BlankLine, j) && j + 4 <= m.start
    requires WrittenFile(raw, b, h, prev).Some?
    ensures WrittenFile(raw, b, h, prev).value.0.start <= m.start
  {
    LaterFileStartsEarly(raw, m, h, prev, j);
  }

  /** Corrected, a file's content starts after its own part's first blank line. */
  lemma CorrectedStart(raw: string, b: string, m: Match, j: nat)
    requires m.start <= m.end <= |raw| && PartEntry(raw, b, m).Pair?
    requires m.start <= j && OccursAt(raw, BlankLine, j)
    ensures m.start + 4 <= PartEntry(raw, b, m).value.start <= j + 4
  {
    HeaderEndFirst(raw, m.start, j);
    assert PartEntry(raw, b, m).value.start == PartStart(raw, m).value;
  }
}

=== FILE: numbers.dfy ===
/**
 * Integer rendering as Rust's `format!("{}", ..)` prints it, and the wrap-around of the
 * `as u64` / `as usize` casts the framework applies to configured numbers (a 64-bit target).
 */
module Numbers {

  const U64Modulus: int := 0x1_0000_0000_0000_0000

  predicate IsDigit(c: char)
  {
    '0' <= c <= '9'
  }

  predicate AllDigits(s: string)
  {
    forall i :: 0 <= i < |s| ==> IsDigit(s[i])
  }

  function DigitValue(c: char): nat
    requires IsDigit(c)
  {
    (c as int) - ('0' as int)
  }

  function DigitChar(d: nat): (c: char)
    requires d < 10
    ensures IsDigit(c) && DigitValue(c) == d
  {
    (('0' as int) + d) as char
  }

  /** Reads a run of decimal digits: the reader a client applies to a printed number. */
  function ParseDigits(s: string): nat
    requires AllDigits(s)
    decreases |s|
  {
    if |s| == 0 then 0 else 10 * ParseDigits(s[..|s| - 1]) + DigitValue(s[|s| - 1])
  }

  /** Decimal text of a natural number: digits only, no leading zero, and it reads back as `n`. */
  function NatToString(n: nat): (r: string)
    ensures |r| >= 1 && AllDigits(r)
    ensures ParseDigits(r) == n
    ensures |r| > 1 ==> r[0] != '0'
    decreases n
  {
    if n < 10 then [DigitChar(n)]
    else
      var prefix := NatToString(n / 10);
      var r := prefix + [DigitChar(n % 10)];
      assert r[..|r| - 1] == prefix;
      r
  }

  /** A three-digit number prints as its hundreds, tens and units digits. */
  lemma PrintThreeDigits(n: nat)
    requires 100 <= n < 1000
    ensures NatToString(n) == [DigitChar(n / 100), DigitChar(n / 10 % 10), DigitChar(n % 10)]
  {
    assert NatToString(n / 10) == NatToString(n / 100) + [DigitChar(n / 10 % 10)];
  }

  /** Digits without a leading zero denote a positive number. */
  lemma {:induction false} ParsePositive(s: string)
    requires |s| >= 1 && AllDigits(s) && s[0] != '0'
    ensures ParseDigits(s) >= 1
    decreases |s|
  {
    if |s| > 1 {
      ParsePositive(s[..|s| - 1]);
    }
  }

  /** Printing is the inverse of reading on canonical digit strings. */
  lemma {:induction false} PrintParse(s: string)
    requires |s| >= 1 && AllDigits(s) && (|s| > 1 ==> s[0] != '0')
    ensures NatToString(ParseDigits(s)) == s
    decreases |s|
  {
    var d := DigitValue(s[|s| - 1]);
    assert DigitChar(d) == s[|s| - 1];
    if |s| > 1 {
      var p := s[..|s| - 1];
      ParsePositive(p);
      PrintParse(p);
      var n := ParseDigits(s);
      assert n / 10 == ParseDigits(p) && n % 10 == d;
      assert s == p + [s[|s| - 1]];
    } else {
      assert s == [s[0]];
    }
  }

  /** Decimal text of a signed integer (an `i32` status code): a minus sign exactly for negatives. */
  function IntToString(i: int): (r: string)
    ensures |r| >= 1
    ensures r[0] == '-' <==> i < 0
    ensures i >= 0 ==> AllDigits(r) && ParseDigits(r) == i
    ensures i < 0 ==> AllDigits(r[1..]) && ParseDigits(r[1..]) == -i
  {
    if i < 0 then "-" + NatToString(-i) else NatToString(i)
  }

  /** `x as u64` (and `as usize` on a 64-bit target) of a 64-bit signed value. */
  function ToU64(x: int): (r: nat)
    ensures r < U64Modulus
    ensures 0 <= x < U64Modulus ==> r == x
    ensures -U64Modulus <= x < 0 ==> r == x + U64Modulus
  {
    x % U64Modulus
  }
}

=== FILE: patterns.dfy ===
/**
 * The regular expressions the request parser uses, written out as explicit scans over the
 * request text. Each pattern is a fixed literal followed by `.*` (the rest of the line),
 * `.*?\r\n` (up to the first line break) or `(?s:.*?)` and a second literal, and Rust's
 * `regex` crate reports the leftmost match and, for `find_iter`, continues after its end.
 * Also the percent-decoding fallback the parser applies to URIs and form fields.
 */
module Patterns {
  import opened Wrappers
  import opened Text

  /** A match: the half-open index range `[start, end)` of the request text. */
  datatype Match = Match(start: nat, end: nat)

  /** The first line feed at or after `i`, or the end of the text: where `.*` stops. */
  function LineEnd(s: string, i: nat): (e: nat)
    requires i <= |s|
    ensures i <= e <= |s|
    ensures forall k :: i <= k < e ==> s[k] != '\n'
    ensures e < |s| ==> s[e] == '\n'
    decreases |s| - i
  {
    if i == |s| || s[i] == '\n' then i else LineEnd(s, i + 1)
  }

  /** `Regex::new("<lit>.*").find(s)`: the leftmost `lit` and the rest of its line. */
  function FindLine(s: string, lit: string): (r: Option<Match>)
    requires |lit| > 0
    ensures r.Some? <==> Contains(s, lit)
    ensures r.Some? ==> r.value.end <= |s| && Find(s, lit) == Some(r.value.start)
    ensures r.Some? ==> r.value.start + |lit| <= r.value.end
    ensures r.Some? ==> forall k :: r.value.start + |lit| <= k < r.value.end ==> s[k] != '\n'
    ensures r.Some? ==> r.value.end == |s| || s[r.value.end] == '\n'
  {
    match Find(s, lit)
    case None => None
    case Some(i) => Some(Match(i, LineEnd(s, i + |lit|)))
  }

  /** The matches start at or after `from`, in order and without overlapping. */
  predicate Ordered(ms: seq<Match>, from: nat)
  {
    (forall k :: 0 <= k < |ms| ==> from <= ms[k].start)
    && (forall k :: 0 < k < |ms| ==> ms[k - 1].end <= ms[k].start)
  }

  /** `m` is an occurrence of `lit` followed by the rest of its line. */
  predicate LineMatch(s: string, lit: string, m: Match)
  {
    OccursAt(s, lit, m.start) && m.end == LineEnd(s, m.start + |lit|)
  }

  /**
   * `Regex::new("<lit>.*").find_iter(s)` from index `from`: each match is an occurrence of
   * `lit` and the rest of its line, and the next search starts where the match ends.
   */
  function FindLines(s: string, lit: string, from: nat): seq<Match>
    requires |lit| > 0 && from <= |s|
    decreases |s| - from
  {
    match FindFrom(s, lit, from)
    case None => []
    case Some(i) =>
      var m := Match(i, LineEnd(s, i + |lit|));
      [m] + FindLines(s, lit, m.end)
  }

  /** The matches start at or after `from`, in order, and each is an occurrence of `lit` with the rest of its line. */
  lemma {:induction false} FindLinesShape(s: string, lit: string, from: nat)
    requires |lit| > 0 && from <= |s|
    ensures Ordered(FindLines(s, lit, from), from)
    ensures forall k :: 0 <= k < |FindLines(s, lit, from)| ==> LineMatch(s, lit, FindLines(s, lit, from)[k])
    decreases |s| - from
  {
    match FindFrom(s, lit, from)
    case None =>
    case Some(i) =>
      var m := Match(i, LineEnd(s, i + |lit|));
      var rest := FindLines(s, lit, m.end);
      FindLinesShape(s, lit, m.end);
      assert FindLines(s, lit, from) == [m] + rest;
      assert LineMatch(s, lit, m);
      assert forall k :: 0 < k < |[m] + rest| ==> ([m] + rest)[k] == rest[k - 1];
  }

  /**
   * Every occurrence of `lit` at or after `from` lies inside one of the matches, the `k`-th:
   * one that starts inside an earlier match's line is swallowed by that match, never skipped.
   */
  lemma {:induction false} FindLinesCover(s: string, lit: string, from: nat, j: nat) returns (k: nat)
    requires |lit| > 0 && from <= |s|
    requires from <= j && OccursAt(s, lit, j)
    ensures k < |FindLines(s, lit, from)|
    ensures FindLines(s, lit, from)[k].start <= j < FindLines(s, lit, from)[k].end
    decreases |s| - from
  {
    var i := FindLinesHead(s, lit, from, j);
    var e := LineEnd(s, i + |lit|);
    var rest := FindLines(s, lit, e);
    var all := [Match(i, e)] + rest;
    assert FindLines(s, lit, from) == all;
    if j >= e {
      assert from < e <= |s|;
      var k' := FindLinesCover(s, lit, e, j);
      k := k' + 1;
      assert all[k] == rest[k'];
    } else {
      k := 0;
      assert all[0] == Match(i, e);
    }
  }

  /** With an occurrence at or after `from`, the matches begin with the leftmost one, at or before it. */
  lemma FindLinesHead(s: string, lit: string, from: nat, j: nat) returns (i: nat)
    requires |lit| > 0 && from <= |s|
    requires from <= j && OccursAt(s, lit, j)
    ensures from <= i <= j && i + |lit| <= |s|
    ensures FindLines(s, lit, from) == [Match(i, LineEnd(s, i + |lit|))] + FindLines(s, lit, LineEnd(s, i + |lit|))
  {
    i := FindFromSome(s, lit, from, j);
    FindLinesUnfold(s, lit, from, i);
  }

  /** When the search from `from` finds `i`, the matches begin with the one at `i`. */
  lemma FindLinesUnfold(s: string, lit: string, from: nat, i: nat)
    requires |lit| > 0 && from <= |s| && i + |lit| <= |s|
    requires FindFrom(s, lit, from) == Some(i)
    ensures FindLines(s, lit, from) == [Match(i, LineEnd(s, i + |lit|))] + FindLines(s, lit, LineEnd(s, i + |lit|))
  {
  }

  /** With an occurrence at or after `from`, the search finds one at or before it. */
  lemma FindFromSome(s: string, lit: string, from: nat, j: nat) returns (i: nat)
    requires from <= j && OccursAt(s, lit, j)
    ensures FindFrom(s, lit, from) == Some(i) && from <= i <= j && i + |lit| <= |s|
  {
    i := FindFrom(s, lit, from).value;
  }

  /**
   * An occurrence of `lit` at `i` whose line has a carriage return just before its line
   * feed: where `<lit>.*?\r\n` can match.
   */
  predicate HeaderAt(s: string, lit: string, i: nat)
  {
    OccursAt(s, lit, i)
    && var e := LineEnd(s, i + |lit|);
    i + |lit| < e < |s| && s[e - 1] == '\r'
  }

  /**
   * `Regex::new("<lit>.*?\r\n").find(s)` from index `from`: the leftmost occurrence of `lit`
   * whose line ends in a carriage return, up to and including that line break. An occurrence
   * whose line feed has no carriage return before it does not match, and the search moves on.
   */
  function FindLineCrLf(s: string, lit: string, from: nat): (r: Option<Match>)
    requires |lit| > 0
    ensures r.Some? ==> from <= r.value.start && HeaderAt(s, lit, r.value.start)
    ensures r.Some? ==> r.value.end == LineEnd(s, r.value.start + |lit|) + 1 <= |s|
    decreases |s| - from
  {
    match FindFrom(s, lit, from)
    case None => None
    case Some(i) =>
      if HeaderAt(s, lit, i) then Some(Match(i, LineEnd(s, i + |lit|) + 1))
      else FindLineCrLf(s, lit, i + 1)
  }

  /** The scan does not skip a matching occurrence: it finds it or an earlier one. */
  lemma {:induction false} FindLineCrLfFirst(s: string, lit: string, from: nat, j: nat)
    requires |lit| > 0 && from <= j && HeaderAt(s, lit, j)
    ensures FindLineCrLf(s, lit, from).Some?
    ensures FindLineCrLf(s, lit, from).value.start <= j
    decreases |s| - from
  {
    var f := FindFrom(s, lit, from);
    assert f.Some?;
    var i := f.value;
    assert from <= i <= j;
    if !HeaderAt(s, lit, i) {
      assert i < j;
      FindLineCrLfFirst(s, lit, i + 1, j);
    }
  }

  /** `m` runs from an occurrence of `lit` to the end of an occurrence of `stop` after it. */
  predicate Spans(s: string, lit: string, stop: string, m: Match)
  {
    m.start + |lit| + |stop| <= m.end <= |s|
    && OccursAt(s, lit, m.start) && OccursAt(s, stop, m.end - |stop|)
  }

  /**
   * `Regex::new("<lit>(?s:.*?)<stop>").find_iter(s)` from index `from`: each match runs from
   * an occurrence of `lit` to the end of the first `stop` after it; the iteration ends at the
   * first `lit` with no `stop` after it, since no later one can have one either.
   */
  function FindUpTo(s: string, lit: string, stop: string, from: nat): (r: seq<Match>)
    requires |lit| > 0
    ensures Ordered(r, from)
    ensures forall k :: 0 <= k < |r| ==> Spans(s, lit, stop, r[k])
    decreases |s| - from
  {
    match FindFrom(s, lit, from)
    case None => []
    case Some(i) =>
      match FindFrom(s, stop, i + |lit|)
      case None => []
      case Some(p) =>
        var m := Match(i, p + |stop|);
        assert Spans(s, lit, stop, m);
        [m] + FindUpTo(s, lit, stop, m.end)
  }

  /** `urlencoding::decode`, which is not part of this model: `None` when decoding fails. */
  type Decoder = string -> Option<string>

  /** `Request::parse_url_encoding`: the decoded text, or the text itself when decoding fails. */
  function UrlDecoding(decode: Decoder, s: string): (r: string)
    ensures decode(s).None? ==> r == s
    ensures decode(s).Some? ==> r == decode(s).value
  {
    match decode(s)
    case Some(t) => t
    case None => s
  }
}

=== FILE: request.dfy ===
/**
 * `Request::new` and its `parse_*` helpers (src/http/request.rs): the received buffer becomes
 * a request line, a cookie map, the Host, User-Agent and Referer fields, an input map and a
 * file map. The buffer is taken to be ASCII, so the text the parser works on has one
 * character per byte and every index into it is also an index into the buffer.
 */
module Requests {
  import opened Wrappers
  import opened Text
  import opened Bytes
  import opened Maps
  import opened Patterns
  import Forms
  import Multipart

  // ---------------------------------------------------------------------------------------
  // Request line
  // ---------------------------------------------------------------------------------------

  /** The text before the first line break (the whole text when there is none). */
  function FirstLine(raw: string): string
  {
    Split(raw, CRLF)[0]
  }

  /** The space-separated tokens of the first line. */
  function Tokens(raw: string): (r: seq<string>)
    ensures |r| >= 1
  {
    Split(FirstLine(raw), " ")
  }

  datatype RequestLine = RequestLine(httpMethod: string, uri: string, protocol: string)

  /**
   * The method, URI and protocol of the first line; `None` when it has fewer than three
   * space-separated tokens. The URI is trimmed and percent-decoded; further tokens are ignored.
   */
  function ParseRequestLine(raw: string, decode: Decoder): (r: Option<RequestLine>)
    ensures r.Some? <==> |Tokens(raw)| >= 3
    ensures r.Some? ==> r.value.httpMethod == Tokens(raw)[0] && r.value.protocol == Tokens(raw)[2]
  {
    var t := Tokens(raw);
    if |t| < 3 then None
    else Some(RequestLine(t[0], UrlDecoding(decode, Trim(t[1])), t[2]))
  }

  /** A text none of whose characters is whitespace. */
  predicate Solid(s: string)
  {
    forall i :: 0 <= i < |s| ==> s[i] !in Whitespace
  }

  lemma TrimSolid(s: string)
    requires Solid(s)
    ensures Trim(s) == s
  {
    TrimStartNone(s, Whitespace);
    TrimEndNone(s, Whitespace);
  }

  /** The first of the pieces of a text holding no separator before a later one. */
  lemma SplitHead(a: string, sep: string, b: string)
    requires |sep| > 0 && NoBorder(sep) && !Contains(a, sep)
    ensures Split(a + sep + b, sep) == [a] + Split(b, sep)
  {
    SplitConcat(a, sep, b);
    SplitWithout(a, sep);
  }

  /** Splitting at a character that is absent before its first occurrence. */
  lemma FirstPiece(a: string, c: char, b: string)
    requires c !in a
    ensures Split(a + [c] + b, [c]) == [a] + Split(b, [c])
  {
    ContainsChar(a, c);
    SingleCharNoBorder(c);
    SplitHead(a, [c], b);
  }

  /** Splitting at a character that does not occur. */
  lemma SolePiece(a: string, c: char)
    requires c !in a
    ensures Split(a, [c]) == [a]
  {
    ContainsChar(a, c);
    SplitWithout(a, [c]);
  }

  /** The protocol token, followed by nothing or by further space-separated text. */
  lemma ProtocolToken(protocol: string, extra: string)
    requires ' ' !in protocol && (extra == "" || extra[0] == ' ')
    ensures Split(protocol + extra, " ")[0] == protocol
  {
    if extra == "" {
      assert protocol + extra == protocol;
      SolePiece(protocol, ' ');
    } else {
      var more := extra[1..];
      assert extra == " " + more;
      assert protocol + extra == protocol + " " + more;
      FirstPiece(protocol, ' ', more);
    }
  }

  /** A request line written out from its three parts is read back as those parts. */
  lemma RequestLineRoundTrip(httpMethod: string, uri: string, protocol: string, extra: string,
                             rest: string, decode: Decoder)
    requires ' ' !in httpMethod && ' ' !in protocol && Solid(uri)
    requires '\r' !in httpMethod && '\r' !in protocol && '\r' !in extra
    requires extra == "" || extra[0] == ' '
    ensures ParseRequestLine(httpMethod + " " + uri + " " + protocol + extra + CRLF + rest, decode)
         == Some(RequestLine(httpMethod, UrlDecoding(decode, uri), protocol))
  {
    var line := httpMethod + " " + uri + " " + protocol + extra;
    assert '\r' !in line by {
      assert forall i :: 0 <= i < |uri| ==> uri[i] != '\r';
    }
    NoCrNoCrLf(line);
    CrLfNoBorder();
    SplitHead(line, CRLF, rest);
    assert FirstLine(line + CRLF + rest) == line;
    assert ' ' !in uri by {
      assert forall i :: 0 <= i < |uri| ==> uri[i] != ' ';
    }
    assert line == httpMethod + " " + (uri + " " + (protocol + extra));
    FirstPiece(httpMethod, ' ', uri + " " + (protocol + extra));
    FirstPiece(uri, ' ', protocol + extra);
    ProtocolToken(protocol, extra);
    TrimSolid(uri);
  }

  // ---------------------------------------------------------------------------------------
  // Header lines
  // ---------------------------------------------------------------------------------------

  const HostHeader: string := "Host:"
  const UserAgentHeader: string := "User-Agent:"
  const RefererHeader: string := "Referer:"
  const CookieHeader: string := "Cookie:"

  /**
   * A header name as the parser searches for it: the colon is its last character and only there,
   * and it holds no space or carriage return.
   */
  predicate HeaderName(name: string)
  {
    |name| > 0 && name[|name| - 1] == ':' && (forall i :: 0 <= i < |name| - 1 ==> name[i] != ':')
    && ' ' !in name && '\r' !in name
  }

  lemma HeaderNames()
    ensures HeaderName(HostHeader) && HeaderName(UserAgentHeader)
    ensures HeaderName(RefererHeader) && HeaderName(CookieHeader)
  {
  }

  /** A matched header line with every occurrence of `name` and every space removed. */
  function StripLine(line: string, name: string): (r: string)
    requires |name| > 0
    ensures ' ' !in r
  {
    RemoveChar(Remove(line, name), ' ');
    Remove(Remove(line, name), " ")
  }

  /** The first line holding `name`, stripped; `None` when no line holds it. */
  function StrippedLine(raw: string, name: string): (r: Option<string>)
    requires |name| > 0
    ensures r.Some? <==> Contains(raw, name)
    ensures r.Some? ==> ' ' !in r.value
  {
    match FindLine(raw, name)
    case None => None
    case Some(m) => Some(StripLine(raw[m.start..m.end], name))
  }

  /** The line holding the first `name`, found where it was written. */
  lemma LineRead(pre: string, name: string, text: string, post: string)
    requires HeaderName(name) && !Contains(pre, name) && '\n' !in text
    ensures var raw := pre + name + text + "\n" + post;
      FindLine(raw, name) == Some(Match(|pre|, |pre| + |name| + |text|))
      && raw[|pre|..|pre| + |name| + |text|] == name + text
  {
    var raw := pre + name + text + "\n" + post;
    LastCharNoBorder(name);
    assert raw == pre + name + (text + "\n" + post);
    FindAfterPlain(pre, name, text + "\n" + post);
    var e := |pre| + |name| + |text|;
    assert raw[e] == '\n';
    assert forall k :: |pre| + |name| <= k < e ==> raw[k] == text[k - |pre| - |name|];
    assert LineEnd(raw, |pre| + |name|) == e;
  }

  /** The stripped line is the line FindLine matched, stripped. */
  lemma StrippedAt(raw: string, name: string, m: Match, line: string)
    requires |name| > 0 && FindLine(raw, name) == Some(m) && raw[m.start..m.end] == line
    ensures StrippedLine(raw, name) == Some(StripLine(line, name))
  {
  }

  /** Stripping a line that starts with its header name leaves the rest without spaces. */
  lemma StripLineRest(name: string, text: string)
    requires HeaderName(name) && !Contains(text, name)
    ensures StripLine(name + text, name) == Filter(text, ' ')
  {
    RemoveLeading(name, text);
    RemoveChar(text, ' ');
  }

  /** A header line written after text without its name is read as the rest of the line, spaces dropped. */
  lemma StripRead(pre: string, name: string, text: string, post: string)
    requires HeaderName(name) && !Contains(pre, name) && '\n' !in text && !Contains(text, name)
    ensures StrippedLine(pre + name + text + "\n" + post, name) == Some(Filter(text, ' '))
  {
    LineRead(pre, name, text, post);
    StrippedAt(pre + name + text + "\n" + post, name, Match(|pre|, |pre| + |name| + |text|), name + text);
    StripLineRest(name, text);
  }

  /** A header line's rest built around text without line feeds or the header name has neither. */
  lemma PlainText(t: string, name: string)
    requires HeaderName(name) && '\n' !in t && !Contains(t, name)
    ensures var text := " " + t + "\r"; '\n' !in text && !Contains(text, name)
  {
    AvoidPadded(t, ' ', '\r', name);
  }

  /** A header line written out with one space and a line break, grouped as the reader sees it. */
  lemma Respaced(pre: string, name: string, t: string, post: string)
    ensures pre + name + " " + t + CRLF + post == pre + name + (" " + t + "\r") + "\n" + post
  {
  }

  /** The stripped line of a header written out with one space and a line break. */
  lemma SpacedRead(pre: string, name: string, t: string, post: string)
    requires HeaderName(name) && !Contains(pre, name) && '\n' !in t && !Contains(t, name)
    ensures StrippedLine(pre + name + " " + t + CRLF + post, name) == Some(Filter(" " + t + "\r", ' '))
  {
    PlainText(t, name);
    Respaced(pre, name, t, post);
    StripRead(pre, name, " " + t + "\r", post);
  }

  // ---------------------------------------------------------------------------------------
  // Host, User-Agent, Referer
  // ---------------------------------------------------------------------------------------

  /**
   * The rest of the first line holding `name`, with every occurrence of `name` and every space
   * removed and trailing line-break characters dropped; "" when no line holds it.
   */
  function HeaderField(raw: string, name: string): (r: string)
    requires |name| > 0
    ensures !Contains(raw, name) ==> r == ""
    ensures ' ' !in r
    ensures |r| > 0 ==> r[|r| - 1] !in CrLfChars
  {
    match StrippedLine(raw, name)
    case None => ""
    case Some(t) => TrimEndCrLf(t)
  }

  /** The header field, percent-decoded; "" when no line holds `name`. */
  function DecodedField(raw: string, name: string, decode: Decoder): (r: string)
    requires |name| > 0
    ensures !Contains(raw, name) ==> r == ""
  {
    if Contains(raw, name) then UrlDecoding(decode, HeaderField(raw, name)) else ""
  }

  /** `parse_host`: the Host field, percent-decoded; "" when absent. */
  function Host(raw: string, decode: Decoder): string
  {
    DecodedField(raw, HostHeader, decode)
  }

  /** `parse_user_agent`: the User-Agent field; "" when absent. */
  function UserAgent(raw: string): string
  {
    HeaderField(raw, UserAgentHeader)
  }

  /** `parse_referer`: the Referer field; "" when absent. */
  function Referer(raw: string): string
  {
    HeaderField(raw, RefererHeader)
  }

  /** A field value of the header `name` as sent: on one line, and not repeating the name. */
  predicate FieldText(v: string, name: string)
  {
    '\n' !in v && '\r' !in v && !Contains(v, name)
  }

  /** The spaces and the final carriage return removed from a header line's rest leave its value without spaces. */
  lemma ValueText(value: string)
    requires '\n' !in value && '\r' !in value
    ensures TrimEndCrLf(Filter(" " + value + "\r", ' ')) == Filter(value, ' ')
  {
    assert " " + value + "\r" == " " + (value + "\r");
    FilterConcat(" ", value + "\r", ' ');
    FilterConcat(value, "\r", ' ');
    assert Filter(" ", ' ') == "" && Filter("\r", ' ') == "\r";
    TrimCarriageReturn(Filter(value, ' '));
  }

  /**
   * A header line written out from its value is read back as that value with its spaces
   * removed, so a value without spaces is read back unchanged.
   */
  lemma HeaderRoundTrip(pre: string, name: string, value: string, post: string)
    requires HeaderName(name) && !Contains(pre, name) && FieldText(value, name)
    ensures HeaderField(pre + name + " " + value + CRLF + post, name) == Filter(value, ' ')
  {
    SpacedRead(pre, name, value, post);
    ValueText(value);
  }

  lemma PresentHeader(pre: string, name: string, value: string, post: string)
    ensures Contains(pre + name + " " + value + CRLF + post, name)
  {
    var raw := pre + name + " " + value + CRLF + post;
    assert raw[|pre|..|pre| + |name|] == name;
    OccursImpliesContains(raw, name, |pre|);
  }

  /** A header field written out is read back, percent-decoded. */
  lemma DecodedRoundTrip(pre: string, name: string, value: string, post: string, decode: Decoder)
    requires HeaderName(name) && !Contains(pre, name) && FieldText(value, name)
    ensures DecodedField(pre + name + " " + value + CRLF + post, name, decode)
         == UrlDecoding(decode, Filter(value, ' '))
  {
    HeaderRoundTrip(pre, name, value, post);
    PresentHeader(pre, name, value, post);
  }

  /** The Host field written out is read back, percent-decoded. */
  lemma HostRoundTrip(pre: string, value: string, post: string, decode: Decoder)
    requires !Contains(pre, HostHeader) && FieldText(value, HostHeader)
    ensures Host(pre + HostHeader + " " + value + CRLF + post, decode) == UrlDecoding(decode, Filter(value, ' '))
  {
    HeaderNames();
    DecodedRoundTrip(pre, HostHeader, value, post, decode);
  }

  // ---------------------------------------------------------------------------------------
  // Cookies
  // ---------------------------------------------------------------------------------------

  /**
   * The text the cookie map is read from: the first line holding `Cookie:`, with every
   * `Cookie:` and every space removed; "" when no line holds it.
   */
  function CookieText(raw: string): (r: string)
    ensures ' ' !in r
  {
    StrippedLine(raw, CookieHeader).GetOr("")
  }

  /**
   * One `;`-separated segment: skipped without `=`; otherwise, with whitespace runs turned
   * into single spaces and the ends trimmed, split around the position of the first `=` in
   * the segment as it was. The source panics when that position is past the trimmed text.
   */
  function CookieEntry(segment: string): Entry<string, string>
  {
    if !Contains(segment, "=") then Skip
    else
      var pos := Find(segment, "=").value;
      var c := Trim(CollapseWhitespace(segment));
      if pos + 1 <= |c| then Pair(c[..pos], c[pos + 1..]) else Crash
  }

  function CookieEntries(text: string): seq<Entry<string, string>>
  {
    var segments := Split(text, ";");
    seq(|segments|, i requires 0 <= i < |segments| => CookieEntry(segments[i]))
  }

  /** `parse_cookies`: `None` when a segment panics. */
  function ParseCookies(raw: string): Option<map<string, string>>
  {
    Collect(map[], CookieEntries(CookieText(raw)))
  }

  /** Without a `Cookie:` line the cookie map is empty. */
  lemma CookiesAbsent(raw: string)
    requires !Contains(raw, CookieHeader)
    ensures ParseCookies(raw) == Some(map[])
  {
    SolePiece("", ';');
    assert CookieEntries(CookieText(raw)) == [Skip];
  }

  /**
   * A cookie as a browser sends it: no whitespace or `;`, no `=` in the name, and neither part
   * spelling out the header name `Cookie:`.
   */
  predicate CookiePair(p: (string, string))
  {
    Solid(p.0) && Solid(p.1) && ';' !in p.0 && ';' !in p.1 && '=' !in p.0
    && !Contains(p.0, CookieHeader) && !Contains(p.1, CookieHeader)
  }

  /** A whitespace-free text followed by a carriage return: the return becomes one space. */
  lemma {:induction false} CollapseReturn(x: string)
    requires Solid(x)
    ensures CollapseWhitespace(x + "\r") == x + " "
    decreases |x|
  {
    if |x| == 0 {
      assert x + "\r" == "\r";
      assert TrimStartIn("\r"[1..], Whitespace) == "";
    } else {
      assert (x + "\r")[0] == x[0];
      assert (x + "\r")[1..] == x[1..] + "\r";
      CollapseReturn(x[1..]);
      assert x == [x[0]] + x[1..];
    }
  }

  /** The first `=` of a segment `k=v` with an `=`-free name is the one after the name. */
  lemma FirstEquals(k: string, rest: string)
    requires '=' !in k
    ensures Find(k + "=" + rest, "=") == Some(|k|)
  {
    ContainsChar(k, '=');
    SingleCharNoBorder('=');
    FindAfterPlain(k, "=", rest);
  }

  /** A cleaned segment `k=v` splits at the position of its first `=`. */
  lemma CleanedPair(k: string, v: string, c: string)
    requires c == k + "=" + v
    ensures c[..|k|] == k && c[|k| + 1..] == v
  {
  }

  /** A whitespace-free segment is its own cleaned text. */
  lemma CleanSolid(x: string)
    requires Solid(x)
    ensures Trim(CollapseWhitespace(x)) == x
  {
    var c := CollapseWhitespace(x);
    assert c == x;
    TrimSolid(c);
  }

  /** A whitespace-free segment ending the line keeps only its text once cleaned. */
  lemma CleanReturn(x: string)
    requires Solid(x) && |x| > 0
    ensures Trim(CollapseWhitespace(x + "\r")) == x
  {
    CollapseReturn(x);
    TrimPadded("", x, " ", Whitespace);
    assert "" + x + " " == x + " ";
  }

  /** A `name=value` segment, possibly ending the line with its carriage return, is read as that pair. */
  lemma CookieSegmentEntry(k: string, v: string, pad: string)
    requires CookiePair((k, v)) && (pad == "" || pad == "\r")
    ensures CookieEntry(k + "=" + v + pad) == Pair(k, v)
  {
    var x := k + "=" + v;
    assert Solid(x);
    assert x + pad == k + "=" + (v + pad);
    FirstEquals(k, v + pad);
    OccursImpliesContains(x + pad, "=", |k|);
    if pad == "" {
      assert x + pad == x;
      CleanSolid(x);
    } else {
      CleanReturn(x);
    }
    CleanedPair(k, v, x);
  }

  /** Dropping the spaces of `"; "`-joined segments without spaces joins them with `";"`. */
  lemma {:induction false} JoinDropSpaces(segs: seq<string>)
    requires forall i :: 0 <= i < |segs| ==> ' ' !in segs[i]
    ensures Filter(Join(segs, "; "), ' ') == Join(segs, ";")
    decreases |segs|
  {
    if |segs| == 1 {
      FilterWithout(segs[0], ' ');
    } else if |segs| > 1 {
      JoinDropSpaces(segs[1..]);
      var rest := Join(segs[1..], "; ");
      assert Join(segs, "; ") == segs[0] + ";" + (" " + rest);
      FilterConcat(segs[0] + ";", " " + rest, ' ');
      FilterConcat(segs[0], ";", ' ');
      FilterWithout(segs[0], ' ');
      FilterConcat(" ", rest, ' ');
      assert Filter(" ", ' ') == "";
      assert Filter(";", ' ') == ";";
    }
  }

  /** Text appended to a join belongs to its last piece. */
  lemma {:induction false} JoinPadLast(segs: seq<string>, x: string, sep: string)
    requires |segs| > 0
    ensures Join(segs, sep) + x == Join(segs[..|segs| - 1] + [segs[|segs| - 1] + x], sep)
  {
    var n := |segs|;
    if n == 1 {
      assert segs[..0] + [segs[0] + x] == [segs[0] + x];
    } else {
      var init := segs[..n - 1];
      assert segs == init + [segs[n - 1]];
      JoinAppend(init, segs[n - 1], sep);
      JoinAppend(init, segs[n - 1] + x, sep);
    }
  }

  /** The segments of a `Cookie:` line as they are split off, the last one keeping the carriage return. */
  function CookiePieces(pairs: seq<(string, string)>): (r: seq<string>)
    requires |pairs| > 0
    ensures |r| == |pairs|
  {
    var segs := Forms.FormParams(pairs);
    segs[..|segs| - 1] + [segs[|segs| - 1] + "\r"]
  }

  /** The segments of a `Cookie:` header hold no spaces or line feeds, and never the header name. */
  lemma SegmentsPlain(pairs: seq<(string, string)>)
    requires forall i :: 0 <= i < |pairs| ==> CookiePair(pairs[i])
    ensures forall i :: 0 <= i < |pairs| ==>
      var s := Forms.FormParams(pairs)[i]; '\n' !in s && ' ' !in s && !Contains(s, CookieHeader)
  {
    forall i | 0 <= i < |pairs|
      ensures var s := Forms.FormParams(pairs)[i]; '\n' !in s && ' ' !in s && !Contains(s, CookieHeader)
    {
      assert Forms.FormParams(pairs)[i] == pairs[i].0 + "=" + pairs[i].1;
      assert '\n' in Whitespace && ' ' in Whitespace;
      AvoidAcross(pairs[i].0, "=", pairs[i].1, CookieHeader);
    }
  }

  /** The cookie text of a `Cookie:` line: its segments joined by `;`, with the carriage return. */
  lemma CookieTextOf(pre: string, pairs: seq<(string, string)>, post: string)
    requires |pairs| > 0 && forall i :: 0 <= i < |pairs| ==> CookiePair(pairs[i])
    requires !Contains(pre, CookieHeader)
    ensures CookieText(pre + CookieHeader + " " + Join(Forms.FormParams(pairs), "; ") + CRLF + post)
         == Join(CookiePieces(pairs), ";")
  {
    var segs := Forms.FormParams(pairs);
    var joined := Join(segs, "; ");
    SegmentsPlain(pairs);
    JoinFree(segs, "; ", '\n');
    JoinAvoids(segs, "; ", CookieHeader);
    HeaderNames();
    SpacedRead(pre, CookieHeader, joined, post);
    assert " " + joined + "\r" == " " + (joined + "\r");
    FilterConcat(" ", joined + "\r", ' ');
    FilterConcat(joined, "\r", ' ');
    JoinDropSpaces(segs);
    assert Filter(" ", ' ') == "" && Filter("\r", ' ') == "\r";
    JoinPadLast(segs, "\r", ";");
  }

  /** The cookie text splits back into the pieces it was joined from. */
  lemma CookieSplit(pairs: seq<(string, string)>)
    requires |pairs| > 0 && forall i :: 0 <= i < |pairs| ==> CookiePair(pairs[i])
    ensures Split(Join(CookiePieces(pairs), ";"), ";") == CookiePieces(pairs)
  {
    var pieces := CookiePieces(pairs);
    var n := |pairs|;
    forall i | 0 <= i < n
      ensures !Contains(pieces[i], ";")
    {
      var p := pairs[i];
      assert CookiePair(p);
      if i < n - 1 {
        assert pieces[i] == p.0 + "=" + p.1;
      } else {
        assert pieces[i] == p.0 + "=" + p.1 + "\r";
      }
      ContainsChar(pieces[i], ';');
    }
    SingleCharNoBorder(';');
    SplitJoin(pieces, ";");
  }

  /** Each piece of the cookie text is read as its pair. */
  lemma CookiePiecesRead(pairs: seq<(string, string)>)
    requires |pairs| > 0 && forall i :: 0 <= i < |pairs| ==> CookiePair(pairs[i])
    ensures forall i :: 0 <= i < |pairs| ==>
      CookieEntry(CookiePieces(pairs)[i]) == Pair(pairs[i].0, pairs[i].1)
  {
    var pieces := CookiePieces(pairs);
    var n := |pairs|;
    forall i | 0 <= i < n
      ensures CookieEntry(pieces[i]) == Pair(pairs[i].0, pairs[i].1)
    {
      if i < n - 1 {
        assert pieces[i] == pairs[i].0 + "=" + pairs[i].1 + "";
        CookieSegmentEntry(pairs[i].0, pairs[i].1, "");
      } else {
        assert pieces[i] == pairs[i].0 + "=" + pairs[i].1 + "\r";
        CookieSegmentEntry(pairs[i].0, pairs[i].1, "\r");
      }
    }
  }

  /** The cookie text of written-out pairs is read as one entry per pair. */
  lemma CookieEntriesOf(pairs: seq<(string, string)>)
    requires |pairs| > 0 && forall i :: 0 <= i < |pairs| ==> CookiePair(pairs[i])
    ensures var es := CookieEntries(Join(CookiePieces(pairs), ";"));
      |es| == |pairs| && forall i :: 0 <= i < |es| ==> es[i] == Pair(pairs[i].0, pairs[i].1)
  {
    CookieSplit(pairs);
    CookiePiecesRead(pairs);
  }

  /** A cookie text joined from written-out pairs is read as those pairs inserted in order. */
  lemma CookiesOfText(pairs: seq<(string, string)>)
    requires |pairs| > 0 && forall i :: 0 <= i < |pairs| ==> CookiePair(pairs[i])
    ensures Collect(map[], CookieEntries(Join(CookiePieces(pairs), ";"))) == Some(Insert(map[], pairs))
  {
    CookieEntriesOf(pairs);
    CollectOfPairs(CookieEntries(Join(CookiePieces(pairs), ";")), pairs);
  }

  /**
   * A `Cookie:` line written out from name/value pairs is read back as those pairs inserted
   * in order, so of two equal names the later one's value is kept.
   */
  lemma CookieRoundTrip(pre: string, pairs: seq<(string, string)>, post: string)
    requires |pairs| > 0 && forall i :: 0 <= i < |pairs| ==> CookiePair(pairs[i])
    requires !Contains(pre, CookieHeader)
    ensures ParseCookies(pre + CookieHeader + " " + Join(Forms.FormParams(pairs), "; ") + CRLF + post)
         == Some(Insert(map[], pairs))
  {
    CookieTextOf(pre, pairs, post);
    CookiesOfText(pairs);
  }

  // ---------------------------------------------------------------------------------------
  // The request
  // ---------------------------------------------------------------------------------------

  /** The parts of a kalgan_router route the dispatcher reads and writes. */
  datatype Route = Route(controller: string, middleware: string, language: string)

  /**
   * `Request`: what the browser sent, the raw text, and the two public fields a middleware
   * may change. A file is the index pair of its content in the received buffer.
   */
  datatype Request = Request(
    line: RequestLine,
    cookies: map<string, string>,
    host: string,
    userAgent: string,
    input: map<string, string>,
    referer: string,
    files: map<string, Multipart.File>,
    raw: string,
    middleware: map<string, string>,
    route: Option<Route>)

  /** What `Request::new` makes of a buffer: no request (`None`), a panic, or a request. */
  datatype Reading = NoRequest | Panicked | Parsed(request: Request)

  /**
   * `Request::new`. The request line is read first, so a buffer whose first line has fewer
   * than three tokens gives no request even where a later parser would panic.
   */
  function Read(buffer: seq<byte>, decode: Decoder): (r: Reading)
    requires IsAscii(buffer)
    ensures r.NoRequest? <==> |Tokens(Latin(buffer))| < 3
    // A request line that parses still panics when a cookie, the form or a file part does not.
    ensures r.Panicked? <==>
      && |Tokens(Latin(buffer))| >= 3
      && (|| ParseCookies(Latin(buffer)).None?
          || Forms.FormInput(Latin(buffer), decode).None?
          || Multipart.Files(Latin(buffer)).None?)
    ensures r.Parsed? ==>
      r.request.raw == Latin(buffer) && r.request.middleware == map[] && r.request.route.None?
    // Every field of a read request is what its own parser gives for the raw text.
    ensures r.Parsed? ==>
      var q := r.request; var raw := Latin(buffer);
      && Some(q.line) == ParseRequestLine(raw, decode) && Some(q.cookies) == ParseCookies(raw)
      && q.host == Host(raw, decode) && q.userAgent == UserAgent(raw) && q.referer == Referer(raw)
      && Some(q.input) == Forms.FormInput(raw, decode) && Some(q.files) == Multipart.Files(raw)
  {
    var raw := Latin(buffer);
    match ParseRequestLine(raw, decode)
    case None => NoRequest
    case Some(line) =>
      match (ParseCookies(raw), Forms.FormInput(raw, decode), Multipart.Files(raw))
      case (Some(cookies), Some(input), Some(files)) =>
        Parsed(Request(line, cookies, Host(raw, decode), UserAgent(raw), input, Referer(raw),
          files, raw, map[], None))
      case _ => Panicked
  }

  /** The content of a stored file: its slice of the received buffer. */
  function FileContent(buffer: seq<byte>, f: Multipart.File): (r: seq<byte>)
    requires f.start <= f.end <= |buffer|
    ensures |r| == f.end - f.start
  {
    buffer[f.start..f.end]
  }

  /** Every file of a read request lies inside the buffer, just after a blank line. */
  lemma ReadFiles(buffer: seq<byte>, decode: Decoder, k: string)
    requires IsAscii(buffer) && Read(buffer, decode).Parsed?
    requires k in Read(buffer, decode).request.files
    ensures var f := Read(buffer, decode).request.files[k];
      4 <= f.start <= f.end <= |buffer| && Latin(buffer[f.start - 4..f.start]) == Multipart.BlankLine
  {
    StoredFile(buffer, Read(buffer, decode).request.files, k);
  }

  /** A file stored from a buffer's text lies inside the buffer, just after a blank line. */
  lemma StoredFile(buffer: seq<byte>, files: map<string, Multipart.File>, k: string)
    requires Multipart.Files(Latin(buffer)) == Some(files) && k in files
    ensures 4 <= files[k].start <= files[k].end <= |buffer|
      && Latin(buffer[files[k].start - 4..files[k].start]) == Multipart.BlankLine
  {
    var raw := Latin(buffer);
    Multipart.FilesWithin(raw, k);
    var f := files[k];
    LatinSlice(buffer, f.start - 4, f.start);
  }

  /** Reading a slice of the buffer is slicing the text read. */
  lemma LatinSlice(buffer: seq<byte>, a: nat, b: nat)
    requires a <= b <= |buffer|
    ensures Latin(buffer[a..b]) == Latin(buffer)[a..b]
  {
  }

  /**
   * A request whose first line has three tokens, which holds a line break, and which has no
   * `Cookie:` line and no multipart `Content-Type` is always read: no cookies, no files, and
   * the url-encoded input.
   */
  lemma ReadPlain(buffer: seq<byte>, decode: Decoder)
    requires IsAscii(buffer) && |Tokens(Latin(buffer))| >= 3
    requires Contains(Latin(buffer), CRLF)
    requires !Contains(Latin(buffer), CookieHeader) && !Contains(Latin(buffer), Forms.MultipartType)
    ensures Read(buffer, decode).Parsed?
    ensures var q := Read(buffer, decode).request;
      q.cookies == map[] && q.files == map[]
      && Some(q.input) == Forms.UrlEncodedInput(Latin(buffer), decode)
  {
    var raw := Latin(buffer);
    CookiesAbsent(raw);
    Forms.UrlEncodedPanics(raw, decode);
    Multipart.NoMultipartNoFiles(raw);
  }

  /**
   * Where the source's own file parser does not panic either, a read request stores files under
   * the names the source stores them under, each with the file name and content type the
   * source gives it.
   */
  lemma ReadFilesAsWritten(buffer: seq<byte>, decode: Decoder)
    requires IsAscii(buffer) && Read(buffer, decode).Parsed?
    requires Multipart.WrittenFiles(Latin(buffer)).Some?
    ensures var fs := Read(buffer, decode).request.files;
      var ws := Multipart.WrittenFiles(Latin(buffer)).value;
      fs.Keys == ws.Keys
      && forall k :: k in fs ==> fs[k].filename == ws[k].filename && fs[k].contentType == ws[k].contentType
  {
    Multipart.FilesAgree(Latin(buffer));
  }
}

=== FILE: resolver.dfy ===
/**
 * The per-connection resolver of src/handler/resolver.rs: the read loop that frames a
 * request, the configuration reload gate, the static-file bypass, cookie renewal, and the
 * bytes written back. The stream is a sequence of the chunks its reads return, the clock is
 * the seconds-of-day of the stored and current times, and the files the reload would read
 * are the configuration and routes passed in as `latest`.
 */
module Resolver {
  import opened Wrappers
  import opened Numbers
  import opened Text
  import opened Bytes
  import opened Settings
  import opened Patterns
  import opened Requests
  import opened Responses
  import opened Handlers
  import Cookies
  import Controller
  import Assets

  // ---------------------------------------------------------------------------------------
  // Read loop
  // ---------------------------------------------------------------------------------------

  /** The size of the read buffer: a read returns at most this many bytes. */
  const ChunkSize: nat := 4096

  /** The chunks joined in order. */
  function Concat(chunks: seq<seq<byte>>): seq<byte>
  {
    if |chunks| == 0 then [] else Concat(chunks[..|chunks| - 1]) + chunks[|chunks| - 1]
  }

  /** The request data: the chunks up to and including the first one shorter than the buffer. */
  function Framed(chunks: seq<seq<byte>>): seq<byte>
    decreases |chunks|
  {
    if |chunks| == 0 then []
    else if |chunks[0]| < ChunkSize then chunks[0]
    else chunks[0] + Framed(chunks[1..])
  }

  /**
   * The read loop of `execute`: reads chunks until one is shorter than the buffer. It
   * consumes the full chunks and the first short one, and its data is their concatenation.
   * When every chunk is full the model stops at the end of the sequence.
   */
  method ReadRequest(chunks: seq<seq<byte>>) returns (data: seq<byte>, used: nat)
    requires forall i :: 0 <= i < |chunks| ==> |chunks[i]| <= ChunkSize
    ensures used <= |chunks| && data == Concat(chunks[..used])
    ensures forall i :: 0 <= i < used - 1 ==> |chunks[i]| == ChunkSize
    ensures used < |chunks| ==> used > 0 && |chunks[used - 1]| < ChunkSize
    ensures used == |chunks| && used > 0 && |chunks[used - 1]| == ChunkSize ==>
      forall i :: 0 <= i < used ==> |chunks[i]| == ChunkSize
    ensures data == Framed(chunks)
  {
    data := [];
    used := 0;
    while used < |chunks|
      invariant used <= |chunks| && data == Concat(chunks[..used])
      invariant forall i :: 0 <= i < used ==> |chunks[i]| == ChunkSize
      invariant data + Framed(chunks[used..]) == Framed(chunks)
      decreases |chunks| - used
    {
      var n := chunks[used];
      assert chunks[..used + 1][..used] == chunks[..used];
      assert chunks[used..][1..] == chunks[used + 1..];
      data := data + n;
      used := used + 1;
      if |n| < ChunkSize {
        return;
      }
    }
  }

  // ---------------------------------------------------------------------------------------
  // Reload gate
  // ---------------------------------------------------------------------------------------

  /**
   * `refresh_config`: always stores the current time, and tells whether the seconds elapsed
   * since the stored time, cast `as u64`, exceed the configured timeout.
   */
  function RefreshConfig(before: int, now: int, cfg: Config): (r: (int, bool))
    ensures r.0 == now
    ensures 0 <= now - before < U64Modulus ==> (r.1 <==> now - before > RefreshConfigTimeout(cfg))
  {
    (now, ToU64(now - before) > RefreshConfigTimeout(cfg))
  }

  /**
   * Times of day wrap at midnight, so a current time earlier than the stored one gives a
   * negative difference, which the cast turns into a huge count: the gate opens.
   */
  lemma MidnightRefresh(before: int, now: int, cfg: Config)
    requires 0 <= now < before < 86400
    requires RefreshConfigTimeout(cfg) < U64Modulus - 86400
    ensures RefreshConfig(before, now, cfg).1
  {
  }

  /** The configuration and routes in force. */
  datatype Env = Env(cfg: Config, lookup: Controller.RouteLookup)

  /** The gate of `get_response`: outside production, the stored time and whether to reload. */
  function Gate(env: Env, time: int, now: int): (r: (int, bool))
    ensures IsProd(env.cfg) ==> r == (time, false)
    ensures !IsProd(env.cfg) ==> r == RefreshConfig(time, now, env.cfg)
  {
    if IsProd(env.cfg) then (time, false) else RefreshConfig(time, now, env.cfg)
  }

  // ---------------------------------------------------------------------------------------
  // Cookie renewal
  // ---------------------------------------------------------------------------------------

  const RenewKey: string := "cookie.renew"

  /** The cookie names listed in `cookie.renew`: without `,` at either end, split at commas. */
  function RenewNames(renew: string): seq<string>
  {
    Split(Strip(renew, ','), ",")
  }

  /**
   * The renewed cookie for one listed name: configured from the name's settings and carrying
   * the request's value, when `cookie.<name>.name` resolves and the request carries that cookie.
   */
  function RenewOne(cfg: Config, cookies: map<string, string>, name: string): (r: Option<Cookies.Cookie>)
    ensures r.Some? <==>
      GetString(cfg, Cookies.SettingKey(name, "name")).Some?
      && GetString(cfg, Cookies.SettingKey(name, "name")).value in cookies
    ensures r.Some? ==> r.value.value == cookies[GetString(cfg, Cookies.SettingKey(name, "name")).value]
  {
    match GetString(cfg, Cookies.SettingKey(name, "name"))
    case None => None
    case Some(cookieName) =>
      if cookieName in cookies then
        Some(Cookies.Set(Cookies.SetFromSettings(Cookies.New(), cfg, name), Cookies.Val(cookies[cookieName])))
      else None
  }

  /** The renewed cookies in list order: one for each name whose cookie resolves and is carried. */
  function Renewed(cfg: Config, cookies: map<string, string>, names: seq<string>): (r: seq<Cookies.Cookie>)
    ensures |r| <= |names|
  {
    if |names| == 0 then []
    else
      match RenewOne(cfg, cookies, names[0])
      case Some(c) => [c] + Renewed(cfg, cookies, names[1..])
      case None => Renewed(cfg, cookies, names[1..])
  }

  /** The loop of `get_response`: `add_cookie` for each listed name whose cookie is renewed. */
  function RenewLoop(r: Response, cfg: Config, cookies: map<string, string>, names: seq<string>): Response
    decreases |names|
  {
    if |names| == 0 then r
    else
      match RenewOne(cfg, cookies, names[0])
      case Some(c) => RenewLoop(AddCookie(r, c), cfg, cookies, names[1..])
      case None => RenewLoop(r, cfg, cookies, names[1..])
  }

  /** The loop appends exactly the renewed cookies, in list order, and changes nothing else. */
  lemma {:induction false} RenewLoopAppends(r: Response, cfg: Config, cookies: map<string, string>, names: seq<string>)
    ensures RenewLoop(r, cfg, cookies, names) == r.(cookies := r.cookies + Renewed(cfg, cookies, names))
    decreases |names|
  {
    if |names| == 0 {
      assert r.cookies + [] == r.cookies;
    } else {
      match RenewOne(cfg, cookies, names[0])
      case Some(c) =>
        RenewLoopAppends(AddCookie(r, c), cfg, cookies, names[1..]);
        assert r.cookies + [c] + Renewed(cfg, cookies, names[1..]) == r.cookies + ([c] + Renewed(cfg, cookies, names[1..]));
      case None =>
        RenewLoopAppends(r, cfg, cookies, names[1..]);
    }
  }

  /** The cookies renewal appends: none without `cookie.renew`, else the renewed cookies of its names. */
  function RenewedCookies(cfg: Config, cookies: map<string, string>): (r: seq<Cookies.Cookie>)
    ensures GetString(cfg, RenewKey).None? ==> r == []
  {
    match GetString(cfg, RenewKey)
    case None => []
    case Some(renew) => Renewed(cfg, cookies, RenewNames(renew))
  }

  /** Cookie renewal: nothing without `cookie.renew`; otherwise the loop over its names. */
  function Renew(r: Response, cfg: Config, cookies: map<string, string>): (x: Response)
    ensures GetString(cfg, RenewKey).None? ==> x == r
    ensures GetString(cfg, RenewKey).Some? ==>
      x == r.(cookies := r.cookies + Renewed(cfg, cookies, RenewNames(GetString(cfg, RenewKey).value)))
    ensures x == r.(cookies := r.cookies + RenewedCookies(cfg, cookies))
  {
    match GetString(cfg, RenewKey)
    case None =>
      assert r.cookies + [] == r.cookies;
      r
    case Some(renew) =>
      RenewLoopAppends(r, cfg, cookies, RenewNames(renew));
      RenewLoop(r, cfg, cookies, RenewNames(renew))
  }

  /** Every renewed cookie carries the request's value of a listed cookie. */
  lemma {:induction false} RenewedValues(cfg: Config, cookies: map<string, string>, names: seq<string>, i: nat)
    requires i < |Renewed(cfg, cookies, names)|
    ensures exists j :: 0 <= j < |names| && RenewOne(cfg, cookies, names[j]) == Some(Renewed(cfg, cookies, names)[i])
  {
    var r := Renewed(cfg, cookies, names);
    var rest := Renewed(cfg, cookies, names[1..]);
    RenewedCons(cfg, cookies, names);
    if RenewOne(cfg, cookies, names[0]).Some? && i == 0 {
      assert RenewOne(cfg, cookies, names[0]) == Some(r[0]);
    } else {
      var k := if RenewOne(cfg, cookies, names[0]).Some? then i - 1 else i;
      assert r[i] == rest[k];
      RenewedValues(cfg, cookies, names[1..], k);
      var j :| 0 <= j < |names[1..]| && RenewOne(cfg, cookies, names[1..][j]) == Some(rest[k]);
      assert names[j + 1] == names[1..][j];
    }
  }

  /** The renewed cookies of a list: those of its first name, then those of the rest. */
  lemma RenewedCons(cfg: Config, cookies: map<string, string>, names: seq<string>)
    requires |names| > 0
    ensures RenewOne(cfg, cookies, names[0]).Some? ==>
      Renewed(cfg, cookies, names) == [RenewOne(cfg, cookies, names[0]).value] + Renewed(cfg, cookies, names[1..])
    ensures RenewOne(cfg, cookies, names[0]).None? ==> Renewed(cfg, cookies, names) == Renewed(cfg, cookies, names[1..])
  {
  }

  // ---------------------------------------------------------------------------------------
  // Answering a request
  // ---------------------------------------------------------------------------------------

  /** What answering a request yields: the bytes written, the stored time, and the environment now in force. */
  datatype Answer = Answer(bytes: seq<byte>, time: int, env: Env)

  /** In either environment, the route the request matches has a language the controller can fill in. */
  predicate Readable(q: Request, env: Env, latest: Env)
  {
    Controller.Routable(q, env.cfg, env.lookup) && Controller.Routable(q, latest.cfg, latest.lookup)
  }

  /**
   * `get_response`: the reload gate, then either the static file (bypassing the controllers
   * and cookie renewal) or the dispatched response with the renewed cookies, written with `create`.
   */
  function Respond(q: Request, env: Env, latest: Env, time: int, now: int, controller: ControllerFactory,
                   factory: Option<MiddlewareFactory>, read: string -> Option<seq<byte>>): (a: Answer)
    requires Readable(q, env, latest)
    // The stored time: kept in production, the current time otherwise.
    ensures a.time == (if IsProd(env.cfg) then time else now)
    // The environment: reloaded only outside production, once the timeout has passed.
    ensures a.env == env || a.env == latest
    ensures IsProd(env.cfg) ==> a.env == env
    ensures !IsProd(env.cfg) && 0 <= now - time < U64Modulus ==>
      (now - time > RefreshConfigTimeout(env.cfg) ==> a.env == latest)
      && (now - time <= RefreshConfigTimeout(env.cfg) ==> a.env == env)
    ensures Assets.IsStaticFile(q.line.uri, a.env.cfg) ==> a.bytes == Assets.ServeStatic(q.line.uri, read)
    ensures !Assets.IsStaticFile(q.line.uri, a.env.cfg) ==>
      var h := Controller.Resolve(q, a.env.cfg, a.env.lookup, controller, factory).response;
      var cookies := Controller.Dispatched(q, a.env.cfg, a.env.lookup, factory).cookies;
      a.bytes == Create(h.(cookies := h.cookies + RenewedCookies(a.env.cfg, cookies)))
  {
    var gate := Gate(env, time, now);
    var e := if gate.1 then latest else env;
    if Assets.IsStaticFile(q.line.uri, e.cfg) then Answer(Assets.ServeStatic(q.line.uri, read), gate.0, e)
    else
      var h := Controller.Resolve(q, e.cfg, e.lookup, controller, factory);
      Answer(Create(Renew(h.response, e.cfg, Controller.Dispatched(q, e.cfg, e.lookup, factory).cookies)), gate.0, e)
  }

  /** In production the stored time is kept and nothing is reloaded. */
  lemma ProdKeepsTime(q: Request, env: Env, latest: Env, time: int, now: int, controller: ControllerFactory,
                      factory: Option<MiddlewareFactory>, read: string -> Option<seq<byte>>)
    requires Readable(q, env, latest) && IsProd(env.cfg)
    ensures var a := Respond(q, env, latest, time, now, controller, factory, read);
      a.time == time && a.env == env
  {
  }

  /** A static file's answer makes no controller or middleware call: it is the same for any handlers. */
  lemma StaticIgnoresHandlers(q: Request, env: Env, latest: Env, time: int, now: int,
                              controller: ControllerFactory, factory: Option<MiddlewareFactory>,
                              otherController: ControllerFactory, otherFactory: Option<MiddlewareFactory>,
                              read: string -> Option<seq<byte>>)
    requires Readable(q, env, latest)
    requires Assets.IsStaticFile(q.line.uri, Respond(q, env, latest, time, now, controller, factory, read).env.cfg)
    ensures Respond(q, env, latest, time, now, controller, factory, read)
         == Respond(q, env, latest, time, now, otherController, otherFactory, read)
  {
  }

  /**
   * Any other request's answer, when the dispatched response is well-formed and the renewed
   * cookies hold no carriage return, reads back as the dispatched head lines with one line per
   * renewed cookie after its own cookies, then the dispatched body.
   */
  lemma RespondReadBack(q: Request, env: Env, latest: Env, time: int, now: int, controller: ControllerFactory,
                        factory: Option<MiddlewareFactory>, read: string -> Option<seq<byte>>)
    requires Readable(q, env, latest)
    requires var e := Respond(q, env, latest, time, now, controller, factory, read).env;
      !Assets.IsStaticFile(q.line.uri, e.cfg)
      && WellFormed(Controller.Resolve(q, e.cfg, e.lookup, controller, factory).response)
      && var rc := RenewedCookies(e.cfg, Controller.Dispatched(q, e.cfg, e.lookup, factory).cookies);
      forall i :: 0 <= i < |rc| ==> Cookies.NoCr(rc[i])
    ensures var e := Respond(q, env, latest, time, now, controller, factory, read).env;
      var h := Controller.Resolve(q, e.cfg, e.lookup, controller, factory).response;
      var rc := RenewedCookies(e.cfg, Controller.Dispatched(q, e.cfg, e.lookup, factory).cookies);
      var x := h.(cookies := h.cookies + rc);
      && Respond(q, env, latest, time, now, controller, factory, read).bytes == Create(x)
      && ReadResponse(CreateText(x)) ==
           Some(([h.status] + FieldLines(h.location) + Lines(CookieTexts(h.cookies)) + Lines(CookieTexts(rc))
                 + FieldLines(h.contentType), h.content))
  {
    var e := Respond(q, env, latest, time, now, controller, factory, read).env;
    var h := Controller.Resolve(q, e.cfg, e.lookup, controller, factory).response;
    AddCookiesReadBack(h, RenewedCookies(e.cfg, Controller.Dispatched(q, e.cfg, e.lookup, factory).cookies));
  }

  /**
   * `execute`: reads the request, parses it, and writes the answer; a buffer that is no
   * request, or whose parsing panics, gets nothing written and leaves the stored time alone.
   */
  method Execute(chunks: seq<seq<byte>>, env: Env, latest: Env, time: int, now: int, decode: Decoder,
                 controller: ControllerFactory, factory: Option<MiddlewareFactory>,
                 read: string -> Option<seq<byte>>)
    returns (written: seq<byte>, stored: int)
    requires forall i :: 0 <= i < |chunks| ==> |chunks[i]| <= ChunkSize
    requires IsAscii(Framed(chunks))
    requires Read(Framed(chunks), decode).Parsed? ==> Readable(Read(Framed(chunks), decode).request, env, latest)
    ensures !Read(Framed(chunks), decode).Parsed? ==> written == [] && stored == time
    ensures |Tokens(Latin(Framed(chunks)))| < 3 ==> written == []
    ensures IsProd(env.cfg) ==> stored == time
    ensures Read(Framed(chunks), decode).Parsed? && !IsProd(env.cfg) ==> stored == now
    ensures Read(Framed(chunks), decode).Parsed? ==>
      var a := Respond(Read(Framed(chunks), decode).request, env, latest, time, now, controller, factory, read);
      written == a.bytes && stored == a.time
  {
    var data, used := ReadRequest(chunks);
    match Read(data, decode)
    case Parsed(q) =>
      var a := Respond(q, env, latest, time, now, controller, factory, read);
      written, stored := a.bytes, a.time;
    case _ =>
      written, stored := [], time;
  }

  // ---------------------------------------------------------------------------------------
  // The single write call
  // ---------------------------------------------------------------------------------------

  /**
   * One `write` call on the stream: the stream takes a prefix of the buffer whose length it
   * chooses (`accepted`) and reports that count, which `execute` discards.
   */
  function WriteOnce(bytes: seq<byte>, accepted: nat): (r: seq<byte>)
    ensures |r| <= |bytes| && r == bytes[..|r|]
  {
    if accepted < |bytes| then bytes[..accepted] else bytes
  }

  /** A stream that takes fewer bytes than the answer drops its tail; one that takes them all sends it whole. */
  lemma WriteOnceShort(bytes: seq<byte>, accepted: nat)
    ensures accepted < |bytes| ==>
      WriteOnce(bytes, accepted) != bytes && WriteOnce(bytes, accepted) + bytes[accepted..] == bytes
    ensures accepted >= |bytes| ==> WriteOnce(bytes, accepted) == bytes
  {
    if accepted < |bytes| {
      assert |WriteOnce(bytes, accepted)| == accepted;
    }
  }

  /**
   * `execute` as written: the answer goes out through a single `write` whose count is not
   * checked, so a stream taking fewer bytes leaves the rest of the answer unsent.
   */
  method ExecuteAsWritten(chunks: seq<seq<byte>>, env: Env, latest: Env, time: int, now: int, decode: Decoder,
                          controller: ControllerFactory, factory: Option<MiddlewareFactory>,
                          read: string -> Option<seq<byte>>, accepted: nat)
    returns (written: seq<byte>, stored: int)
    requires forall i :: 0 <= i < |chunks| ==> |chunks[i]| <= ChunkSize
    requires IsAscii(Framed(chunks))
    requires Read(Framed(chunks), decode).Parsed? ==> Readable(Read(Framed(chunks), decode).request, env, latest)
    ensures !Read(Framed(chunks), decode).Parsed? ==> written == [] && stored == time
    ensures Read(Framed(chunks), decode).Parsed? ==>
      var a := Respond(Read(Framed(chunks), decode).request, env, latest, time, now, controller, factory, read);
      && stored == a.time
      && |written| <= |a.bytes| && written == a.bytes[..|written|]
      && (accepted < |a.bytes| ==> |written| == accepted && written != a.bytes)
  {
    var all;
    all, stored := Execute(chunks, env, latest, time, now, decode, controller, factory, read);
    written := WriteOnce(all, accepted);
    WriteOnceShort(all, accepted);
  }
}

=== FILE: response.dfy ===
/**
 * The response of src/http/response.rs: a builder that stores each header already formatted,
 * the status-line table, and `create`, which concatenates the stored pieces.
 *
 * The partner of `create` is a reader that splits the text at line breaks, takes the lines up
 * to the first empty one as the head and the rest as the body; reading a well-formed response
 * recovers its header lines and its content.
 */
module Responses {
  import opened Wrappers
  import opened Text
  import opened Numbers
  import opened Bytes
  import opened Settings
  import Cookies

  datatype Response = Response(
    status: string,
    contentType: string,
    location: string,
    cookies: seq<Cookies.Cookie>,
    content: string,
    contentLength: string)

  /** `Response::new`: every field empty, no cookies. */
  function New(): (r: Response)
    ensures r.status == "" && r.contentType == "" && r.location == ""
    ensures r.cookies == [] && r.content == "" && r.contentLength == ""
  {
    Response("", "", "", [], "", "")
  }

  // ---------------------------------------------------------------------------------------
  // Status line
  // ---------------------------------------------------------------------------------------

  predicate KnownStatus(code: int)
  {
    code in {200, 301, 302, 403, 404, 500, 503}
  }

  /** The reason phrase of each status code `set_status` knows; "" for every other code. */
  function Reason(code: int): (r: string)
    ensures r != "" <==> KnownStatus(code)
    ensures '\r' !in r
    ensures code == 200 ==> r == "OK"
    ensures code == 301 ==> r == "Moved Permanently"
    ensures code == 302 ==> r == "Found"
    ensures code == 403 ==> r == "Forbidden"
    ensures code == 404 ==> r == "Not Found"
    ensures code == 500 ==> r == "Internal Server Error"
    ensures code == 503 ==> r == "Service Unavailable"
  {
    match code
    case 200 => "OK"
    case 301 => "Moved Permanently"
    case 302 => "Found"
    case 403 => "Forbidden"
    case 404 => "Not Found"
    case 500 => "Internal Server Error"
    case 503 => "Service Unavailable"
    case _ => ""
  }

  const HttpVersion: string := "HTTP/1.1 "

  /** The stored status: `HTTP/1.1 <code> <reason>` for a known code, "" otherwise. */
  function StatusLine(code: int): (r: string)
    ensures r != "" <==> KnownStatus(code)
    ensures KnownStatus(code) ==> r == HttpVersion + NatToString(code) + " " + Reason(code)
  {
    if KnownStatus(code) then HttpVersion + NatToString(code) + " " + Reason(code) else ""
  }

  lemma DigitsPlain(n: nat)
    ensures '\r' !in NatToString(n) && ' ' !in NatToString(n)
  {
    var d := NatToString(n);
    forall i | 0 <= i < |d| ensures d[i] != '\r' && d[i] != ' ' {
      assert IsDigit(d[i]);
    }
  }

  /** The example of `set_status`'s documentation: code 200 is stored as `HTTP/1.1 200 OK`. */
  lemma SetStatusOk()
    ensures SetStatus(New(), 200).status == "HTTP/1.1 200 OK"
  {
    PrintedCode(200, "200");
    assert StatusLine(200) == HttpVersion + "200" + " " + "OK";
  }

  /** Code 404 is stored as `HTTP/1.1 404 Not Found`. */
  lemma SetStatusNotFound(r: Response)
    ensures SetStatus(r, 404).status == "HTTP/1.1 404 Not Found"
  {
    PrintedCode(404, "404");
    assert StatusLine(404) == HttpVersion + "404" + " " + "Not Found";
  }

  /** A three-digit code prints as the digits given. */
  lemma PrintedCode(code: nat, digits: string)
    requires 100 <= code < 1000 && |digits| == 3
    requires digits[0] == DigitChar(code / 100) && digits[1] == DigitChar(code / 10 % 10)
    requires digits[2] == DigitChar(code % 10)
    ensures NatToString(code) == digits
  {
    PrintThreeDigits(code);
  }

  /** A status line is one line. */
  lemma StatusLinePlain(code: int)
    ensures '\r' !in StatusLine(code)
  {
    if KnownStatus(code) {
      DigitsPlain(code);
    }
  }

  /** Reads a status line: the code between `HTTP/1.1 ` and the next space, and the reason after it. */
  function ReadStatusLine(line: string): Option<(nat, string)>
  {
    if !StartsWith(line, HttpVersion) then None
    else
      var rest := line[|HttpVersion|..];
      match Find(rest, " ")
      case None => None
      case Some(i) =>
        if i > 0 && AllDigits(rest[..i]) then Some((ParseDigits(rest[..i]), rest[i + 1..])) else None
  }

  lemma ReadStatusText(n: nat, reason: string)
    ensures ReadStatusLine(HttpVersion + NatToString(n) + " " + reason) == Some((n, reason))
  {
    var d := NatToString(n);
    var line := HttpVersion + NatToString(n) + " " + reason;
    assert line == HttpVersion + (d + " " + reason);
    assert line[..|HttpVersion|] == HttpVersion;
    var rest := line[|HttpVersion|..];
    assert rest == d + " " + reason;
    DigitsPlain(n);
    ContainsChar(d, ' ');
    SingleCharNoBorder(' ');
    FindAfterPlain(d, " ", reason);
    assert rest[..|d|] == d && rest[|d| + 1..] == reason;
  }

  /** The status line of every known code reads back as that code and its reason. */
  lemma StatusLineRoundTrip(code: int)
    requires KnownStatus(code)
    ensures ReadStatusLine(StatusLine(code)) == Some((code, Reason(code)))
  {
    ReadStatusText(code, Reason(code));
  }

  // ---------------------------------------------------------------------------------------
  // Builders
  // ---------------------------------------------------------------------------------------

  /** `set_status`: the status line of the code; the other fields are kept. */
  function SetStatus(r: Response, code: int): (x: Response)
    ensures x.status == StatusLine(code)
    ensures x.status != "" <==> KnownStatus(code)
    ensures x.(status := r.status) == r
  {
    r.(status := StatusLine(code))
  }

  const ContentTypeName: string := "Content-Type: "
  const LocationName: string := "Location: "
  const ContentLengthName: string := "Content-Length: "

  /** `set_content_type`: a header line ending in `;`. */
  function SetContentType(r: Response, t: string): (x: Response)
    ensures x.contentType == CRLF + ContentTypeName + t + ";"
    ensures x.(contentType := r.contentType) == r
  {
    r.(contentType := CRLF + ContentTypeName + t + ";")
  }

  /** `set_location`. */
  function SetLocation(r: Response, url: string): (x: Response)
    ensures x.location == CRLF + LocationName + url
    ensures x.(location := r.location) == r
  {
    r.(location := CRLF + LocationName + url)
  }

  /** `add_cookie`: appended after the earlier cookies, which are kept. */
  function AddCookie(r: Response, c: Cookies.Cookie): (x: Response)
    ensures |x.cookies| == |r.cookies| + 1 && x.cookies[..|r.cookies|] == r.cookies
    ensures x.cookies[|r.cookies|] == c
    ensures x.(cookies := r.cookies) == r
  {
    r.(cookies := r.cookies + [c])
  }

  function SessionKey(sessionName: string): string
  {
    "session." + sessionName + ".cookie"
  }

  /**
   * `add_session`: when `session.<name>.cookie` names a cookie, one cookie configured from
   * that name and carrying the session key is appended; otherwise nothing changes.
   */
  function AddSession(r: Response, cfg: Config, sessionName: string, sessionKey: string): (x: Response)
    ensures var k := SessionKey(sessionName);
      !(k in cfg && cfg[k].Str?) ==> x == r
    ensures var k := SessionKey(sessionName);
      k in cfg && cfg[k].Str? ==>
        && |x.cookies| == |r.cookies| + 1 && x.cookies[..|r.cookies|] == r.cookies
        && x.cookies[|r.cookies|] ==
             Cookies.SetFromSettings(Cookies.New(), cfg, cfg[k].s).(value := sessionKey)
        && x.(cookies := r.cookies) == r
  {
    match GetString(cfg, SessionKey(sessionName))
    case Some(cookieName) =>
      AddCookie(r, Cookies.Set(Cookies.SetFromSettings(Cookies.New(), cfg, cookieName), Cookies.Val(sessionKey)))
    case None => r
  }

  /** `set_content`. */
  function SetContent(r: Response, content: string): (x: Response)
    ensures x.content == content
    ensures x.(content := r.content) == r
  {
    r.(content := content)
  }

  /** `set_content_length`: stored, but never part of what `create` writes. */
  function SetContentLength(r: Response, n: nat): (x: Response)
    ensures x.contentLength == CRLF + ContentLengthName + NatToString(n)
    ensures x.(contentLength := r.contentLength) == r
    ensures Create(x) == Create(r)
  {
    r.(contentLength := CRLF + ContentLengthName + NatToString(n))
  }

  // ---------------------------------------------------------------------------------------
  // Writing
  // ---------------------------------------------------------------------------------------

  /** The text of each cookie, in insertion order. */
  function CookieTexts(cs: seq<Cookies.Cookie>): (ts: seq<string>)
    ensures |ts| == |cs|
    ensures forall i :: 0 <= i < |cs| ==> ts[i] == Cookies.Create(cs[i])
  {
    seq(|cs|, i requires 0 <= i < |cs| => Cookies.Create(cs[i]))
  }

  /** `create_cookies`: the cookies' texts joined with nothing between them. */
  function CreateCookies(cs: seq<Cookies.Cookie>): string
  {
    Join(CookieTexts(cs), "")
  }

  /** Adding a cookie appends exactly its `Set-Cookie` text after the earlier ones. */
  lemma AddCookieWrites(r: Response, c: Cookies.Cookie)
    ensures CreateCookies(AddCookie(r, c).cookies) == CreateCookies(r.cookies) + Cookies.Create(c)
  {
    var ts := CookieTexts(r.cookies);
    assert CookieTexts(r.cookies + [c]) == ts + [Cookies.Create(c)];
    if |ts| == 0 {
      assert ts + [Cookies.Create(c)] == [Cookies.Create(c)];
    } else {
      JoinAppend(ts, Cookies.Create(c), "");
    }
  }

  /** `create_cookies` as the source writes it, each line from `Cookie::create` as written. */
  function CreateCookiesAsWritten(cs: seq<Cookies.Cookie>): string
  {
    Join(seq(|cs|, i requires 0 <= i < |cs| => Cookies.CreateAsWritten(cs[i])), "")
  }

  /** Where no cookie carries an expiry, the cookie text written is the source's own. */
  lemma NoExpiryAsWritten(cs: seq<Cookies.Cookie>)
    requires forall i :: 0 <= i < |cs| ==> cs[i].expires == ""
    ensures CreateCookies(cs) == CreateCookiesAsWritten(cs)
  {
    var ws := seq(|cs|, i requires 0 <= i < |cs| => Cookies.CreateAsWritten(cs[i]));
    forall i | 0 <= i < |cs|
      ensures CookieTexts(cs)[i] == ws[i]
    {
      Cookies.CreateWithoutExpiry(cs[i]);
    }
    assert CookieTexts(cs) == ws;
  }

  function Head(r: Response): string
  {
    r.status + r.location + CreateCookies(r.cookies) + r.contentType
  }

  /** The text `create` writes: the head, an empty line, then the content. */
  function CreateText(r: Response): string
  {
    Head(r) + CRLF + CRLF + r.content
  }

  /** `create`: the UTF-8 bytes of the text. */
  function Create(r: Response): (bs: seq<byte>)
    ensures IsAsciiText(CreateText(r)) ==> |bs| == |CreateText(r)| && Latin(bs) == CreateText(r)
  {
    Utf8(CreateText(r))
  }

  // ---------------------------------------------------------------------------------------
  // Reading a response back
  // ---------------------------------------------------------------------------------------

  /** Index of the first empty line. */
  function FirstEmpty(lines: seq<string>, from: nat): (r: Option<nat>)
    requires from <= |lines|
    ensures r.Some? ==> from <= r.value < |lines| && lines[r.value] == ""
    ensures r.Some? ==> forall j :: from <= j < r.value ==> lines[j] != ""
    ensures r.None? ==> forall j :: from <= j < |lines| ==> lines[j] != ""
    decreases |lines| - from
  {
    if from == |lines| then None
    else if lines[from] == "" then Some(from)
    else FirstEmpty(lines, from + 1)
  }

  /** The head lines before the first empty line, and the body after it. */
  function ReadResponse(text: string): Option<(seq<string>, string)>
  {
    var lines := Split(text, CRLF);
    match FirstEmpty(lines, 0)
    case None => None
    case Some(k) => Some((lines[..k], Join(lines[k + 1..], CRLF)))
  }

  /** The line a stored header contributes: none when unset, the text after its line break otherwise. */
  function FieldLines(f: string): seq<string>
  {
    if |f| < 2 then [] else [f[2..]]
  }

  /** The lines of stored headers, without their line breaks. */
  function Lines(ts: seq<string>): (ls: seq<string>)
    ensures |ls| == |ts|
  {
    seq(|ts|, i requires 0 <= i < |ts| => if |ts[i]| < 2 then "" else ts[i][2..])
  }

  /** The head a client reads: status line, location, one line per cookie, content type. */
  function HeadLines(r: Response): seq<string>
  {
    [r.status] + FieldLines(r.location) + Lines(CookieTexts(r.cookies)) + FieldLines(r.contentType)
  }

  predicate Unset(f: string)
  {
    f == ""
  }

  /** What the builders produce: a status line, and each stored header unset or one framed line. */
  predicate WellFormed(r: Response)
  {
    && r.status != "" && '\r' !in r.status
    && (Unset(r.location) || Framed(r.location))
    && (Unset(r.contentType) || Framed(r.contentType))
    && forall i :: 0 <= i < |r.cookies| ==> Framed(CookieTexts(r.cookies)[i])
  }

  lemma {:induction false} AppendField(ls: seq<string>, f: string)
    requires |ls| > 0
    requires Unset(f) || Framed(f)
    ensures Join(ls, CRLF) + f == Join(ls + FieldLines(f), CRLF)
  {
    if f == "" {
      assert ls + FieldLines(f) == ls;
    } else {
      assert f == CRLF + f[2..];
      JoinAppend(ls, f[2..], CRLF);
    }
  }

  lemma JoinNothingCons(ts: seq<string>)
    requires |ts| > 0
    ensures Join(ts, "") == ts[0] + Join(ts[1..], "")
  {
  }

  lemma {:induction false} AppendTexts(ls: seq<string>, ts: seq<string>)
    requires |ls| > 0
    requires forall i :: 0 <= i < |ts| ==> Framed(ts[i])
    ensures Join(ls, CRLF) + Join(ts, "") == Join(ls + Lines(ts), CRLF)
    decreases |ts|
  {
    if |ts| == 0 {
      assert ls + Lines(ts) == ls;
    } else {
      var f := ts[0];
      JoinNothingCons(ts);
      AppendField(ls, f);
      AppendTexts(ls + FieldLines(f), ts[1..]);
      assert Lines(ts) == FieldLines(f) + Lines(ts[1..]);
      assert ls + FieldLines(f) + Lines(ts[1..]) == ls + Lines(ts);
    }
  }

  /** The head of a well-formed response is its head lines joined by line breaks. */
  lemma HeadJoined(r: Response)
    requires WellFormed(r)
    ensures Head(r) == Join(HeadLines(r), CRLF)
  {
    var l0 := [r.status];
    var l1 := l0 + FieldLines(r.location);
    var l2 := l1 + Lines(CookieTexts(r.cookies));
    AppendField(l0, r.location);
    AppendTexts(l1, CookieTexts(r.cookies));
    AppendField(l2, r.contentType);
  }

  /** Every head line of a well-formed response is non-empty and holds no carriage return. */
  lemma HeadLinesPlain(r: Response)
    requires WellFormed(r)
    ensures forall i :: 0 <= i < |HeadLines(r)| ==> HeadLines(r)[i] != "" && '\r' !in HeadLines(r)[i]
  {
    var ts := CookieTexts(r.cookies);
    assert forall i :: 0 <= i < |ts| ==> Lines(ts)[i] == ts[i][2..];
  }

  lemma SplitLines(h: seq<string>, content: string)
    requires |h| > 0
    requires forall i :: 0 <= i < |h| ==> h[i] != "" && '\r' !in h[i]
    ensures Split(Join(h, CRLF) + CRLF + CRLF + content, CRLF) == h + [""] + Split(content, CRLF)
  {
    CrLfNoBorder();
    JoinAppend(h, "", CRLF);
    var a := Join(h + [""], CRLF);
    assert Join(h, CRLF) + CRLF + CRLF + content == a + CRLF + content;
    SplitConcat(a, CRLF, content);
    forall k | 0 <= k < |h + [""]|
      ensures !Contains((h + [""])[k], CRLF)
    {
      if k < |h| {
        NoCrNoCrLf(h[k]);
      } else {
        NoCrNoCrLf("");
      }
    }
    SplitJoin(h + [""], CRLF);
  }

  /** The first empty line after a head of non-empty lines is the one right after the head. */
  lemma FirstEmptyAfterHead(h: seq<string>, rest: seq<string>)
    requires forall i :: 0 <= i < |h| ==> h[i] != ""
    ensures FirstEmpty(h + [""] + rest, 0) == Some(|h|)
  {
    var lines := h + [""] + rest;
    var r := FirstEmpty(lines, 0);
    assert lines[|h|] == "";
    assert forall j :: 0 <= j < |h| ==> lines[j] == h[j];
    assert r.Some? && r.value >= |h|;
  }

  /** Reads the text at a known split into lines. */
  lemma ReadSplit(text: string, h: seq<string>, rest: seq<string>)
    requires Split(text, CRLF) == h + [""] + rest
    requires forall i :: 0 <= i < |h| ==> h[i] != ""
    ensures ReadResponse(text) == Some((h, Join(rest, CRLF)))
  {
    FirstEmptyAfterHead(h, rest);
    var lines := h + [""] + rest;
    assert lines[..|h|] == h;
    assert lines[|h| + 1..] == rest;
  }

  /** Reading a head of plain lines, an empty line and a body gives back the head and the body. */
  lemma ReadJoined(h: seq<string>, content: string)
    requires |h| > 0
    requires forall i :: 0 <= i < |h| ==> h[i] != "" && '\r' !in h[i]
    ensures ReadResponse(Join(h, CRLF) + CRLF + CRLF + content) == Some((h, content))
  {
    SplitLines(h, content);
    ReadSplit(Join(h, CRLF) + CRLF + CRLF + content, h, Split(content, CRLF));
  }

  /**
   * Reading what `create` writes for a well-formed response yields its head lines and its
   * content: the stored content length is not among them.
   */
  lemma ReadCreate(r: Response)
    requires WellFormed(r)
    ensures ReadResponse(CreateText(r)) == Some((HeadLines(r), r.content))
  {
    HeadJoined(r);
    HeadLinesPlain(r);
    ReadJoined(HeadLines(r), r.content);
  }

  lemma SetContentTypeFramed(r: Response, t: string)
    requires '\r' !in t
    ensures Framed(SetContentType(r, t).contentType)
    ensures FieldLines(SetContentType(r, t).contentType) == [ContentTypeName + t + ";"]
  {
    var ct := SetContentType(r, t).contentType;
    assert ct[..2] == CRLF && ct[2..] == ContentTypeName + t + ";";
  }

  lemma SetLocationFramed(r: Response, url: string)
    requires '\r' !in url
    ensures Framed(SetLocation(r, url).location)
    ensures FieldLines(SetLocation(r, url).location) == [LocationName + url]
  {
    var loc := SetLocation(r, url).location;
    assert loc[..2] == CRLF && loc[2..] == LocationName + url;
  }

  /** The builders keep a response well formed when their arguments hold no carriage return. */
  lemma BuildersWellFormed(r: Response, code: int, t: string, url: string, c: Cookies.Cookie)
    requires WellFormed(r)
    requires KnownStatus(code) && '\r' !in t && '\r' !in url && Cookies.NoCr(c)
    ensures WellFormed(SetStatus(r, code))
    ensures WellFormed(SetContentType(r, t))
    ensures WellFormed(SetLocation(r, url))
    ensures WellFormed(AddCookie(r, c))
  {
    StatusLinePlain(code);
    SetContentTypeFramed(r, t);
    SetLocationFramed(r, url);
    Cookies.CreateFramed(c);
    var cs := AddCookie(r, c).cookies;
    forall i | 0 <= i < |cs| ensures Framed(CookieTexts(cs)[i]) {
      if i < |r.cookies| {
        assert CookieTexts(cs)[i] == CookieTexts(r.cookies)[i];
      }
    }
  }

  /**
   * Cookies without carriage returns appended to a well-formed response are read back as one
   * head line each, after the response's own cookie lines and before its content type, and
   * the body is unchanged.
   */
  lemma AddCookiesReadBack(r: Response, cs: seq<Cookies.Cookie>)
    requires WellFormed(r) && forall i :: 0 <= i < |cs| ==> Cookies.NoCr(cs[i])
    ensures ReadResponse(CreateText(r.(cookies := r.cookies + cs))) ==
      Some(([r.status] + FieldLines(r.location) + Lines(CookieTexts(r.cookies)) + Lines(CookieTexts(cs))
            + FieldLines(r.contentType), r.content))
  {
    var x := r.(cookies := r.cookies + cs);
    AppendWellFormed(r, cs);
    ReadCreate(x);
    HeadLinesAppend(r, cs);
  }

  /** The head lines after appending cookies: their lines come between the old cookies' and the content type. */
  lemma HeadLinesAppend(r: Response, cs: seq<Cookies.Cookie>)
    ensures HeadLines(r.(cookies := r.cookies + cs)) ==
      [r.status] + FieldLines(r.location) + Lines(CookieTexts(r.cookies)) + Lines(CookieTexts(cs))
      + FieldLines(r.contentType)
  {
    CookieTextsAppend(r.cookies, cs);
    LinesAppend(CookieTexts(r.cookies), CookieTexts(cs));
  }

  lemma CookieTextsAppend(a: seq<Cookies.Cookie>, b: seq<Cookies.Cookie>)
    ensures CookieTexts(a + b) == CookieTexts(a) + CookieTexts(b)
  {
  }

  lemma LinesAppend(a: seq<string>, b: seq<string>)
    ensures Lines(a + b) == Lines(a) + Lines(b)
  {
  }

  /** Appending cookies without carriage returns keeps a response well-formed. */
  lemma AppendWellFormed(r: Response, cs: seq<Cookies.Cookie>)
    requires WellFormed(r) && forall i :: 0 <= i < |cs| ==> Cookies.NoCr(cs[i])
    ensures WellFormed(r.(cookies := r.cookies + cs))
  {
    var ts := CookieTexts(r.cookies + cs);
    CookieTextsAppend(r.cookies, cs);
    forall i | 0 <= i < |ts|
      ensures Framed(ts[i])
    {
      if i < |r.cookies| {
        assert ts[i] == CookieTexts(r.cookies)[i];
      } else {
        assert ts[i] == Cookies.Create(cs[i - |r.cookies|]);
        Cookies.CreateFramed(cs[i - |r.cookies|]);
      }
    }
  }

  // ---------------------------------------------------------------------------------------
  // Ready-made responses
  // ---------------------------------------------------------------------------------------

  /** A 200 response with the given content type, content length and content. */
  function Document(contentType: string, contents: string): (r: Response)
    ensures r.status == StatusLine(200) && r.location == "" && r.cookies == []
    ensures r.contentType == CRLF + ContentTypeName + contentType + ";"
    ensures r.contentLength == CRLF + ContentLengthName + NatToString(|Utf8(contents)|)
    ensures r.content == contents
  {
    SetContent(SetContentLength(SetContentType(SetStatus(New(), 200), contentType), |Utf8(contents)|), contents)
  }

  const JsonType: string := "application/json; charset=UTF-8"
  const XmlType: string := "application/xml; charset=UTF-8"

  /** `json`. */
  function Json(contents: string): (r: Response)
    ensures r == Document(JsonType, contents)
    ensures IsAsciiText(contents) ==> r.contentLength == CRLF + ContentLengthName + NatToString(|contents|)
  {
    Document(JsonType, contents)
  }

  /** `xml`. */
  function Xml(contents: string): (r: Response)
    ensures r == Document(XmlType, contents)
    ensures IsAsciiText(contents) ==> r.contentLength == CRLF + ContentLengthName + NatToString(|contents|)
  {
    Document(XmlType, contents)
  }

  /** `redirect`: a 302 carrying the location, with empty content. */
  function Redirect(url: string): (r: Response)
    ensures r.status == StatusLine(302) && r.location == CRLF + LocationName + url
    ensures r.contentType == "" && r.cookies == [] && r.content == ""
  {
    SetLocation(SetStatus(New(), 302), url)
  }

  /** Reading back a response that carries only a status line and a location. */
  lemma ReadLocated(r: Response, url: string)
    requires WellFormed(r) && r.cookies == [] && r.contentType == ""
    requires FieldLines(r.location) == [LocationName + url]
    ensures ReadResponse(CreateText(r)) == Some(([r.status, LocationName + url], r.content))
  {
    ReadCreate(r);
    assert CookieTexts(r.cookies) == [];
    assert Lines(CookieTexts(r.cookies)) == [];
    assert FieldLines(r.contentType) == [];
    assert HeadLines(r) == [r.status] + FieldLines(r.location) + Lines(CookieTexts(r.cookies)) + FieldLines(r.contentType);
    assert HeadLines(r) == [r.status, LocationName + url];
  }

  /** Reading back a response that carries only a status line and a content type. */
  lemma ReadTyped(r: Response, t: string)
    requires WellFormed(r) && r.cookies == [] && r.location == ""
    requires FieldLines(r.contentType) == [ContentTypeName + t + ";"]
    ensures ReadResponse(CreateText(r)) == Some(([r.status, ContentTypeName + t + ";"], r.content))
  {
    ReadCreate(r);
    assert CookieTexts(r.cookies) == [];
    assert Lines(CookieTexts(r.cookies)) == [];
    assert FieldLines(r.location) == [];
    assert HeadLines(r) == [r.status] + FieldLines(r.location) + Lines(CookieTexts(r.cookies)) + FieldLines(r.contentType);
    assert HeadLines(r) == [r.status, ContentTypeName + t + ";"];
  }

  /** A client reading a JSON or XML response sees a 200, the content type, and the contents. */
  lemma DocumentReadBack(contentType: string, contents: string)
    requires '\r' !in contentType
    ensures ReadResponse(CreateText(Document(contentType, contents))) ==
      Some(([StatusLine(200), ContentTypeName + contentType + ";"], contents))
  {
    var r := Document(contentType, contents);
    StatusLinePlain(200);
    assert r.contentType == SetContentType(New(), contentType).contentType;
    SetContentTypeFramed(New(), contentType);
    ReadTyped(r, contentType);
  }

  /** A client reading a redirect sees a 302, the location, and nothing else. */
  lemma RedirectReadBack(url: string)
    requires '\r' !in url
    ensures ReadResponse(CreateText(Redirect(url))) == Some(([StatusLine(302), LocationName + url], ""))
  {
    var r := Redirect(url);
    StatusLinePlain(302);
    assert r.location == SetLocation(New(), url).location;
    SetLocationFramed(New(), url);
    ReadLocated(r, url);
  }
}

=== FILE: settings.dfy ===
/**
 * The configuration the framework reads through kalgan_config, modelled as a map from dotted
 * keys to values, with the typed getters of src/settings.rs and its two defaulted parameters.
 */
module Settings {
  import opened Wrappers
  import opened Numbers

  /** A configured value; `Other` stands for floats, lists and maps the core never reads. */
  datatype Value = Str(s: string) | Num(n: int) | Flag(b: bool) | Other

  type Config = map<string, Value>

  const RefreshConfigTimeoutKey: string := "environment.refresh_config_timeout"
  const IsProdKey: string := "environment.is_prod"

  /** Number of seconds between two configuration reloads when none is configured. */
  const DefaultRefreshConfigTimeout: nat := 3

  /** Deployment mode when none is configured. */
  const DefaultIsProd: bool := false

  /** `settings::get_string`: resolves only a string value. */
  function GetString(cfg: Config, key: string): (r: Option<string>)
    ensures r.Some? <==> key in cfg && cfg[key].Str?
    ensures r.Some? ==> cfg[key] == Str(r.value)
  {
    if key in cfg && cfg[key].Str? then Some(cfg[key].s) else None
  }

  /** `settings::get_number`. */
  function GetNumber(cfg: Config, key: string): (r: Option<int>)
    ensures r.Some? <==> key in cfg && cfg[key].Num?
    ensures r.Some? ==> cfg[key] == Num(r.value)
  {
    if key in cfg && cfg[key].Num? then Some(cfg[key].n) else None
  }

  /** `settings::get_bool`. */
  function GetBool(cfg: Config, key: string): (r: Option<bool>)
    ensures r.Some? <==> key in cfg && cfg[key].Flag?
    ensures r.Some? ==> cfg[key] == Flag(r.value)
  {
    if key in cfg && cfg[key].Flag? then Some(cfg[key].b) else None
  }

  /** `settings::exists`. */
  predicate Exists(cfg: Config, key: string)
  {
    key in cfg
  }

  /** `settings::refresh_config_timeout`: the configured number cast `as u64`, else 3. */
  function RefreshConfigTimeout(cfg: Config): (r: nat)
    ensures r < U64Modulus
    ensures RefreshConfigTimeoutKey in cfg && cfg[RefreshConfigTimeoutKey].Num? ==>
              r == ToU64(cfg[RefreshConfigTimeoutKey].n)
    ensures !(RefreshConfigTimeoutKey in cfg && cfg[RefreshConfigTimeoutKey].Num?) ==> r == 3
  {
    match GetNumber(cfg, RefreshConfigTimeoutKey)
    case Some(n) => ToU64(n)
    case None => DefaultRefreshConfigTimeout
  }

  /** `settings::is_prod`: the configured flag, else false. */
  function IsProd(cfg: Config): (r: bool)
    ensures IsProdKey in cfg && cfg[IsProdKey].Flag? ==> r == cfg[IsProdKey].b
    ensures !(IsProdKey in cfg && cfg[IsProdKey].Flag?) ==> !r
  {
    match GetBool(cfg, IsProdKey)
    case Some(b) => b
    case None => DefaultIsProd
  }

  /**
   * The typed getters split a key's value among them: at most one resolves, none does for a
   * missing key, and for a key holding a string, number or flag, the one that resolves gives
   * back the stored value.
   */
  lemma GettersRecover(cfg: Config, key: string)
    ensures !(GetString(cfg, key).Some? && GetNumber(cfg, key).Some?)
    ensures !(GetString(cfg, key).Some? && GetBool(cfg, key).Some?)
    ensures !(GetNumber(cfg, key).Some? && GetBool(cfg, key).Some?)
    ensures !Exists(cfg, key) ==> GetString(cfg, key).None? && GetNumber(cfg, key).None? && GetBool(cfg, key).None?
    ensures Exists(cfg, key) && !cfg[key].Other? ==>
      cfg[key] == (if GetString(cfg, key).Some? then Str(GetString(cfg, key).value)
                   else if GetNumber(cfg, key).Some? then Num(GetNumber(cfg, key).value)
                   else Flag(GetBool(cfg, key).value))
  {
  }

  /** A value stored under a key is what its getter reads back, and no other key's reading changes. */
  lemma GetAfterSet(cfg: Config, key: string, v: Value, other: string)
    requires other != key
    ensures v.Str? ==> GetString(cfg[key := v], key) == Some(v.s)
    ensures v.Num? ==> GetNumber(cfg[key := v], key) == Some(v.n)
    ensures v.Flag? ==> GetBool(cfg[key := v], key) == Some(v.b)
    ensures Exists(cfg[key := v], key)
    ensures GetString(cfg[key := v], other) == GetString(cfg, other)
    ensures GetNumber(cfg[key := v], other) == GetNumber(cfg, other)
    ensures GetBool(cfg[key := v], other) == GetBool(cfg, other)
  {
  }

  /** Production mode is on exactly when `environment.is_prod` holds the flag `true`. */
  lemma IsProdFlag(cfg: Config)
    ensures IsProd(cfg) <==> GetBool(cfg, IsProdKey) == Some(true)
  {
  }
}

=== FILE: text.dfy ===
/**
 * The string primitives the framework borrows from Rust's `str`: leftmost search (`find`,
 * `contains`), splitting on a separator (`split`), joining (`join`), replacement (`replace`),
 * trimming (`trim`, `trim_start_matches`, `trim_end_matches`) and the `strip` helpers of the
 * kalgan_string crate. Each is characterised by what it computes, independently of how.
 */
module Text {
  import opened Wrappers

  const CRLF: string := "\r\n"

  /** The Unicode White_Space characters: what `str::trim` and the regex class `\s` match. */
  const Whitespace: set<char> := {
    '\t', '\n', '\U{000B}', '\U{000C}', '\r', ' ', '\U{0085}', '\U{00A0}', '\U{1680}',
    '\U{2000}', '\U{2001}', '\U{2002}', '\U{2003}', '\U{2004}', '\U{2005}', '\U{2006}',
    '\U{2007}', '\U{2008}', '\U{2009}', '\U{200A}', '\U{2028}', '\U{2029}', '\U{202F}',
    '\U{205F}', '\U{3000}'
  }

  const CrLfChars: set<char> := {'\r', '\n'}

  // ---------------------------------------------------------------------------------------
  // Searching
  // ---------------------------------------------------------------------------------------

  /** `pat` occurs in `s` starting at index `i`. */
  predicate OccursAt(s: string, pat: string, i: int)
  {
    0 <= i && i + |pat| <= |s| && s[i..i + |pat|] == pat
  }

  /** Leftmost occurrence of `pat` at or after `from`, as an index into `s`. */
  function FindFrom(s: string, pat: string, from: nat): (r: Option<nat>)
    ensures r.Some? ==> from <= r.value && OccursAt(s, pat, r.value)
    ensures r.Some? ==> forall j :: from <= j < r.value ==> !OccursAt(s, pat, j)
    ensures r.None? ==> forall j :: from <= j ==> !OccursAt(s, pat, j)
    decreases |s| - from
  {
    if from + |pat| > |s| then None
    else if s[from..from + |pat|] == pat then Some(from)
    else FindFrom(s, pat, from + 1)
  }

  /** Rust's `str::find`: the leftmost occurrence of `pat`. */
  function Find(s: string, pat: string): (r: Option<nat>)
    ensures r.Some? ==> OccursAt(s, pat, r.value)
    ensures r.Some? ==> forall j :: 0 <= j < r.value ==> !OccursAt(s, pat, j)
    ensures r.None? ==> forall j :: 0 <= j ==> !OccursAt(s, pat, j)
  {
    FindFrom(s, pat, 0)
  }

  /** Rust's `str::contains`. */
  predicate Contains(s: string, pat: string)
  {
    Find(s, pat).Some?
  }

  predicate StartsWith(s: string, prefix: string)
  {
    |prefix| <= |s| && s[..|prefix|] == prefix
  }

  lemma OccursImpliesContains(s: string, pat: string, i: int)
    requires OccursAt(s, pat, i)
    ensures Contains(s, pat)
  {
  }

  /** An occurrence inside a prefix is an occurrence in the whole string. */
  lemma OccursInPrefix(s: string, pat: string, n: nat, j: int)
    requires n <= |s|
    requires OccursAt(s[..n], pat, j)
    ensures OccursAt(s, pat, j)
  {
    assert s[..n][j..j + |pat|] == s[j..j + |pat|];
  }

  /** Occurrences in a suffix are occurrences in the whole string, shifted. */
  lemma OccursInSuffix(s: string, pat: string, n: nat, j: int)
    requires n <= |s|
    ensures OccursAt(s[n..], pat, j) <==> (0 <= j && OccursAt(s, pat, j + n))
  {
    if 0 <= j && j + |pat| <= |s| - n {
      assert s[n..][j..j + |pat|] == s[j + n..j + n + |pat|];
    }
  }

  /** A one-character pattern occurs exactly where that character is. */
  lemma ContainsChar(s: string, c: char)
    ensures Contains(s, [c]) <==> c in s
  {
    if c in s {
      var i :| 0 <= i < |s| && s[i] == c;
      assert s[i..i + 1] == [c];
      OccursImpliesContains(s, [c], i);
    }
    if Contains(s, [c]) {
      var i := Find(s, [c]).value;
      assert s[i..i + 1] == [c];
      assert s[i] == c;
    }
  }

  // ---------------------------------------------------------------------------------------
  // Splitting and joining
  // ---------------------------------------------------------------------------------------

  /** Rust's `[&str]::join`. */
  function Join(parts: seq<string>, sep: string): string
  {
    if |parts| == 0 then ""
    else if |parts| == 1 then parts[0]
    else parts[0] + sep + Join(parts[1..], sep)
  }

  lemma JoinCons(head: string, rest: seq<string>, sep: string)
    requires |rest| > 0
    ensures Join([head] + rest, sep) == head + sep + Join(rest, sep)
  {
    assert ([head] + rest)[1..] == rest;
  }

  /** A character in neither the separator nor any piece is not in the join. */
  lemma {:induction false} JoinFree(parts: seq<string>, sep: string, c: char)
    requires c !in sep && forall i :: 0 <= i < |parts| ==> c !in parts[i]
    ensures c !in Join(parts, sep)
    decreases |parts|
  {
    if |parts| > 1 {
      JoinFree(parts[1..], sep, c);
    }
  }

  /** A pattern sharing no character with a non-empty middle occurs in `a + m + b` only if in `a` or `b`. */
  lemma AvoidAcross(a: string, m: string, b: string, pat: string)
    requires |m| > 0 && forall x :: x in m ==> x !in pat
    requires !Contains(a, pat) && !Contains(b, pat)
    ensures !Contains(a + m + b, pat)
  {
    var s := a + m + b;
    assert !OccursAt(a, pat, 0);
    forall j | 0 <= j && j + |pat| <= |s|
      ensures !OccursAt(s, pat, j)
    {
      if j + |pat| <= |a| {
        assert a[j..j + |pat|] == s[j..j + |pat|];
        assert !OccursAt(a, pat, j);
      } else if j >= |a| + |m| {
        assert s[|a| + |m|..] == b;
        OccursInSuffix(s, pat, |a| + |m|, j - |a| - |m|);
      } else {
        var q := if j < |a| then |a| else j;
        assert s[j..j + |pat|][q - j] == s[q] == m[q - |a|];
        assert m[q - |a|] !in pat;
      }
    }
  }

  /** A pattern without the two padding characters is absent from the padded text if absent from it. */
  lemma AvoidPadded(t: string, x: char, y: char, pat: string)
    requires |pat| > 0 && x !in pat && y !in pat && !Contains(t, pat)
    ensures !Contains([x] + t + [y], pat)
  {
    assert !OccursAt("", pat, 0);
    AvoidAcross("", [x], t, pat);
    assert "" + [x] + t == [x] + t;
    AvoidAcross([x] + t, [y], "", pat);
    assert [x] + t + [y] + "" == [x] + t + [y];
  }

  /** A pattern sharing no character with the separator is absent from a join of pieces without it. */
  lemma {:induction false} JoinAvoids(parts: seq<string>, sep: string, pat: string)
    requires |pat| > 0 && |sep| > 0 && forall x :: x in sep ==> x !in pat
    requires forall i :: 0 <= i < |parts| ==> !Contains(parts[i], pat)
    ensures !Contains(Join(parts, sep), pat)
    decreases |parts|
  {
    if |parts| == 0 {
      assert !OccursAt("", pat, 0);
    } else if |parts| > 1 {
      JoinAvoids(parts[1..], sep, pat);
      AvoidAcross(parts[0], sep, Join(parts[1..], sep), pat);
    }
  }

  lemma JoinAppend(parts: seq<string>, last: string, sep: string)
    requires |parts| > 0
    ensures Join(parts + [last], sep) == Join(parts, sep) + sep + last
    decreases |parts|
  {
    if |parts| == 1 {
      assert parts + [last] == [parts[0]] + [last];
      JoinCons(parts[0], [last], sep);
    } else {
      assert parts + [last] == [parts[0]] + (parts[1..] + [last]);
      JoinCons(parts[0], parts[1..] + [last], sep);
      JoinAppend(parts[1..], last, sep);
      assert parts == [parts[0]] + parts[1..];
      JoinCons(parts[0], parts[1..], sep);
    }
  }

  /** Every piece of a join occurs in it. */
  lemma {:induction false} JoinHolds(parts: seq<string>, sep: string, k: nat)
    requires k < |parts|
    ensures Contains(Join(parts, sep), parts[k])
    decreases k
  {
    var s := Join(parts, sep);
    if |parts| == 1 {
      assert s[0..|parts[0]|] == parts[0];
      OccursImpliesContains(s, parts[0], 0);
    } else if k == 0 {
      assert s[0..|parts[0]|] == parts[0];
      OccursImpliesContains(s, parts[0], 0);
    } else {
      JoinHolds(parts[1..], sep, k - 1);
      var rest := Join(parts[1..], sep);
      var n := |parts[0] + sep|;
      assert s[n..] == rest;
      var j := Find(rest, parts[k]).value;
      OccursInSuffix(s, parts[k], n, j);
      OccursImpliesContains(s, parts[k], j + n);
    }
  }

  /** Every piece of a split occurs in the split text. */
  lemma SplitHolds(s: string, sep: string, k: nat)
    requires |sep| > 0 && k < |Split(s, sep)|
    ensures Contains(s, Split(s, sep)[k])
  {
    JoinHolds(Split(s, sep), sep, k);
  }

  /** A pattern found in a suffix is found in the whole text. */
  lemma ContainsInSuffix(s: string, pat: string, n: nat)
    requires n <= |s| && Contains(s[n..], pat)
    ensures Contains(s, pat)
  {
    var j := Find(s[n..], pat).value;
    OccursInSuffix(s, pat, n, j);
    OccursImpliesContains(s, pat, j + n);
  }

  /** A character inside an occurrence of `pat` is a character of `pat`. */
  lemma WindowChar(s: string, pat: string, j: int, p: int)
    ensures OccursAt(s, pat, j) && j <= p < j + |pat| ==> s[p] in pat
  {
    if OccursAt(s, pat, j) && j <= p < j + |pat| {
      assert s[j..j + |pat|][p - j] == s[p];
    }
  }

  /** An occurrence of `x + y` is an occurrence of `x` followed by one of `y`. */
  lemma OccursSplit(s: string, x: string, y: string, j: int)
    ensures OccursAt(s, x + y, j) ==> OccursAt(s, x, j) && OccursAt(s, y, j + |x|)
  {
    if OccursAt(s, x + y, j) {
      assert s[j..j + |x|] == s[j..j + |x| + |y|][..|x|];
      assert s[j + |x|..j + |x| + |y|] == s[j..j + |x| + |y|][|x|..];
    }
  }

  /** A text shorter than the pattern does not contain it. */
  lemma ShortAvoids(s: string, pat: string)
    requires |s| < |pat|
    ensures !Contains(s, pat)
  {
  }

  /** The leftmost occurrence is at `i` when the pattern occurs there and nowhere in the text before its end. */
  lemma FindFirst(s: string, pat: string, i: nat)
    requires |pat| > 0 && OccursAt(s, pat, i) && !Contains(s[..i + |pat| - 1], pat)
    ensures Find(s, pat) == Some(i)
  {
    forall j | 0 <= j < i
      ensures !OccursAt(s, pat, j)
    {
      if OccursAt(s, pat, j) {
        assert s[..i + |pat| - 1][j..j + |pat|] == s[j..j + |pat|];
        OccursImpliesContains(s[..i + |pat| - 1], pat, j);
      }
    }
  }

  /** A piece before the leftmost separator holds no separator. */
  lemma NoSeparatorBefore(s: string, sep: string, i: nat)
    requires |sep| > 0 && i <= |s|
    requires forall j :: 0 <= j < i ==> !OccursAt(s, sep, j)
    ensures !Contains(s[..i], sep)
  {
    if Contains(s[..i], sep) {
      var j := Find(s[..i], sep).value;
      OccursInPrefix(s, sep, i, j);
    }
  }

  /**
   * Rust's `str::split` on a non-empty separator: the pieces between successive leftmost
   * non-overlapping occurrences. Joining them back with the separator gives the input, and no
   * piece holds the separator.
   */
  function Split(s: string, sep: string): (r: seq<string>)
    requires |sep| > 0
    ensures |r| >= 1
    ensures Join(r, sep) == s
    ensures forall k :: 0 <= k < |r| ==> !Contains(r[k], sep)
    decreases |s|
  {
    match Find(s, sep)
    case None =>
      assert !Contains(s, sep);
      [s]
    case Some(i) =>
      var rest := Split(s[i + |sep|..], sep);
      NoSeparatorBefore(s, sep, i);
      JoinCons(s[..i], rest, sep);
      assert s == s[..i] + sep + s[i + |sep|..];
      [s[..i]] + rest
  }

  /** No proper suffix of `sep` is also a prefix of it, so occurrences cannot overlap. */
  predicate NoBorder(sep: string)
  {
    forall k :: 0 < k < |sep| ==> sep[k..] != sep[..|sep| - k]
  }

  lemma SingleCharNoBorder(c: char)
    ensures NoBorder([c])
  {
  }

  lemma CrLfNoBorder()
    ensures NoBorder(CRLF)
  {
    assert CRLF[1..] == "\n" && CRLF[..1] == "\r";
  }

  /** A separator whose last character appears nowhere else in it has no border. */
  lemma LastCharNoBorder(sep: string)
    requires |sep| > 0 && forall i :: 0 <= i < |sep| - 1 ==> sep[i] != sep[|sep| - 1]
    ensures NoBorder(sep)
  {
    forall k | 0 < k < |sep|
      ensures sep[k..] != sep[..|sep| - k]
    {
      assert sep[k..][|sep| - k - 1] == sep[|sep| - 1];
      assert sep[..|sep| - k][|sep| - k - 1] == sep[|sep| - k - 1];
    }
  }

  /** A text lacking one of the pattern's characters does not contain the pattern. */
  lemma MissingChar(t: string, pat: string, c: char)
    requires c in pat && c !in t
    ensures !Contains(t, pat)
  {
    var q :| 0 <= q < |pat| && pat[q] == c;
    forall j | 0 <= j
      ensures !OccursAt(t, pat, j)
    {
      if j + |pat| <= |t| {
        assert t[j..j + |pat|][q] == t[j + q];
      }
    }
  }

  /** A header line as stored: a line break followed by a non-empty text without carriage returns. */
  predicate Framed(f: string)
  {
    |f| > 2 && f[..2] == CRLF && '\r' !in f[2..]
  }

  /** A text without a carriage return holds no line break. */
  lemma NoCrNoCrLf(l: string)
    requires '\r' !in l
    ensures !Contains(l, CRLF)
  {
    forall i | 0 <= i
      ensures !OccursAt(l, CRLF, i)
    {
      if i + 2 <= |l| {
        assert l[i..i + 2][0] == l[i];
      }
    }
  }

  /** A string without the separator splits into itself. */
  lemma SplitWithout(s: string, sep: string)
    requires |sep| > 0 && !Contains(s, sep)
    ensures Split(s, sep) == [s]
  {
    assert Find(s, sep) == None;
  }

  /** A string splits into two pieces or more exactly when it holds the separator. */
  lemma SplitFound(s: string, sep: string)
    requires |sep| > 0
    ensures |Split(s, sep)| >= 2 <==> Contains(s, sep)
  {
    if !Contains(s, sep) {
      SplitWithout(s, sep);
    }
  }

  /** With a border-free separator, no occurrence straddles the end of `a` in `a + sep + b`. */
  lemma NoStraddle(a: string, sep: string, b: string, j: int)
    requires |sep| > 0 && NoBorder(sep)
    requires 0 <= j && |a| - |sep| < j < |a|
    ensures !OccursAt(a + sep + b, sep, j)
  {
    var s := a + sep + b;
    var k := |a| - j;
    assert s[|a|..j + |sep|] == sep[..|sep| - k];
    assert s[j..j + |sep|][k..] == s[|a|..j + |sep|];
    assert sep[k..] != sep[..|sep| - k];
  }

  /** In `a + sep + b`, the leftmost separator is the one placed there when `a` has none. */
  lemma FindAfterPlain(a: string, sep: string, b: string)
    requires |sep| > 0 && NoBorder(sep) && !Contains(a, sep)
    ensures Find(a + sep + b, sep) == Some(|a|)
  {
    var s := a + sep + b;
    assert s[|a|..|a| + |sep|] == sep;
    assert OccursAt(s, sep, |a|);
    forall j | 0 <= j < |a|
      ensures !OccursAt(s, sep, j)
    {
      if j + |sep| <= |a| {
        assert a[j..j + |sep|] == s[j..j + |sep|];
        assert !OccursAt(a, sep, j);
      } else {
        NoStraddle(a, sep, b, j);
      }
    }
  }

  /** In `a + sep + b`, the leftmost separator is the one of `a` when `a` has one. */
  lemma FindAfterSeparated(a: string, sep: string, b: string, i: nat)
    requires |sep| > 0 && Find(a, sep) == Some(i)
    ensures Find(a + sep + b, sep) == Some(i)
  {
    var s := a + sep + b;
    assert a[i..i + |sep|] == s[i..i + |sep|];
    assert OccursAt(s, sep, i);
    forall j | 0 <= j < i
      ensures !OccursAt(s, sep, j)
    {
      assert a[j..j + |sep|] == s[j..j + |sep|];
      assert !OccursAt(a, sep, j);
    }
  }

  /** Splitting distributes over a separator placed between two strings. */
  lemma {:induction false} SplitConcat(a: string, sep: string, b: string)
    requires |sep| > 0 && NoBorder(sep)
    ensures Split(a + sep + b, sep) == Split(a, sep) + Split(b, sep)
    decreases |a|
  {
    var s := a + sep + b;
    match Find(a, sep)
    case None =>
      FindAfterPlain(a, sep, b);
      assert s[..|a|] == a;
      assert s[|a| + |sep|..] == b;
      SplitWithout(a, sep);
    case Some(i) =>
      FindAfterSeparated(a, sep, b, i);
      assert s[..i] == a[..i];
      assert s[i + |sep|..] == a[i + |sep|..] + sep + b;
      SplitConcat(a[i + |sep|..], sep, b);
      assert Split(a, sep) == [a[..i]] + Split(a[i + |sep|..], sep);
  }

  /** Splitting undoes joining when no piece holds the (border-free) separator. */
  lemma {:induction false} SplitJoin(parts: seq<string>, sep: string)
    requires |sep| > 0 && NoBorder(sep) && |parts| > 0
    requires forall k :: 0 <= k < |parts| ==> !Contains(parts[k], sep)
    ensures Split(Join(parts, sep), sep) == parts
    decreases |parts|
  {
    if |parts| == 1 {
      SplitWithout(parts[0], sep);
    } else {
      SplitConcat(parts[0], sep, Join(parts[1..], sep));
      SplitWithout(parts[0], sep);
      SplitJoin(parts[1..], sep);
    }
  }

  // ---------------------------------------------------------------------------------------
  // Replacing
  // ---------------------------------------------------------------------------------------

  /** Rust's `str::replace`: every leftmost non-overlapping occurrence of `pat` becomes `rep`. */
  function Replace(s: string, pat: string, rep: string): string
    requires |pat| > 0
  {
    Join(Split(s, pat), rep)
  }

  /** `s.replace(pat, "")`. */
  function Remove(s: string, pat: string): string
    requires |pat| > 0
  {
    Replace(s, pat, "")
  }

  /** Removing a pattern that occurs only at the very start drops just that occurrence. */
  lemma RemoveLeading(pat: string, t: string)
    requires |pat| > 0 && !Contains(t, pat)
    ensures Remove(pat + t, pat) == t
  {
    var s := pat + t;
    assert s[0..|pat|] == pat;
    assert Find(s, pat) == Some(0);
    assert s[|pat|..] == t;
    SplitWithout(t, pat);
    assert Split(s, pat) == [""] + [t];
    JoinCons("", [t], "");
    assert "" + "" + t == t;
  }

  /** The characters of `s` other than `c`, in order. */
  function Filter(s: string, c: char): (r: string)
    ensures c !in r
    ensures forall x :: x in r <==> x in s && x != c
    ensures |r| <= |s|
  {
    if |s| == 0 then ""
    else if s[0] == c then Filter(s[1..], c)
    else [s[0]] + Filter(s[1..], c)
  }

  lemma FilterConcat(a: string, b: string, c: char)
    ensures Filter(a + b, c) == Filter(a, c) + Filter(b, c)
    decreases |a|
  {
    if |a| == 0 {
      assert a + b == b;
    } else {
      assert (a + b)[0] == a[0];
      assert (a + b)[1..] == a[1..] + b;
      FilterConcat(a[1..], b, c);
    }
  }

  lemma FilterWithout(s: string, c: char)
    requires c !in s
    ensures Filter(s, c) == s
    decreases |s|
  {
    if |s| > 0 {
      FilterWithout(s[1..], c);
    }
  }

  /** Removing a one-character pattern keeps every other character in order. */
  lemma {:induction false} RemoveChar(s: string, c: char)
    ensures Remove(s, [c]) == Filter(s, c)
    decreases |s|
  {
    match Find(s, [c])
    case None =>
      ContainsChar(s, c);
      FilterWithout(s, c);
    case Some(i) =>
      var rest := Split(s[i + 1..], [c]);
      assert Split(s, [c]) == [s[..i]] + rest;
      JoinCons(s[..i], rest, "");
      RemoveChar(s[i + 1..], c);
      NoSeparatorBefore(s, [c], i);
      ContainsChar(s[..i], c);
      FilterWithout(s[..i], c);
      assert s[i..i + 1] == [c];
      assert s == s[..i] + [c] + s[i + 1..];
      FilterConcat(s[..i] + [c], s[i + 1..], c);
      FilterConcat(s[..i], [c], c);
  }

  // ---------------------------------------------------------------------------------------
  // Trimming
  // ---------------------------------------------------------------------------------------

  /** Drops the longest prefix made of characters in `cs` (`trim_start_matches`). */
  function TrimStartIn(s: string, cs: set<char>): (r: string)
    ensures |r| <= |s| && r == s[|s| - |r|..]
    ensures forall i :: 0 <= i < |s| - |r| ==> s[i] in cs
    ensures |r| > 0 ==> r[0] !in cs
    decreases |s|
  {
    if |s| > 0 && s[0] in cs then TrimStartIn(s[1..], cs) else s
  }

  /** Drops the longest suffix made of characters in `cs` (`trim_end_matches`). */
  function TrimEndIn(s: string, cs: set<char>): (r: string)
    ensures |r| <= |s| && r == s[..|r|]
    ensures forall i :: |r| <= i < |s| ==> s[i] in cs
    ensures |r| > 0 ==> r[|r| - 1] !in cs
    decreases |s|
  {
    if |s| > 0 && s[|s| - 1] in cs then TrimEndIn(s[..|s| - 1], cs) else s
  }

  /** Rust's `str::trim`. */
  function Trim(s: string): string
  {
    TrimEndIn(TrimStartIn(s, Whitespace), Whitespace)
  }

  /** `trim_end_matches(&['\r', '\n'][..])`. */
  function TrimEndCrLf(s: string): string
  {
    TrimEndIn(s, CrLfChars)
  }

  /** A value without line-break characters loses just the carriage return after it. */
  lemma TrimCarriageReturn(value: string)
    requires '\n' !in value && '\r' !in value
    ensures TrimEndCrLf(value + "\r") == value
  {
    assert (value + "\r")[..|value|] == value;
    TrimEndNone(value, CrLfChars);
  }

  /** kalgan_string::strip: the character removed from both ends. */
  function Strip(s: string, c: char): string
  {
    TrimEndIn(TrimStartIn(s, {c}), {c})
  }

  /** kalgan_string::strip_left. */
  function StripLeft(s: string, c: char): string
  {
    TrimStartIn(s, {c})
  }

  /** kalgan_string::strip_right. */
  function StripRight(s: string, c: char): string
  {
    TrimEndIn(s, {c})
  }

  lemma TrimStartNone(s: string, cs: set<char>)
    requires |s| == 0 || s[0] !in cs
    ensures TrimStartIn(s, cs) == s
  {
  }

  lemma TrimEndNone(s: string, cs: set<char>)
    requires |s| == 0 || s[|s| - 1] !in cs
    ensures TrimEndIn(s, cs) == s
  {
  }

  /** Trimming a string padded only with characters of `cs` recovers the core. */
  lemma {:induction false} TrimPadded(pre: string, core: string, post: string, cs: set<char>)
    requires forall i :: 0 <= i < |pre| ==> pre[i] in cs
    requires forall i :: 0 <= i < |post| ==> post[i] in cs
    requires |core| > 0 && core[0] !in cs && core[|core| - 1] !in cs
    ensures TrimEndIn(TrimStartIn(pre + core + post, cs), cs) == core
  {
    var s := pre + core + post;
    var t := TrimStartIn(s, cs);
    assert s[|pre|] == core[0];
    assert forall i :: 0 <= i < |pre| ==> s[i] == pre[i];
    assert |t| == |core| + |post|;
    assert t == core + post;
    var u := TrimEndIn(t, cs);
    assert t[|core| - 1] == core[|core| - 1];
    assert forall i :: |core| <= i < |t| ==> t[i] == post[i - |core|];
    assert |u| == |core|;
  }

  /** Trimming whitespace from a string with whitespace only at its ends. */
  lemma TrimSpaced(core: string, post: string)
    requires forall i :: 0 <= i < |post| ==> post[i] in Whitespace
    requires |core| > 0 && core[0] !in Whitespace && core[|core| - 1] !in Whitespace
    ensures Trim(" " + core + post) == core
  {
    TrimPadded(" ", core, post, Whitespace);
  }

  // ---------------------------------------------------------------------------------------
  // Whitespace runs
  // ---------------------------------------------------------------------------------------

  /** The regex replacement `\s+` -> `" "`: every maximal whitespace run becomes one space. */
  function CollapseWhitespace(s: string): (r: string)
    ensures forall i :: 0 <= i < |r| && r[i] in Whitespace ==> r[i] == ' '
    ensures (forall i :: 0 <= i < |s| ==> s[i] !in Whitespace) ==> r == s
    decreases |s|
  {
    if |s| == 0 then ""
    else if s[0] in Whitespace then " " + CollapseWhitespace(TrimStartIn(s, Whitespace))
    else [s[0]] + CollapseWhitespace(s[1..])
  }
}

=== FILE: wrappers.dfy ===
/** Failure-carrying datatypes shared by the whole model. */
module Wrappers {

  /** A value that may be absent. */
  datatype Option<+T> = None | Some(value: T) {
    function GetOr(default: T): T
    {
      match this
      case Some(v) => v
      case None => default
    }
  }

  /** Rust's `Result<R, E>`. */
  datatype Result<+R, +E> = Ok(value: R) | Err(error: E)
}
